=== FILE: README.md ===
# Mojave dispatch core in Dafny

This project models the request-dispatch core of the Mojave MVC framework (a
Java web framework): how a request path is turned into controller and action
names, how a route with a parameter path compiles to a regular-expression
pattern and how a table of such routes picks the route for a path, how the
controller and interceptor declarations found at startup are validated into a
read-only registry and queried, and the pure decisions the front controller
takes at startup (package lists, the content-type to marshaller map, the
error-handler factory name, the refusal to start without controllers).

Everything is immutable data and pure functions over `seq`, `set` and `map`;
Java's `null` is `Option.None` and a thrown exception is `Result.Failure`.

Modules, in dependency order:

- `Wrappers`: `Option` and `Result`.
- `Seqs`: counting, first index, first duplicate, and "first preferred, else first" selection.
- `JavaStrings`: `String.trim`, `String.split` on a one-character separator with Java's dropping of trailing empty pieces, `indexOf`/`substring` cuts, and `Join`.
- `RouteHelper`: `getPathElements`.
- `HttpRequestRouter`: `route`, which splits `pathInfo` into controller and action.
- `ParamPath`: param-path tokens (`lit`, `:name`, `:name<re>`), their parsing and rendering, the escape of literal tokens, and parameter-name extraction (`ParamPathHelper`).
- `RegexRoute`: a route (optional controller, optional action, optional param path), the pattern string it compiles to, and the structural match of a path against it.
- `RegexRouteMap`: the route table, with its literal-first, then registration-order resolution.
- `Declarations`: controller, method, parameter and interceptor declarations (the annotations read by reflection in Java), and the configuration errors.
- `InterceptorDescriptor`: interceptor validation and hook lookup.
- `ControllerDescriptor`: controller validation, lifecycle, and name.
- `ControllerDatabase`: the all-or-nothing registry build (`MappedControllerDatabase`) and its lookups.
- `RegistryProperties`, `RegistryRejections`, `RegistryFixtures`: properties of accepted registries, the rejected declarations, and the test classes of the registry tests (`TestController` with its literal names, the others over symbolic names).
- `StartupConfig`: the pure helpers of `FrontControllerInitializer`.

`RegexRoute`, `RegexRouteMap`, `ParamPathHelper` and `MappedControllerDatabase`
are modelled from the JUnit tests that pin their behaviour (`TestRegexRoute`,
`RouteMapContractTest`, `TestParamPathHelper`, `TestMappedControllerDatabase`).
The table cites those test lines.

## Model

| member | source | states |
|---|---|---|
| JavaStrings.JavaSplit | mojave-core/src/main/java/org/mojavemvc/core/HttpRequestRouter.java:43 | a string without the separator splits to itself; otherwise the pieces hold no separator and the last piece is never empty |
| JavaStrings.JavaSplitJoin | mojave-core/src/main/java/org/mojavemvc/util/RouteHelper.java:32 | splitting undoes joining for separator-free pieces whose last piece is non-empty |
| JavaStrings.TrimPadded | mojave-core/src/main/java/org/mojavemvc/util/RouteHelper.java:30 | whitespace added at either end does not change the trimmed string |
| JavaStrings.TrimIdempotent | mojave-core/src/main/java/org/mojavemvc/util/RouteHelper.java:30 | trimming twice is trimming once |
| JavaStrings.BlankIsAllSpace | mojave-core/src/main/java/org/mojavemvc/core/FrontControllerInitializer.java:360-362 | a string trims to nothing exactly when every character is at most U+0020 |
| RouteHelper.GetPathElements | mojave-core/src/main/java/org/mojavemvc/util/RouteHelper.java:28-33 | a null path fails with the null error and only then; a blank path fails with the empty error and only then; no returned element contains `/` |
| RouteHelper.GetPathElementsIgnoresPadding | mojave-core/src/main/java/org/mojavemvc/util/RouteHelper.java:30 | leading and trailing whitespace does not change the result |
| RouteHelper.GetPathElementsDropsFirstChar | mojave-core/src/main/java/org/mojavemvc/util/RouteHelper.java:32 | the first non-blank character is dropped whatever it is, `/` or not |
| RouteHelper.GetPathElementsRoundTrip | mojave-core/src/main/java/org/mojavemvc/util/RouteHelper.java:32 | for a trimmed path of length at least 2 that starts with `/` and does not end with `/`, `"/"` joined with the elements gives the path back |
| HttpRequestRouter.Route | mojave-core/src/main/java/org/mojavemvc/core/HttpRequestRouter.java:35-56 | a null path or one not starting with `/` gives neither name; the controller is present iff the rest has a non-`/` character, and is the first token verbatim; the action is present iff a second token exists, and is that token cut at its first `?`; an action never comes without a controller and never contains `?` |
| HttpRequestRouter.RouteTokens | mojave-core/src/main/java/org/mojavemvc/core/HttpRequestRouter.java:43-47 | the second and third split tokens exist exactly when the rest (or the rest after the first `/`) has a non-`/` character, and are the text up to the next `/` |
| HttpRequestRouter.RouteOfRoot | mojave-core/src/main/java/org/mojavemvc/core/HttpRequestRouter.java:43-45 | `"/"` yields no controller and no action |
| HttpRequestRouter.RouteOfControllerAndRest | mojave-core/src/main/java/org/mojavemvc/core/HttpRequestRouter.java:44-50 | `/c/r` gives controller `c` and the first token of `r`, cut at `?`, as the action |
| HttpRequestRouter.RouteIgnoresTail | mojave-core/src/main/java/org/mojavemvc/core/HttpRequestRouter.java:43-53 | tokens after the second do not change the result |
| ParamPath.UnescapeEscape | mojave-core/src/test/java/org/mojavemvc/tests/TestRegexRoute.java:92-97 | the escape of a literal token is injective: unescaping gives the token back |
| ParamPath.EscapePlusExample | mojave-core/src/test/java/org/mojavemvc/tests/TestRegexRoute.java:92-97 | `a+b` escapes to `a\+b` |
| ParamPath.ParseToken | mojave-core/src/test/java/org/mojavemvc/tests/TestParamPathHelper.java:32-64 | a token is a literal iff it is empty or does not start with `:`, and a literal keeps its text; a parameter's name is a prefix of the text after `:` |
| ParamPath.ParseRender | mojave-core/src/test/java/org/mojavemvc/tests/TestParamPathHelper.java:32-64 | parsing a rendered well-formed segment gives it back, and the rendering holds no `/` |
| ParamPath.ParseCustomToken | mojave-core/src/test/java/org/mojavemvc/tests/TestParamPathHelper.java:60-64 | `:name<re>` parses to the name before `<` and the body between the brackets, so the custom part is stripped from the name |
| ParamPath.SegmentsRoundTrip | mojave-core/src/test/java/org/mojavemvc/tests/TestParamPathHelper.java:32-43 | joining rendered segments with `/` and parsing gives the segments back, and the parameter names are the segments' names in left-to-right order |
| ParamPath.NamesOfAppend | mojave-core/src/test/java/org/mojavemvc/tests/TestParamPathHelper.java:39-43 | the names of two consecutive stretches are the first stretch's names followed by the second's |
| ParamPath.NamesOfLiterals | mojave-core/src/test/java/org/mojavemvc/tests/TestParamPathHelper.java:46-50 | a path with no parameter token has no names |
| ParamPath.ParamNamesSkipLiteral | mojave-core/src/test/java/org/mojavemvc/tests/TestParamPathHelper.java:53-57 | a leading literal token contributes no name |
| ParamPath.ParamNamesFromMethod | mojave-core/src/test/java/org/mojavemvc/tests/TestParamPathHelper.java:67-89 | a name is returned iff some parameter carries `@Param` with that name |
| ParamPath.ParamNamesFromAnnotatedMethod | mojave-core/src/test/java/org/mojavemvc/tests/TestParamPathHelper.java:67-89 | when every parameter is annotated, the names are the annotation values in parameter order (none for no parameters) |
| RegexRoute.Pattern | mojave-core/src/test/java/org/mojavemvc/tests/TestRegexRoute.java:12-97 | every compiled pattern starts with `^/` and ends with `$` |
| RegexRoute.PatternOfRoot | mojave-core/src/test/java/org/mojavemvc/tests/TestRegexRoute.java:12-17 | the all-absent route compiles to `^/$` |
| RegexRoute.PatternOfController | mojave-core/src/test/java/org/mojavemvc/tests/TestRegexRoute.java:20-25 | a controller-only route compiles to `^/cntrl$` |
| RegexRoute.PatternOfAction | mojave-core/src/test/java/org/mojavemvc/tests/TestRegexRoute.java:28-33 | an action-only route compiles to `^/actn$` |
| RegexRoute.PatternOfNames | mojave-core/src/test/java/org/mojavemvc/tests/TestRegexRoute.java:20-41 | present controller and action names are joined by `/` between `^/` and `$` |
| RegexRoute.PatternOfSegments | mojave-core/src/test/java/org/mojavemvc/tests/TestRegexRoute.java:44-89 | the param path's segment patterns follow the present names, left to right |
| RegexRoute.PatternOfLiteralAndParam | mojave-core/src/test/java/org/mojavemvc/tests/TestRegexRoute.java:44-73 | `lit/:n` compiles to the escaped literal followed by `([^/]+)`, after whichever names are present |
| RegexRoute.PatternOfLiteralAndCustomParam | mojave-core/src/test/java/org/mojavemvc/tests/TestRegexRoute.java:76-81 | a custom `:n<re>` compiles to the group `(re)` with `re` verbatim |
| RegexRoute.PatternOfCustomThenParam | mojave-core/src/test/java/org/mojavemvc/tests/TestRegexRoute.java:84-89 | several parameters compile left to right, custom and bare mixed |
| RegexRoute.Bindings | mojave-core/src/test/java/org/mojavemvc/tests/RouteMapContractTest.java:57-63 | bindings exist exactly when the route matches the path |
| RegexRoute.SamplePathRoundTrip | mojave-core/src/test/java/org/mojavemvc/tests/RouteMapContractTest.java:57-135 | filling a route's parameters with fitting values gives a path the route matches, whose bindings map each name to its value |
| RegexRoute.LiteralRouteMatchesOnlyItsPath | mojave-core/src/test/java/org/mojavemvc/tests/RouteMapContractTest.java:66-90 | a route without parameters matches exactly one path |
| RegexRoute.NoNamesIsLiteral | mojave-core/src/test/java/org/mojavemvc/tests/RouteMapContractTest.java:48-54 | a segment list has no names iff all its segments are literal |
| RegexRouteMap.Add | mojave-core/src/test/java/org/mojavemvc/tests/RouteMapContractTest.java:48-54 | a route is registered after all earlier ones, which keep their places |
| RegexRouteMap.ResolveIndex | mojave-core/src/test/java/org/mojavemvc/tests/RouteMapContractTest.java:40-135 | the chosen route matches; none is chosen iff none matches; no matching literal route comes before the choice; a parameterized choice means no literal route matches and no earlier route matches |
| RegexRouteMap.ResolveIndexIsWinner | mojave-core/src/test/java/org/mojavemvc/tests/RouteMapContractTest.java:48-63 | the resolved index is exactly the one the literal-first, then first-registered rule picks |
| RegexRouteMap.LiteralBeatsParameterized | mojave-core/src/test/java/org/mojavemvc/tests/RouteMapContractTest.java:48-54 | when any literal route matches, the resolved route is literal, wherever it was registered |
| RegexRouteMap.AddResolution | mojave-core/src/test/java/org/mojavemvc/tests/RouteMapContractTest.java:40-135 | how one more registration changes the resolution: a literal winner stays, a new matching literal takes over, else an existing winner stays, else the new route wins if it matches |
| RegexRouteMap.GetRoute | mojave-core/src/test/java/org/mojavemvc/tests/RouteMapContractTest.java:93-99 | the result is a registered route that matches; absent iff no route matches (not an error) |
| RegexRouteMap.Resolve | mojave-core/src/test/java/org/mojavemvc/tests/RouteMapContractTest.java:57-63 | the resolution is the chosen route with its bindings, which bind exactly the route's parameter names |
| RegexRouteMap.ResolveOfPair | mojave-core/src/test/java/org/mojavemvc/tests/RouteMapContractTest.java:47-135 | resolution in a two-route table, spelled out case by case |
| RegexRouteMap.GetRouteOfRoot | mojave-core/src/test/java/org/mojavemvc/tests/RouteMapContractTest.java:40-45 | the all-absent route is found for `/` |
| RegexRouteMap.SimilarMatchesConstant | mojave-core/src/test/java/org/mojavemvc/tests/RouteMapContractTest.java:47-54 | literal `lit/x` wins over `lit/:n` for `/lit/x` |
| RegexRouteMap.SimilarMatchesParam | mojave-core/src/test/java/org/mojavemvc/tests/RouteMapContractTest.java:56-63 | a path only `lit/:n` matches resolves to it, binding the parameter to the segment |
| RegexRouteMap.IgnoresParamRegion | mojave-core/src/test/java/org/mojavemvc/tests/RouteMapContractTest.java:65-72 | a controller-only route does not match a longer path; `/c` picks it over its param-path sibling |
| RegexRouteMap.FindsParamRegion | mojave-core/src/test/java/org/mojavemvc/tests/RouteMapContractTest.java:74-81 | `/c/lit/v` resolves to the route with the param path |
| RegexRouteMap.DistinguishesControllerAndAction | mojave-core/src/test/java/org/mojavemvc/tests/RouteMapContractTest.java:83-90 | `/a` resolves to the action-only route, not the controller-only one |
| RegexRouteMap.NotFound | mojave-core/src/test/java/org/mojavemvc/tests/RouteMapContractTest.java:92-99 | a path matching no route resolves to nothing |
| RegexRouteMap.MultiParamRegions | mojave-core/src/test/java/org/mojavemvc/tests/RouteMapContractTest.java:101-117 | the segment count selects between `:n1` and `:n1/:n2` |
| RegexRouteMap.CustomRegexSelects | mojave-core/src/test/java/org/mojavemvc/tests/RouteMapContractTest.java:119-135 | between `:n<re1>` and `:n<re2>`, the first whose pattern accepts the segment wins; neither gives nothing |
| InterceptorDescriptor.CheckInterceptor | mojave-core/src/test/java/org/mojavemvc/tests/TestMappedControllerDatabase.java:147-220 | an interceptor is refused iff it has no hook, a hook takes something other than the request context, or it has two before or two after hooks; the error names the interceptor |
| InterceptorDescriptor.HooksOfValidInterceptor | mojave-core/src/test/java/org/mojavemvc/tests/TestMappedControllerDatabase.java:223-250 | in a valid interceptor each hook lookup names the one method carrying that hook, and at least one lookup answers |
| ControllerDescriptor.LifecycleOf | mojave-core/src/test/java/org/mojavemvc/tests/TestMappedControllerDatabase.java:63-118 | the lifecycle is the one marker present |
| ControllerDescriptor.ControllerName | mojave-core/src/test/java/org/mojavemvc/tests/TestMappedControllerDatabase.java:78-117 | the marker's value when non-empty, else the class's simple name |
| ControllerDescriptor.VerbClash | mojave-core/src/test/java/org/mojavemvc/tests/TestMappedControllerDatabase.java:1029-1058 | no verb is reported iff no verb is bound by two methods; a reported verb is bound by two methods |
| ControllerDescriptor.CheckList | mojave-core/src/test/java/org/mojavemvc/tests/TestMappedControllerDatabase.java:343-447 | an `@InterceptedBy` list is refused iff it repeats an interceptor or names an invalid one |
| ControllerDescriptor.CheckController | mojave-core/src/test/java/org/mojavemvc/tests/TestMappedControllerDatabase.java:765-907 | a controller is refused iff it breaks one of the rules of `ValidController` |
| ControllerDatabase.Build | mojave-core/src/test/java/org/mojavemvc/tests/TestMappedControllerDatabase.java:63-1058 | the build succeeds iff every controller is valid, names are distinct and at most one controller is the default; a registry keeps the declarations |
| ControllerDatabase.FindController | mojave-core/src/test/java/org/mojavemvc/tests/TestMappedControllerDatabase.java:63-118 | a found declaration is registered under that class; none iff no registered class has that name |
| ControllerDatabase.ControllerClass | mojave-core/src/test/java/org/mojavemvc/tests/TestMappedControllerDatabase.java:78-85 | a found class is registered under that controller name; none iff no controller has that name |
| ControllerDatabase.DefaultControllerClass | mojave-core/src/test/java/org/mojavemvc/tests/TestMappedControllerDatabase.java:106-108 | a found default is marked default; none iff no controller is marked |
| ControllerDatabase.InitControllers | mojave-core/src/test/java/org/mojavemvc/tests/TestMappedControllerDatabase.java:110-117 | the init set is exactly the classes marked `@Init` |
| ControllerDatabase.InterceptorsForAction | mojave-core/src/test/java/org/mojavemvc/tests/TestMappedControllerDatabase.java:569-586 | an action's chain exists iff the action exists, and it is that action method's chain: its own list, else the class-level list |
| ControllerDatabase.AllInterceptors | mojave-core/src/test/java/org/mojavemvc/tests/TestMappedControllerDatabase.java:223-340 | the registered interceptors are exactly those some controller lists at class or method level |
| ControllerDatabase.FindInterceptor | mojave-core/src/test/java/org/mojavemvc/tests/TestMappedControllerDatabase.java:223-250 | a found interceptor is registered under that class; none iff no registered interceptor has that class |
| ControllerDatabase.ActionSignatureOf | mojave-core/src/test/java/org/mojavemvc/tests/TestMappedControllerDatabase.java:81-91 | a found signature is that of a method carrying `@Action(a)` in the registered controller of that class; none iff the class is unregistered or no method of it carries that action |
| ControllerDatabase.DefaultActionOf | mojave-core/src/test/java/org/mojavemvc/tests/TestMappedControllerDatabase.java:101-104 | a found signature is that of the method marked `@DefaultAction` in the controller of that class; none iff the class is unregistered or has no such method |
| ControllerDatabase.BeforeActionOf | mojave-core/src/test/java/org/mojavemvc/tests/TestMappedControllerDatabase.java:93-95 | a found signature is that of the controller's `@BeforeAction` method; none iff the class is unregistered or has no such method |
| ControllerDatabase.AfterActionOf | mojave-core/src/test/java/org/mojavemvc/tests/TestMappedControllerDatabase.java:97-99 | a found signature is that of the controller's `@AfterAction` method; none iff the class is unregistered or has no such method |
| ControllerDatabase.AfterConstructOf | mojave-core/src/test/java/org/mojavemvc/tests/TestMappedControllerDatabase.java:106-112 | a found signature is that of the controller's `@AfterConstruct` method; none iff the class is unregistered or has no such method |
| ControllerDatabase.HttpMethodActionOf | mojave-core/src/test/java/org/mojavemvc/tests/TestMappedControllerDatabase.java:916-950 | a found signature is that of the controller's method bound to the verb; none iff the class is unregistered or no method is bound to it |
| ControllerDatabase.InterceptorsFor | mojave-core/src/test/java/org/mojavemvc/tests/TestMappedControllerDatabase.java:264-273 | a chain exists iff the class is registered, and it is that controller's class-level list in declaration order (empty when it has none) |
| ControllerDatabase.InterceptorsForDefaultAction | mojave-core/src/test/java/org/mojavemvc/tests/TestMappedControllerDatabase.java:582-586 | a chain exists iff a default action exists, and it is that method's chain: its own list, else the class-level list |
| ControllerDatabase.InterceptorsForHttpMethodAction | mojave-core/src/test/java/org/mojavemvc/tests/TestMappedControllerDatabase.java:968-972 | a chain exists iff a method is bound to the verb, and it is that method's chain: its own list, else the class-level list |
| ControllerDatabase.BeforeForInterceptor | mojave-core/src/test/java/org/mojavemvc/tests/TestMappedControllerDatabase.java:242-244 | an unlisted interceptor class has no before hook; a listed one answers with its own before hook, the name of one of its methods marked before |
| ControllerDatabase.AfterForInterceptor | mojave-core/src/test/java/org/mojavemvc/tests/TestMappedControllerDatabase.java:246-248 | an unlisted interceptor class has no after hook; a listed one answers with its own after hook, the name of one of its methods marked after |
| RegistryProperties.FindControllerByClass | mojave-core/src/test/java/org/mojavemvc/tests/TestMappedControllerDatabase.java:63-118 | with distinct classes, each controller is found by its class |
| RegistryProperties.LookupByName | mojave-core/src/test/java/org/mojavemvc/tests/TestMappedControllerDatabase.java:78-85 | in an accepted registry each controller is found under its name |
| RegistryProperties.DefaultIsTheMarked | mojave-core/src/test/java/org/mojavemvc/tests/TestMappedControllerDatabase.java:106-108 | a controller is the default iff it is marked `@DefaultController` |
| RegistryProperties.DistinctActionNames | mojave-core/src/test/java/org/mojavemvc/tests/TestMappedControllerDatabase.java:549-611 | distinct action names mean at most one method per name |
| RegistryProperties.ActionLookup | mojave-core/src/test/java/org/mojavemvc/tests/TestMappedControllerDatabase.java:549-611 | action `a` is the method carrying `@Action(a)`, and its chain is that method's chain |
| RegistryProperties.MethodListOverrides | mojave-core/src/test/java/org/mojavemvc/tests/TestMappedControllerDatabase.java:569-586 | a method-level list replaces the class-level list for that action and is not merged with it; the class list is still reported for the controller; changing the class list does not change the action's chain |
| RegistryProperties.ActionInheritsClassList | mojave-core/src/test/java/org/mojavemvc/tests/TestMappedControllerDatabase.java:268-273 | an action without its own list has the class-level list, in declaration order |
| RegistryProperties.VerbLookup | mojave-core/src/test/java/org/mojavemvc/tests/TestMappedControllerDatabase.java:909-1027 | a verb answers with the one method bound to it and that method's chain |
| RegistryProperties.OneMethodManyVerbs | mojave-core/src/test/java/org/mojavemvc/tests/TestMappedControllerDatabase.java:985-1027 | verbs bound to the same method give the same signature and the same chain |
| RegistryProperties.MarkedMethodLookups | mojave-core/src/test/java/org/mojavemvc/tests/TestMappedControllerDatabase.java:63-118 | the default action, before, after and after-construct lookups each answer with the marked method |
| RegistryProperties.ListedInterceptorsValid | mojave-core/src/test/java/org/mojavemvc/tests/TestMappedControllerDatabase.java:223-340 | every interceptor of an accepted registry is valid |
| RegistryProperties.InterceptorHookLookups | mojave-core/src/test/java/org/mojavemvc/tests/TestMappedControllerDatabase.java:240-248 | the registry's hook lookups for an interceptor are its own hooks, and at least one answers |
| RegistryRejections.FirstControllerErrorReported | mojave-core/src/test/java/org/mojavemvc/tests/TestMappedControllerDatabase.java:850-907 | the first controller's own error is the build's error |
| RegistryRejections.RejectsMissingMarker | mojave-core/src/test/java/org/mojavemvc/tests/TestMappedControllerDatabase.java:895-907 | no lifecycle marker is refused with that error |
| RegistryRejections.RejectsConflictingMarkers | mojave-core/src/test/java/org/mojavemvc/tests/TestMappedControllerDatabase.java:850-877 | two or three lifecycle markers are refused with that error |
| RegistryRejections.RejectsUnannotated | mojave-core/src/test/java/org/mojavemvc/tests/TestMappedControllerDatabase.java:880-892 | a marked controller with no annotated method is refused with that error |
| RegistryRejections.RejectsNonViewAction | mojave-core/src/test/java/org/mojavemvc/tests/TestMappedControllerDatabase.java:765-823 | a named or default action whose result is not a view fails the whole build; the model applies the same rule to verb-bound methods (see Left out) |
| RegistryRejections.RejectsSharedVerb | mojave-core/src/test/java/org/mojavemvc/tests/TestMappedControllerDatabase.java:1029-1058 | two methods bound to one verb fail the build |
| RegistryRejections.RejectsRepeatedClassInterceptor | mojave-core/src/test/java/org/mojavemvc/tests/TestMappedControllerDatabase.java:343-356 | a class-level list naming an interceptor twice fails the build |
| RegistryRejections.RejectsRepeatedMethodInterceptor | mojave-core/src/test/java/org/mojavemvc/tests/TestMappedControllerDatabase.java:434-447 | a method-level list naming an interceptor twice fails the build |
| RegistryRejections.InterceptorWithoutHooksRejected | mojave-core/src/test/java/org/mojavemvc/tests/TestMappedControllerDatabase.java:147-160 | an interceptor with no hook is refused with that error |
| RegistryRejections.InterceptorBadHookRejected | mojave-core/src/test/java/org/mojavemvc/tests/TestMappedControllerDatabase.java:162-190 | a hook with a non-context parameter is refused as a parameter error |
| RegistryRejections.InterceptorDuplicateHookRejected | mojave-core/src/test/java/org/mojavemvc/tests/TestMappedControllerDatabase.java:192-220 | two before hooks or two after hooks are refused |
| RegistryRejections.RejectsInvalidClassInterceptor | mojave-core/src/test/java/org/mojavemvc/tests/TestMappedControllerDatabase.java:147-220 | a controller listing an invalid interceptor fails the build |
| RegistryRejections.RejectsInvalidMethodInterceptor | mojave-core/src/test/java/org/mojavemvc/tests/TestMappedControllerDatabase.java:147-220 | the same for a method-level list |
| RegistryFixtures.TestControllerValid | mojave-core/src/test/java/org/mojavemvc/tests/TestMappedControllerDatabase.java:1507-1558 | `TestController` as declared (default, stateless `test`, ten methods including an unannotated one) passes every rule of the build, and its action names are distinct |
| RegistryFixtures.ConstructLookups | mojave-core/src/test/java/org/mojavemvc/tests/TestMappedControllerDatabase.java:63-118 | `TestController` with `TestStartupController` is accepted; `test` and `startup` find their classes; `TestController` is the default; its actions `test`, `with-param`, `another-param`, `some-service` and `test-annotation` answer with `testAction`, `withParamAction`, `anotherParamAction`, `someServiceAction` and `doAnnotationTest`; before, after, default and after-construct answer with `doSomethingBefore`, `doSomethingAfter`, `defaultAction` and `init`; the init set is exactly `TestStartupController`, whose after-construct hook is `init2` and which has no action |
| RegistryFixtures.MethodInterceptorController6Lookups | mojave-core/src/test/java/org/mojavemvc/tests/TestMappedControllerDatabase.java:549-611 | class list `[I3]` with method list `[I1, I2]`: the action's chain is `[I1, I2]`, the class chain stays `[I3]`, and the interceptors' hooks are found |
| RegistryFixtures.HttpMethodController3Lookups | mojave-core/src/test/java/org/mojavemvc/tests/TestMappedControllerDatabase.java:985-1027 | one method bound to GET, POST and PUT answers each with the same method and chain; DELETE answers nothing |
| StartupConfig.IsEmpty | mojave-core/src/main/java/org/mojavemvc/core/FrontControllerInitializer.java:360-362 | true exactly for null or whitespace-only strings |
| StartupConfig.AddNamespaces | mojave-core/src/main/java/org/mojavemvc/core/FrontControllerInitializer.java:350-358 | the existing entries stay in front and the list's namespaces follow in order |
| StartupConfig.KeepNamespacesMembers | mojave-core/src/main/java/org/mojavemvc/core/FrontControllerInitializer.java:350-358 | a namespace is kept iff it is the trim of a non-blank piece |
| StartupConfig.NamespacesAreClean | mojave-core/src/main/java/org/mojavemvc/core/FrontControllerInitializer.java:350-358 | every namespace read from a list is non-blank, trimmed and comma-free |
| StartupConfig.NamespacesJoin | mojave-core/src/main/java/org/mojavemvc/core/FrontControllerInitializer.java:350-358 | clean namespaces joined by commas read back as the same namespaces |
| StartupConfig.ControllerPackages | mojave-core/src/main/java/org/mojavemvc/core/FrontControllerInitializer.java:208-220 | a missing or blank param gives `[""]`; otherwise the listed namespaces |
| StartupConfig.WholeClasspathIff | mojave-core/src/main/java/org/mojavemvc/core/FrontControllerInitializer.java:208-220 | the whole classpath (`""`) is scanned iff the param is missing or blank, and then it is the only package |
| StartupConfig.CommasOnlyScanNothing | mojave-core/src/main/java/org/mojavemvc/core/FrontControllerInitializer.java:211-218 | a param of only commas is not blank yet yields no package at all |
| StartupConfig.InitializerPackages | mojave-core/src/main/java/org/mojavemvc/core/FrontControllerInitializer.java:121-131 | the internal initializer package always comes first; the configured namespaces follow when the param is set |
| StartupConfig.ConfiguredInitializersScanned | mojave-core/src/main/java/org/mojavemvc/core/FrontControllerInitializer.java:121-131 | configuring clean namespaces scans exactly the internal package followed by them |
| StartupConfig.Register | mojave-core/src/main/java/org/mojavemvc/core/FrontControllerInitializer.java:246-252 | each handled content type now maps to the marshaller; other entries are untouched; no other key appears |
| StartupConfig.LastHandler | mojave-core/src/main/java/org/mojavemvc/core/FrontControllerInitializer.java:222-267 | a handler found handles the type and was constructed; none means no constructed marshaller handles it |
| StartupConfig.LastWins | mojave-core/src/main/java/org/mojavemvc/core/FrontControllerInitializer.java:222-267 | after a run of registrations a content type maps to the last constructed marshaller handling it, and other entries are unchanged |
| StartupConfig.RegisterAllAppend | mojave-core/src/main/java/org/mojavemvc/core/FrontControllerInitializer.java:227-241 | registering the built-ins and then the custom marshallers is registering the concatenation |
| StartupConfig.FailedConstructionIgnored | mojave-core/src/main/java/org/mojavemvc/core/FrontControllerInitializer.java:254-267 | a marshaller class whose constructor throws leaves the map exactly as it was |
| StartupConfig.EntityMarshallersLastWins | mojave-core/src/main/java/org/mojavemvc/core/FrontControllerInitializer.java:222-244 | the map holds exactly the content types some registered marshaller handles, each mapped to the last one; custom marshallers override the plain-text, JSON and XML ones and count only when the param is set |
| StartupConfig.ErrorHandlerFactoryName | mojave-core/src/main/java/org/mojavemvc/core/FrontControllerInitializer.java:289-308 | the init-param if non-blank, else the application property if non-blank, else the default factory class; the chosen name is never blank |
| StartupConfig.InitParamDecides | mojave-core/src/main/java/org/mojavemvc/core/FrontControllerInitializer.java:291-305 | a non-blank init-param decides alone, whatever the application property says |
| StartupConfig.ScanControllerClasses | mojave-core/src/main/java/org/mojavemvc/core/FrontControllerInitializer.java:197-206 | a null or empty scan is refused with the no-controllers error and only then; otherwise the scan passes unchanged |
| StartupConfig.CreateControllerDatabase | mojave-core/src/main/java/org/mojavemvc/core/FrontControllerInitializer.java:180-206 | a registry is created iff the scan is non-empty and the declarations pass the build; a non-empty scan fails only with a declaration error |

## Left out

- Regular-expression matching is not modelled. A compiled pattern is a string. Matching is structural:
  - a literal token matches itself;
  - `:name` matches any non-empty segment;
  - `:name<re>` matches when an opaque predicate `custom(re, segment)` holds.
- The regex escape of literal tokens is modelled as backslash-before-metacharacter. It is pinned only by the `a+b` example; Java's `Pattern.quote`-style quoting may differ for other inputs.
- A malformed custom regex is never detected: the body is opaque.
- Controller and action names are assumed `/`-free when they are registered as routes.
- Reflection, cglib `FastClass` handles and method indices are left out. A signature keeps only its method name, parameter names, default flag and verbs.
- Guice injector creation, `createInitControllers`, logging, servlet-config reading, classpath scanning and reflective construction are left out as I/O and dependency-injection plumbing. Their results are inputs to the model:
  - the init-params are a map;
  - scanned classes are a sequence;
  - a constructor that throws is `None`.
- StartupConfig.CreateControllerDatabase: the Java method catches any failure, logs it and leaves the servlet-context attribute unset. The model returns that outcome as a `Failure`. The route map and marshaller map handed to the registry are not part of the registry model.
- `scanModuleClasses` (Guice module packages) is left out with Guice; it has the same shape as the controller packages.
- `AtmosphereInterceptor`, the view classes and the marshallers' own serialisation are out of scope.
- The built-in plain-text, JSON and XML marshallers' content types are parameters, because their classes are not part of this model.
- `HashSet` iteration order is not modelled. The scanned controllers and custom marshallers are taken in the order given. With two custom marshallers for one content type, Java's winner depends on that order.
- Validation error order and kinds are guesses. The tests only assert that a `ConfigurationException` is thrown, so these are assumptions about `MappedControllerDatabase`, which is modelled from `TestMappedControllerDatabase`:
  - the order in which rules are checked;
  - the specific `ConfigError` kinds;
  - the rules DuplicateActionName, DuplicateDefaultAction, DuplicateHook on a controller, DuplicateControllerName and MultipleDefaultControllers.
- ControllerDatabase.InterceptorsFor: the answer `Some([])` for a registered controller without a class-level `@InterceptedBy` is a guess. Every `getInterceptorsFor` call in `TestMappedControllerDatabase` is on a controller that has a class-level list, so Java could return `null` there instead.
- ParamPath.Segments: an empty param path, or one starting with `/`, parses to a leading `Literal("")` segment. No `TestParamPathHelper` case pins this; it follows from modelling the split as Java's `split`.
- ControllerDescriptor.ControllerName: one string serves as both the class identity and the simple name. Java keys the registry by `Class<?>` and takes the default controller name from `getSimpleName()`, so two controllers with the same simple name in different packages cannot be represented.
- Hook result types are not modelled.
- ControllerDescriptor.ValidController: the hook-parameter rule is a guess. The model lets controller before/after hooks take nothing or only the request context, and an after-construct hook nothing. No controller rejection test pins this; `BeforeWithContextController` only shows that a context parameter is accepted.
- RegistryRejections.RejectsNonViewAction: rejecting a verb-bound (`@GETAction`, `@POSTAction`, ...) method whose result is not a view is a guess. `testInvalidActionController1`-`4` cover only `@Action` and `@DefaultAction` methods, and every verb-bound test controller returns a view.
- Inheritance of annotated methods from a superclass (`testConstructWithInheritance`) is not modelled: a declaration lists all of its methods.
- The registry stores the validated declarations and answers queries from them, rather than building separate descriptor records.
- RegistryFixtures.MethodInterceptorController6Lookups: the test's controller and interceptors are stated over symbolic class and action names with distinctness preconditions, instead of the literal Java class names.
- RegistryFixtures.HttpMethodController3Lookups: stated over symbolic names in the same way.
- RegexRouteMap.SimilarMatchesConstant and the other route-table test lemmas are stated over symbolic names (`lit`, `x`, `n`, `c`, `a`) with `/`-freeness preconditions, instead of the test's literal strings.
- ControllerDescriptor.ValidController: a controller needs at least one annotated method, not at least one action. `testConstruct` accepts `TestStartupController`, whose only method is `@AfterConstruct` (mojave-core/src/test/java/org/mojavemvc/tests/TestMappedControllerDatabase.java:63-118, 1498-1505).

=== FILE: controller_database.dfy ===
/**
  The controller registry: built once from the declared controller types,
  all or nothing, and then queried by controller name, by controller class
  and action, by HTTP verb, and for interceptor chains and hooks.
*/
module ControllerDatabase {
  import opened Wrappers
  import opened Declarations
  import opened InterceptorDescriptor
  import opened ControllerDescriptor
  import ParamPath
  import Seqs

  /**
    The calling contract of a method: its name, the `@Param` names it
    binds, whether it is the default action and the verbs it is bound to.
  */
  datatype ActionSignature = ActionSignature(
    methodName: string,
    paramNames: seq<string>,
    isDefaultAction: bool,
    httpMethods: set<HttpMethod>)

  /** A successfully built registry: the accepted controller declarations. */
  datatype Registry = Registry(controllers: seq<ControllerDecl>)

  function SignatureOf(m: MethodDecl): (sig: ActionSignature)
    ensures sig.methodName == m.name
    ensures forall n :: n in sig.paramNames <==> Annotated(n) in m.params
  {
    ActionSignature(m.name, ParamPath.ParamNamesFromMethod(m.params), m.isDefaultAction, m.httpMethods)
  }

  function ControllerNames(cs: seq<ControllerDecl>): (names: seq<string>)
    ensures |names| == |cs| && forall k :: 0 <= k < |cs| ==> names[k] == ControllerName(cs[k])
    decreases |cs|
  {
    if |cs| == 0 then [] else [ControllerName(cs[0])] + ControllerNames(cs[1..])
  }

  predicate IsDefaultController(c: ControllerDecl) {
    c.isDefaultController
  }

  /**
    What the build demands of the whole set: every controller valid, no
    two controllers under one name, at most one default controller.
  */
  predicate ValidRegistry(cs: seq<ControllerDecl>) {
    (forall k :: 0 <= k < |cs| ==> ValidController(cs[k]))
    && Seqs.Distinct(ControllerNames(cs))
    && (forall j, k :: 0 <= j < k < |cs| ==> !(cs[j].isDefaultController && cs[k].isDefaultController))
  }

  /** The first controller that breaks a rule, reported by its own check. */
  function FirstInvalidController(cs: seq<ControllerDecl>): (e: Option<ConfigError>)
    ensures e.None? <==> forall k :: 0 <= k < |cs| ==> ValidController(cs[k])
  {
    match Seqs.FirstIndex(cs, (c: ControllerDecl) => CheckController(c).Some?)
    case Some(k) => CheckController(cs[k])
    case None => None
  }

  /** A second default controller is an error. */
  function CheckDefaultControllers(cs: seq<ControllerDecl>): (e: Option<ConfigError>)
    ensures e.None? <==> forall j, k :: 0 <= j < k < |cs| ==> !(cs[j].isDefaultController && cs[k].isDefaultController)
  {
    Seqs.CountAtMostOne(cs, IsDefaultController);
    match Seqs.FirstIndex(cs, IsDefaultController)
    case Some(k) =>
      if Seqs.Count(cs, IsDefaultController) > 1 then Some(MultipleDefaultControllers(cs[k].className)) else None
    case None => None
  }

  /**
    The registry build.  The controllers are checked in the order given,
    and the first error aborts the build.
  */
  function Build(cs: seq<ControllerDecl>): (r: Result<Registry, ConfigError>)
    ensures r.Success? <==> ValidRegistry(cs)
    ensures r.Success? ==> r.value.controllers == cs
  {
    Seqs.FirstDuplicateIsDistinct(ControllerNames(cs));
    var invalid := FirstInvalidController(cs);
    if invalid.Some? then Failure(invalid.value)
    else match Seqs.FirstDuplicate(ControllerNames(cs))
      case Some(n) => Failure(DuplicateControllerName(n))
      case None =>
        var defaults := CheckDefaultControllers(cs);
        if defaults.Some? then Failure(defaults.value) else Success(Registry(cs))
  }

  /** The declaration of the controller class `cls`, if registered. */
  function FindController(reg: Registry, cls: string): (c: Option<ControllerDecl>)
    ensures c.Some? ==> c.value in reg.controllers && c.value.className == cls
    ensures c.None? <==> forall k :: 0 <= k < |reg.controllers| ==> reg.controllers[k].className != cls
  {
    match Seqs.FirstIndex(reg.controllers, (c: ControllerDecl) => c.className == cls)
    case Some(k) => Some(reg.controllers[k])
    case None => None
  }

  /** The first method carrying the mark `p`. */
  function MethodWhere(ms: seq<MethodDecl>, p: MethodDecl -> bool): (m: Option<MethodDecl>)
    ensures m.Some? ==> m.value in ms && p(m.value)
    ensures m.None? <==> forall k :: 0 <= k < |ms| ==> !p(ms[k])
  {
    match Seqs.FirstIndex(ms, p)
    case Some(k) => Some(ms[k])
    case None => None
  }

  function NamedAs(action: string): MethodDecl -> bool {
    (m: MethodDecl) => m.action == Some(action)
  }

  /** `getControllerClass`: the class registered under a controller name. */
  function ControllerClass(reg: Registry, name: string): (cls: Option<string>)
    ensures cls.Some? ==> exists k :: 0 <= k < |reg.controllers| && ControllerName(reg.controllers[k]) == name
                                      && reg.controllers[k].className == cls.value
    ensures cls.None? <==> forall k :: 0 <= k < |reg.controllers| ==> ControllerName(reg.controllers[k]) != name
  {
    match Seqs.FirstIndex(reg.controllers, (c: ControllerDecl) => ControllerName(c) == name)
    case Some(k) => Some(reg.controllers[k].className)
    case None => None
  }

  /** `getDefaultControllerClass`. */
  function DefaultControllerClass(reg: Registry): (cls: Option<string>)
    ensures cls.Some? ==> exists k :: 0 <= k < |reg.controllers| && reg.controllers[k].isDefaultController
                                      && reg.controllers[k].className == cls.value
    ensures cls.None? <==> forall k :: 0 <= k < |reg.controllers| ==> !reg.controllers[k].isDefaultController
  {
    match Seqs.FirstIndex(reg.controllers, IsDefaultController)
    case Some(k) => Some(reg.controllers[k].className)
    case None => None
  }

  /** `getInitControllers`: the classes marked `@Init`. */
  function InitControllers(reg: Registry): (s: set<string>)
    ensures forall cls :: cls in s <==> exists k :: 0 <= k < |reg.controllers| && reg.controllers[k].isInit
                                                   && reg.controllers[k].className == cls
  {
    set k | 0 <= k < |reg.controllers| && reg.controllers[k].isInit :: reg.controllers[k].className
  }

  /**
    Whether the registered controller of class `cls` has a method carrying
    the mark `p`.
  */
  predicate Marked(reg: Registry, cls: string, p: MethodDecl -> bool) {
    var c := FindController(reg, cls);
    c.Some? && exists k :: 0 <= k < |c.value.methods| && p(c.value.methods[k])
  }

  /** `getActionMethodSignature`: the method of `cls` carrying `@Action(action)`. */
  function ActionSignatureOf(reg: Registry, cls: string, action: string): (sig: Option<ActionSignature>)
    ensures sig.Some? ==> exists c, m :: c in reg.controllers && c.className == cls && m in c.methods
                                         && m.action == Some(action) && sig.value == SignatureOf(m)
    ensures sig.None? <==> !Marked(reg, cls, NamedAs(action))
  {
    var c :- FindController(reg, cls);
    var m :- MethodWhere(c.methods, NamedAs(action));
    Some(SignatureOf(m))
  }

  /** `getDefaultActionMethodFor`. */
  function DefaultActionOf(reg: Registry, cls: string): (sig: Option<ActionSignature>)
    ensures sig.Some? ==> exists c, m :: c in reg.controllers && c.className == cls && m in c.methods
                                         && m.isDefaultAction && sig.value == SignatureOf(m)
    ensures sig.None? <==> !Marked(reg, cls, IsDefaultAction)
  {
    var c :- FindController(reg, cls);
    var m :- MethodWhere(c.methods, IsDefaultAction);
    Some(SignatureOf(m))
  }

  /** `getHttpMethodActionSignature`: the method of `cls` bound to verb `v`. */
  function HttpMethodActionOf(reg: Registry, cls: string, v: HttpMethod): (sig: Option<ActionSignature>)
    ensures sig.Some? ==> exists c, m :: c in reg.controllers && c.className == cls && m in c.methods
                                         && v in m.httpMethods && sig.value == SignatureOf(m)
    ensures sig.None? <==> !Marked(reg, cls, BoundTo(v))
  {
    var c :- FindController(reg, cls);
    var m :- MethodWhere(c.methods, BoundTo(v));
    Some(SignatureOf(m))
  }

  /** `getBeforeActionMethodFor`. */
  function BeforeActionOf(reg: Registry, cls: string): (sig: Option<ActionSignature>)
    ensures sig.Some? ==> exists c, m :: c in reg.controllers && c.className == cls && m in c.methods
                                         && m.isBeforeAction && sig.value == SignatureOf(m)
    ensures sig.None? <==> !Marked(reg, cls, IsBeforeAction)
  {
    var c :- FindController(reg, cls);
    var m :- MethodWhere(c.methods, IsBeforeAction);
    Some(SignatureOf(m))
  }

  /** `getAfterActionMethodFor`. */
  function AfterActionOf(reg: Registry, cls: string): (sig: Option<ActionSignature>)
    ensures sig.Some? ==> exists c, m :: c in reg.controllers && c.className == cls && m in c.methods
                                         && m.isAfterAction && sig.value == SignatureOf(m)
    ensures sig.None? <==> !Marked(reg, cls, IsAfterAction)
  {
    var c :- FindController(reg, cls);
    var m :- MethodWhere(c.methods, IsAfterAction);
    Some(SignatureOf(m))
  }

  /** `getAfterConstructMethodFor`. */
  function AfterConstructOf(reg: Registry, cls: string): (sig: Option<ActionSignature>)
    ensures sig.Some? ==> exists c, m :: c in reg.controllers && c.className == cls && m in c.methods
                                         && m.isAfterConstruct && sig.value == SignatureOf(m)
    ensures sig.None? <==> !Marked(reg, cls, IsAfterConstruct)
  {
    var c :- FindController(reg, cls);
    var m :- MethodWhere(c.methods, IsAfterConstruct);
    Some(SignatureOf(m))
  }

  /** The class names of an optional `@InterceptedBy` list; an absent list is empty. */
  function ListNames(l: Option<seq<InterceptorDecl>>): seq<string> {
    match l
    case Some(l) => ClassNames(l)
    case None => []
  }

  /**
    The chain for one action: its own list when it declares one, the
    class-level list otherwise.  The two are never concatenated.
  */
  function Chain(c: ControllerDecl, m: MethodDecl): seq<string> {
    if m.interceptedBy.Some? then ListNames(m.interceptedBy) else ListNames(c.interceptedBy)
  }

  /** `getInterceptorsFor`: the class-level list, in declaration order. */
  function InterceptorsFor(reg: Registry, cls: string): (chain: Option<seq<string>>)
    ensures chain.Some? <==> exists k :: 0 <= k < |reg.controllers| && reg.controllers[k].className == cls
    ensures chain.Some? ==> exists c :: c in reg.controllers && c.className == cls && chain.value == ListNames(c.interceptedBy)
  {
    var c :- FindController(reg, cls);
    Some(ListNames(c.interceptedBy))
  }

  /** `getInterceptorsForAction`. */
  function InterceptorsForAction(reg: Registry, cls: string, action: string): (chain: Option<seq<string>>)
    ensures chain.Some? <==> ActionSignatureOf(reg, cls, action).Some?
    ensures chain.Some? ==> exists c, m :: c in reg.controllers && c.className == cls && m in c.methods
                                           && m.action == Some(action) && chain.value == Chain(c, m)
  {
    var c :- FindController(reg, cls);
    var m :- MethodWhere(c.methods, NamedAs(action));
    Some(Chain(c, m))
  }

  /** `getInterceptorsForDefaultAction`. */
  function InterceptorsForDefaultAction(reg: Registry, cls: string): (chain: Option<seq<string>>)
    ensures chain.Some? <==> DefaultActionOf(reg, cls).Some?
    ensures chain.Some? ==> exists c, m :: c in reg.controllers && c.className == cls && m in c.methods
                                           && m.isDefaultAction && chain.value == Chain(c, m)
  {
    var c :- FindController(reg, cls);
    var m :- MethodWhere(c.methods, IsDefaultAction);
    Some(Chain(c, m))
  }

  /** `getInterceptorsForHttpMethodAction`. */
  function InterceptorsForHttpMethodAction(reg: Registry, cls: string, v: HttpMethod): (chain: Option<seq<string>>)
    ensures chain.Some? <==> HttpMethodActionOf(reg, cls, v).Some?
    ensures chain.Some? ==> exists c, m :: c in reg.controllers && c.className == cls && m in c.methods
                                           && v in m.httpMethods && chain.value == Chain(c, m)
  {
    var c :- FindController(reg, cls);
    var m :- MethodWhere(c.methods, BoundTo(v));
    Some(Chain(c, m))
  }

  function ListOf(l: Option<seq<InterceptorDecl>>): seq<InterceptorDecl> {
    match l
    case Some(l) => l
    case None => []
  }

  function MethodInterceptors(ms: seq<MethodDecl>): (all: seq<InterceptorDecl>)
    ensures forall i :: i in all <==> exists k :: 0 <= k < |ms| && i in ListOf(ms[k].interceptedBy)
    decreases |ms|
  {
    if |ms| == 0 then []
    else
      assert forall k :: 0 < k < |ms| ==> ms[k] == ms[1..][k - 1];
      ListOf(ms[0].interceptedBy) + MethodInterceptors(ms[1..])
  }

  /** Every interceptor named anywhere in the registry, class level and method level. */
  function AllInterceptors(cs: seq<ControllerDecl>): (all: seq<InterceptorDecl>)
    ensures forall i :: i in all <==>
              exists k :: 0 <= k < |cs| && (i in ListOf(cs[k].interceptedBy) || i in MethodInterceptors(cs[k].methods))
    decreases |cs|
  {
    if |cs| == 0 then []
    else
      assert forall k :: 0 < k < |cs| ==> cs[k] == cs[1..][k - 1];
      ListOf(cs[0].interceptedBy) + MethodInterceptors(cs[0].methods) + AllInterceptors(cs[1..])
  }

  function FindInterceptor(reg: Registry, icls: string): (i: Option<InterceptorDecl>)
    ensures i.Some? ==> i.value in AllInterceptors(reg.controllers) && i.value.className == icls
    ensures i.None? <==> forall x :: x in AllInterceptors(reg.controllers) ==> x.className != icls
  {
    var all := AllInterceptors(reg.controllers);
    match Seqs.FirstIndex(all, (x: InterceptorDecl) => x.className == icls)
    case Some(k) => Some(all[k])
    case None => None
  }

  /** `getBeforeActionMethodForInterceptor`: the before hook's method name. */
  function BeforeForInterceptor(reg: Registry, icls: string): (n: Option<string>)
    ensures FindInterceptor(reg, icls).None? ==> n.None?
    ensures FindInterceptor(reg, icls).Some? ==> n == BeforeHookOf(FindInterceptor(reg, icls).value)
    ensures n.Some? ==> exists i, k :: i in AllInterceptors(reg.controllers) && i.className == icls
                                       && 0 <= k < |i.methods| && IsBefore(i.methods[k]) && i.methods[k].name == n.value
  {
    var i :- FindInterceptor(reg, icls);
    BeforeHookOf(i)
  }

  /** `getAfterActionMethodForInterceptor`: the after hook's method name. */
  function AfterForInterceptor(reg: Registry, icls: string): (n: Option<string>)
    ensures FindInterceptor(reg, icls).None? ==> n.None?
    ensures FindInterceptor(reg, icls).Some? ==> n == AfterHookOf(FindInterceptor(reg, icls).value)
    ensures n.Some? ==> exists i, k :: i in AllInterceptors(reg.controllers) && i.className == icls
                                       && 0 <= k < |i.methods| && IsAfter(i.methods[k]) && i.methods[k].name == n.value
  {
    var i :- FindInterceptor(reg, icls);
    AfterHookOf(i)
  }
}

=== FILE: controller_descriptor.dfy ===
/**
  Controller validation: the rules a controller type's declaration must
  satisfy for the registry build to accept it, stated declaratively, and
  the check that reports the first broken rule.
*/
module ControllerDescriptor {
  import opened Wrappers
  import opened Declarations
  import opened InterceptorDescriptor
  import Seqs

  const AllHttpMethods: seq<HttpMethod> := [GET, POST, PUT, DELETE, HEAD, OPTIONS, TRACE]

  /** A method that can be dispatched to: a named, default or HTTP-verb action. */
  predicate IsActionMethod(m: MethodDecl) {
    m.action.Some? || m.isDefaultAction || m.httpMethods != {}
  }

  /** A method carrying any framework annotation, hooks included. */
  predicate IsAnnotated(m: MethodDecl) {
    IsActionMethod(m) || m.isBeforeAction || m.isAfterAction || m.isAfterConstruct
  }

  predicate IsDefaultAction(m: MethodDecl) {
    m.isDefaultAction
  }

  predicate IsBeforeAction(m: MethodDecl) {
    m.isBeforeAction
  }

  predicate IsAfterAction(m: MethodDecl) {
    m.isAfterAction
  }

  predicate IsAfterConstruct(m: MethodDecl) {
    m.isAfterConstruct
  }

  /** An action whose declared result is not a `View`: `void` or any other type. */
  predicate BadResult(m: MethodDecl) {
    IsActionMethod(m) && m.result != ViewType
  }

  /** Before/after hooks may take the request context; an after-construct hook takes nothing. */
  predicate BadHookParams(m: MethodDecl) {
    ((m.isBeforeAction || m.isAfterAction) && !ContextOnly(m.params))
    || (m.isAfterConstruct && m.params != [])
  }

  function BoundTo(v: HttpMethod): MethodDecl -> bool {
    (m: MethodDecl) => v in m.httpMethods
  }

  function MarkerCount(c: ControllerDecl): nat {
    (if c.stateless.Some? then 1 else 0)
    + (if c.stateful.Some? then 1 else 0)
    + (if c.singleton.Some? then 1 else 0)
  }

  /** The lifecycle named by the controller's marker, when there is exactly one. */
  function LifecycleOf(c: ControllerDecl): (l: Option<Lifecycle>)
    ensures l.Some? <==> MarkerCount(c) == 1
    ensures l == Some(Stateless) <==> MarkerCount(c) == 1 && c.stateless.Some?
    ensures l == Some(Stateful) <==> MarkerCount(c) == 1 && c.stateful.Some?
    ensures l == Some(Singleton) <==> MarkerCount(c) == 1 && c.singleton.Some?
  {
    if MarkerCount(c) != 1 then None
    else if c.stateless.Some? then Some(Stateless)
    else if c.stateful.Some? then Some(Stateful)
    else Some(Singleton)
  }

  /**
    The name a controller is looked up by: the value given to its marker,
    or its simple class name when the marker gives none.
  */
  function ControllerName(c: ControllerDecl): (n: string)
    ensures LifecycleOf(c) == Some(Stateless) ==>
              n == (if c.stateless.value != "" then c.stateless.value else c.className)
    ensures LifecycleOf(c) == Some(Stateful) ==>
              n == (if c.stateful.value != "" then c.stateful.value else c.className)
    ensures LifecycleOf(c) == Some(Singleton) ==>
              n == (if c.singleton.value != "" then c.singleton.value else c.className)
  {
    var marker := if c.stateless.Some? then c.stateless
                  else if c.stateful.Some? then c.stateful
                  else c.singleton;
    if marker.Some? && marker.value != "" then marker.value else c.className
  }

  /** The `@Action` names of the methods, in declaration order. */
  function ActionNames(ms: seq<MethodDecl>): (names: seq<string>)
    ensures forall a :: a in names <==> exists k :: 0 <= k < |ms| && ms[k].action == Some(a)
    decreases |ms|
  {
    if |ms| == 0 then []
    else
      var rest := ActionNames(ms[1..]);
      assert forall k :: 0 < k < |ms| ==> ms[k] == ms[1..][k - 1];
      if ms[0].action.Some? then [ms[0].action.value] + rest else rest
  }

  function ClassNames(l: seq<InterceptorDecl>): (names: seq<string>)
    ensures |names| == |l| && forall k :: 0 <= k < |l| ==> names[k] == l[k].className
    decreases |l|
  {
    if |l| == 0 then [] else [l[0].className] + ClassNames(l[1..])
  }

  /** No two methods carry the same mark. */
  predicate AtMostOne(ms: seq<MethodDecl>, p: MethodDecl -> bool) {
    forall j, k :: 0 <= j < k < |ms| ==> !(p(ms[j]) && p(ms[k]))
  }

  /** An `@InterceptedBy` list: no interceptor listed twice, and every listed interceptor valid. */
  predicate ValidList(l: seq<InterceptorDecl>) {
    Seqs.Distinct(ClassNames(l)) && forall k :: 0 <= k < |l| ==> ValidInterceptor(l[k])
  }

  predicate ValidMethodList(m: MethodDecl) {
    m.interceptedBy.Some? ==> ValidList(m.interceptedBy.value)
  }

  /** The rules a controller declaration must satisfy. */
  predicate ValidController(c: ControllerDecl) {
    var ms := c.methods;
    MarkerCount(c) == 1
    && (exists k :: 0 <= k < |ms| && IsAnnotated(ms[k]))
    && (forall k :: 0 <= k < |ms| ==> !BadResult(ms[k]))
    && VerbsUnique(ms)
    && Seqs.Distinct(ActionNames(ms))
    && AtMostOne(ms, IsDefaultAction)
    && AtMostOne(ms, IsBeforeAction)
    && AtMostOne(ms, IsAfterAction)
    && AtMostOne(ms, IsAfterConstruct)
    && (forall k :: 0 <= k < |ms| ==> !BadHookParams(ms[k]))
    && (c.interceptedBy.Some? ==> ValidList(c.interceptedBy.value))
    && (forall k :: 0 <= k < |ms| ==> ValidMethodList(ms[k]))
  }

  /** No HTTP verb is bound by two methods. */
  predicate VerbsUnique(ms: seq<MethodDecl>) {
    forall v, j, k :: 0 <= j < k < |ms| ==> !(v in ms[j].httpMethods && v in ms[k].httpMethods)
  }

  /** The first verb bound by two methods, in the order of `HttpMethod`. */
  function VerbClash(ms: seq<MethodDecl>): (v: Option<HttpMethod>)
    ensures v.None? <==> VerbsUnique(ms)
    ensures v.Some? ==> exists j, k :: 0 <= j < k < |ms| && v.value in ms[j].httpMethods && v.value in ms[k].httpMethods
  {
    VerbsAtMostOnce(ms);
    match Seqs.FirstIndex(AllHttpMethods, (v: HttpMethod) => Seqs.Count(ms, BoundTo(v)) > 1)
    case Some(i) =>
      Seqs.CountAtMostOne(ms, BoundTo(AllHttpMethods[i]));
      Some(AllHttpMethods[i])
    case None => None
  }

  lemma {:induction false} VerbsAtMostOnce(ms: seq<MethodDecl>)
    ensures (forall i :: 0 <= i < |AllHttpMethods| ==> Seqs.Count(ms, BoundTo(AllHttpMethods[i])) <= 1)
            <==> VerbsUnique(ms)
  {
    if forall i :: 0 <= i < |AllHttpMethods| ==> Seqs.Count(ms, BoundTo(AllHttpMethods[i])) <= 1 {
      forall v, j, k | 0 <= j < k < |ms|
        ensures !(v in ms[j].httpMethods && v in ms[k].httpMethods)
      {
        var i := IndexOfHttpMethod(v);
        Seqs.CountAtMostOne(ms, BoundTo(AllHttpMethods[i]));
        assert !(BoundTo(v)(ms[j]) && BoundTo(v)(ms[k]));
      }
    }
    if VerbsUnique(ms) {
      forall i | 0 <= i < |AllHttpMethods|
        ensures Seqs.Count(ms, BoundTo(AllHttpMethods[i])) <= 1
      {
        Seqs.CountAtMostOne(ms, BoundTo(AllHttpMethods[i]));
      }
    }
  }

  function IndexOfHttpMethod(v: HttpMethod): (i: nat)
    ensures i < |AllHttpMethods| && AllHttpMethods[i] == v
  {
    match v
    case GET => 0
    case POST => 1
    case PUT => 2
    case DELETE => 3
    case HEAD => 4
    case OPTIONS => 5
    case TRACE => 6
  }

  /** An `@InterceptedBy` list check: a repeated interceptor first, then each interceptor's own check. */
  function CheckList(owner: string, l: seq<InterceptorDecl>): (e: Option<ConfigError>)
    ensures e.None? <==> ValidList(l)
  {
    Seqs.FirstDuplicateIsDistinct(ClassNames(l));
    match Seqs.FirstDuplicate(ClassNames(l))
    case Some(n) => Some(DuplicateInterceptor(owner, n))
    case None =>
      match Seqs.FirstIndex(l, (i: InterceptorDecl) => CheckInterceptor(i).Some?)
      case Some(k) => CheckInterceptor(l[k])
      case None => None
  }

  /** The method-level lists, in declaration order. */
  function CheckMethodLists(owner: string, ms: seq<MethodDecl>): (e: Option<ConfigError>)
    ensures e.None? <==> forall k :: 0 <= k < |ms| ==> ValidMethodList(ms[k])
  {
    match Seqs.FirstIndex(ms, (m: MethodDecl) => m.interceptedBy.Some? && CheckList(owner, m.interceptedBy.value).Some?)
    case Some(k) => CheckList(owner, ms[k].interceptedBy.value)
    case None => None
  }

  /** The checks on hooks: each kind at most once, then their parameters. */
  function CheckHooks(c: ControllerDecl): (e: Option<ConfigError>)
    ensures e.None? <==>
      AtMostOne(c.methods, IsDefaultAction) && AtMostOne(c.methods, IsBeforeAction)
      && AtMostOne(c.methods, IsAfterAction) && AtMostOne(c.methods, IsAfterConstruct)
      && forall k :: 0 <= k < |c.methods| ==> !BadHookParams(c.methods[k])
  {
    var ms := c.methods;
    Seqs.CountAtMostOne(ms, IsDefaultAction);
    Seqs.CountAtMostOne(ms, IsBeforeAction);
    Seqs.CountAtMostOne(ms, IsAfterAction);
    Seqs.CountAtMostOne(ms, IsAfterConstruct);
    if Seqs.Count(ms, IsDefaultAction) > 1 then Some(DuplicateDefaultAction(c.className))
    else if Seqs.Count(ms, IsBeforeAction) > 1 then Some(DuplicateHook(c.className, BeforeHook))
    else if Seqs.Count(ms, IsAfterAction) > 1 then Some(DuplicateHook(c.className, AfterHook))
    else if Seqs.Count(ms, IsAfterConstruct) > 1 then Some(DuplicateHook(c.className, AfterConstructHook))
    else match Seqs.FirstIndex(ms, BadHookParams)
      case Some(k) => Some(InvalidHookParameters(c.className, ms[k].name))
      case None => None
  }

  /** The checks on actions: results, verb bindings, then names. */
  function CheckActions(c: ControllerDecl): (e: Option<ConfigError>)
    ensures e.None? <==>
      (forall k :: 0 <= k < |c.methods| ==> !BadResult(c.methods[k]))
      && VerbsUnique(c.methods)
      && Seqs.Distinct(ActionNames(c.methods))
  {
    var ms := c.methods;
    Seqs.FirstDuplicateIsDistinct(ActionNames(ms));
    match Seqs.FirstIndex(ms, BadResult)
    case Some(k) => Some(InvalidActionResult(c.className, ms[k].name))
    case None =>
      match VerbClash(ms)
      case Some(v) => Some(DuplicateHttpMethod(c.className, v))
      case None =>
        match Seqs.FirstDuplicate(ActionNames(ms))
        case Some(a) => Some(DuplicateActionName(c.className, a))
        case None => None
  }

  /**
    The controller check: lifecycle markers, then the presence of an
    annotated method, then actions, hooks and interceptor lists.
  */
  function CheckController(c: ControllerDecl): (e: Option<ConfigError>)
    ensures e.None? <==> ValidController(c)
  {
    var ms := c.methods;
    Seqs.CountZero(ms, IsAnnotated);
    if MarkerCount(c) == 0 then Some(NoLifecycleMarker(c.className))
    else if MarkerCount(c) > 1 then Some(ConflictingLifecycleMarkers(c.className))
    else if Seqs.Count(ms, IsAnnotated) == 0 then Some(NoAnnotatedMethods(c.className))
    else if CheckActions(c).Some? then CheckActions(c)
    else if CheckHooks(c).Some? then CheckHooks(c)
    else if c.interceptedBy.Some? && CheckList(c.className, c.interceptedBy.value).Some? then
      CheckList(c.className, c.interceptedBy.value)
    else CheckMethodLists(c.className, ms)
  }
}

=== FILE: declarations.dfy ===
/**
  Explicit declarations of controller and interceptor types: what the
  original reads from annotations by reflection (`@StatelessController`,
  `@Action`, `@GETAction`, `@InterceptedBy`, `@Param`, ...) is written out
  here as plain data.
*/
module Declarations {
  import opened Wrappers

  datatype HttpMethod = GET | POST | PUT | DELETE | HEAD | OPTIONS | TRACE

  /** A method parameter: `@Param("name")`-annotated, the request context, or anything else. */
  datatype Parameter = Annotated(name: string) | RequestContext | Unannotated

  /** The declared result type of a method: `void`, `View` or one of its subtypes, or some other type. */
  datatype ResultType = Void | ViewType | OtherType

  /** A method of a controller class with the framework annotations it carries. */
  datatype MethodDecl = MethodDecl(
    name: string,
    action: Option<string>,              // @Action("...")
    isDefaultAction: bool,               // @DefaultAction
    httpMethods: set<HttpMethod>,        // @GETAction, @POSTAction, ...
    isBeforeAction: bool,                // @BeforeAction
    isAfterAction: bool,                 // @AfterAction
    isAfterConstruct: bool,              // @AfterConstruct
    interceptedBy: Option<seq<InterceptorDecl>>,  // @InterceptedBy({...}) on the method
    result: ResultType,
    params: seq<Parameter>)

  /** A method of an interceptor class: only its hook annotations and parameters matter. */
  datatype HookDecl = HookDecl(
    name: string,
    isBeforeAction: bool,
    isAfterAction: bool,
    params: seq<Parameter>)

  /** An interceptor class named in an `@InterceptedBy` list, identified by its simple class name. */
  datatype InterceptorDecl = InterceptorDecl(className: string, methods: seq<HookDecl>)

  /**
    A controller class, identified by its simple class name.  Each
    lifecycle marker is present with its value (the empty string when the
    annotation gives none) or absent.
  */
  datatype ControllerDecl = ControllerDecl(
    className: string,
    stateless: Option<string>,           // @StatelessController("...")
    stateful: Option<string>,            // @StatefulController("...")
    singleton: Option<string>,           // @SingletonController("...")
    isDefaultController: bool,           // @DefaultController
    isInit: bool,                        // @Init
    interceptedBy: Option<seq<InterceptorDecl>>,  // @InterceptedBy({...}) on the class
    methods: seq<MethodDecl>)

  datatype Lifecycle = Stateless | Stateful | Singleton

  /** The three kinds of hook a type can declare at most once. */
  datatype HookKind = BeforeHook | AfterHook | AfterConstructHook

  /**
    The causes of a `ConfigurationException` during the registry build.
    `owner` is the controller or interceptor type whose declaration is at
    fault.
  */
  datatype ConfigError =
    | NoLifecycleMarker(owner: string)
    | ConflictingLifecycleMarkers(owner: string)
    | NoAnnotatedMethods(owner: string)
    | InvalidActionResult(owner: string, methodName: string)
    | DuplicateHttpMethod(owner: string, verb: HttpMethod)
    | DuplicateActionName(owner: string, action: string)
    | DuplicateHook(owner: string, kind: HookKind)
    | DuplicateDefaultAction(owner: string)
    | InvalidHookParameters(owner: string, methodName: string)
    | DuplicateInterceptor(owner: string, interceptor: string)
    | InterceptorWithoutHooks(owner: string)
    | DuplicateControllerName(owner: string)
    | MultipleDefaultControllers(owner: string)
}

=== FILE: http_request_router.dfy ===
/**
  `HttpRequestRouter.route`: the servlet path-info is split on `/`; the
  first token after the leading `/` names the controller, the second names
  the action, and the action is cut at its first `?`.  Everything after the
  second token is left to the route map.
*/
module HttpRequestRouter {
  import opened Wrappers
  import opened JavaStrings

  const Separator: char := '/'
  const QueryString: char := '?'

  datatype RoutedRequest = RoutedRequest(controller: Option<string>, action: Option<string>)

  predicate StartsWithSeparator(path: string) {
    |path| > 0 && path[0] == Separator
  }

  /** What Java's split of a `/`-led path yields, in terms of the text after that `/`. */
  lemma {:induction false} RouteTokens(path: string)
    requires StartsWithSeparator(path)
    ensures var tokens := JavaSplit(path, Separator);
            var rest := path[1..];
            && (|tokens| > 1 <==> HasOtherThan(rest, Separator))
            && (|tokens| > 1 ==> tokens[1] == Before(rest, Separator))
            && (|tokens| > 2 <==> HasOtherThan(After(rest, Separator), Separator))
            && (|tokens| > 2 ==> tokens[2] == Before(After(rest, Separator), Separator))
  {
    var rest := path[1..];
    var all := SplitAll(path, Separator);
    var p := SplitAll(rest, Separator);
    assert Separator in path;
    assert all == [""] + p;
    assert all[1..] == p && all[2..] == p[1..];
    DropTrailingEmptyLength(all, 1);
    DropTrailingEmptyLength(all, 2);
    SplitAllSomeNonEmpty(rest, Separator);
    SplitAllHead(rest, Separator);
    if Separator in rest {
      SplitAllSomeNonEmpty(After(rest, Separator), Separator);
      SplitAllHead(After(rest, Separator), Separator);
    } else {
      assert p[1..] == [];
      assert !SomeNonEmpty(p[1..]);
    }
  }

  /**
    Splits the path-info into the controller and action tokens.  The
    controller is present exactly when the path starts with `/` and has some
    character other than `/`; it is the text up to the next `/`, verbatim.
    The action is present exactly when some character other than `/`
    follows the controller's `/`; it is the next token cut at its first
    `?`, so the query string never reaches the action name.  The action
    can be empty, as for `/c//a` or `/c/?x`.
  */
  function Route(pathInfo: Option<string>): (r: RoutedRequest)
    ensures pathInfo.None? || !StartsWithSeparator(pathInfo.value) ==> r == RoutedRequest(None, None)
    ensures r.action.Some? ==> r.controller.Some?
    ensures r.action.Some? ==> QueryString !in r.action.value
    ensures pathInfo.Some? && StartsWithSeparator(pathInfo.value) ==>
              var rest := pathInfo.value[1..];
              && (r.controller.Some? <==> HasOtherThan(rest, Separator))
              && (r.controller.Some? ==> r.controller.value == Before(rest, Separator))
              && (r.action.Some? <==> HasOtherThan(After(rest, Separator), Separator))
              && (r.action.Some? ==>
                    r.action.value == Before(Before(After(rest, Separator), Separator), QueryString))
  {
    if pathInfo.Some? && StartsWithSeparator(pathInfo.value) then
      var path := pathInfo.value;
      RouteTokens(path);
      var tokens := JavaSplit(path, Separator);
      if |tokens| > 1 then
        var controller := tokens[1];
        if |tokens| > 2 then
          var token := tokens[2];
          var action := if QueryString in token then Before(token, QueryString) else token;
          RoutedRequest(Some(controller), Some(action))
        else
          RoutedRequest(Some(controller), None)
      else
        RoutedRequest(None, None)
    else
      RoutedRequest(None, None)
  }

  /** `"/"` names neither a controller nor an action. */
  lemma {:induction false} RouteOfRoot()
    ensures Route(Some("/")) == RoutedRequest(None, None)
  {
    assert !HasOtherThan("/"[1..], Separator);
  }

  /** A path `/c/r` with `c` free of `/` and some non-`/` character in `r` names controller `c` and the first token of `r`. */
  lemma {:induction false} RouteOfControllerAndRest(c: string, r: string)
    requires Separator !in c && HasOtherThan(r, Separator)
    ensures Route(Some("/" + c + "/" + r)) == RoutedRequest(Some(c), Some(Before(Before(r, Separator), QueryString)))
  {
    var path := "/" + c + "/" + r;
    var rest := path[1..];
    assert rest == c + [Separator] + r;
    BeforeAfterFree(c, r);
    var i :| 0 <= i < |r| && r[i] != Separator;
    assert rest[|c| + 1 + i] == r[i];
  }

  lemma {:induction false} RouteOfControllerAction(c: string, a: string, tail: string)
    requires Separator !in c && Separator !in a && a != ""
    requires tail == "" || tail[0] == Separator
    ensures Route(Some("/" + c + "/" + a + tail)) == RoutedRequest(Some(c), Some(Before(a, QueryString)))
  {
    assert HasOtherThan(a + tail, Separator) by {
      assert (a + tail)[0] == a[0] != Separator;
    }
    assert Before(a + tail, Separator) == a by {
      BeforeAfterFree(a, tail);
    }
    assert "/" + c + "/" + a + tail == "/" + c + "/" + (a + tail);
    RouteOfControllerAndRest(c, a + tail);
  }

  /**
    Tokens after the second are ignored: `/c/a` followed by anything that
    starts with `/` routes like `/c/a`, and a trailing `/` adds nothing.
  */
  lemma {:induction false} RouteIgnoresTail(c: string, a: string, tail: string)
    requires Separator !in c && Separator !in a && a != ""
    requires tail == "" || tail[0] == Separator
    ensures Route(Some("/" + c + "/" + a + tail)) == RoutedRequest(Some(c), Some(Before(a, QueryString)))
    ensures Route(Some("/" + c + "/" + a + tail)) == Route(Some("/" + c + "/" + a))
  {
    RouteOfControllerAction(c, a, tail);
    RouteOfControllerAction(c, a, "");
    assert "/" + c + "/" + a + "" == "/" + c + "/" + a;
  }

  /** For `p` free of `c`: `Before(p + [c] + t) == p` and `After(p + [c] + t) == t`, and `Before(p + t) == p` when `t` is empty or starts with `c`. */
  lemma {:induction false} BeforeAfterFree(p: string, t: string)
    requires Separator !in p
    ensures t == "" || t[0] == Separator ==> Before(p + t, Separator) == p
    ensures Before(p + [Separator] + t, Separator) == p
    ensures After(p + [Separator] + t, Separator) == t
    decreases |p|
  {
    if |p| > 0 {
      assert (p + t)[1..] == p[1..] + t;
      assert (p + [Separator] + t)[1..] == p[1..] + [Separator] + t;
      BeforeAfterFree(p[1..], t);
      assert p == [p[0]] + p[1..];
    } else {
      assert p + t == t;
      assert p + [Separator] + t == [Separator] + t;
    }
  }
}

=== FILE: interceptor_descriptor.dfy ===
/**
  Interceptor validation and hook lookup: an interceptor type must declare
  at least one hook, at most one `@BeforeAction` and at most one
  `@AfterAction` hook, and every hook takes either nothing or the request
  context alone.
*/
module InterceptorDescriptor {
  import opened Wrappers
  import opened Declarations
  import Seqs

  /** The hook calling convention: no parameters, or only the request context. */
  predicate ContextOnly(params: seq<Parameter>) {
    params == [] || params == [RequestContext]
  }

  predicate IsBefore(h: HookDecl) {
    h.isBeforeAction
  }

  predicate IsAfter(h: HookDecl) {
    h.isAfterAction
  }

  predicate IsHook(h: HookDecl) {
    h.isBeforeAction || h.isAfterAction
  }

  predicate BadHook(h: HookDecl) {
    IsHook(h) && !ContextOnly(h.params)
  }

  /** The rules an interceptor type must satisfy, stated over its methods. */
  predicate ValidInterceptor(i: InterceptorDecl) {
    var ms := i.methods;
    (exists k :: 0 <= k < |ms| && IsHook(ms[k]))
    && (forall k :: 0 <= k < |ms| && IsHook(ms[k]) ==> ContextOnly(ms[k].params))
    && (forall j, k :: 0 <= j < k < |ms| ==> !(IsBefore(ms[j]) && IsBefore(ms[k])))
    && (forall j, k :: 0 <= j < k < |ms| ==> !(IsAfter(ms[j]) && IsAfter(ms[k])))
  }

  /** The interceptor check, in the order the errors are reported. */
  function CheckInterceptor(i: InterceptorDecl): (e: Option<ConfigError>)
    ensures e.None? <==> ValidInterceptor(i)
    ensures e.Some? ==> e.value.owner == i.className
  {
    var ms := i.methods;
    Seqs.CountZero(ms, IsHook);
    Seqs.CountAtMostOne(ms, IsBefore);
    Seqs.CountAtMostOne(ms, IsAfter);
    if Seqs.Count(ms, IsHook) == 0 then Some(InterceptorWithoutHooks(i.className))
    else match Seqs.FirstIndex(ms, BadHook)
      case Some(k) => Some(InvalidHookParameters(i.className, ms[k].name))
      case None =>
        if Seqs.Count(ms, IsBefore) > 1 then Some(DuplicateHook(i.className, BeforeHook))
        else if Seqs.Count(ms, IsAfter) > 1 then Some(DuplicateHook(i.className, AfterHook))
        else None
  }

  /** The name of the first method marked by `p`, or nothing. */
  function HookNamed(ms: seq<HookDecl>, p: HookDecl -> bool): (n: Option<string>)
    ensures n.None? <==> forall k :: 0 <= k < |ms| ==> !p(ms[k])
    ensures n.Some? ==> exists k :: 0 <= k < |ms| && p(ms[k]) && ms[k].name == n.value
  {
    match Seqs.FirstIndex(ms, p)
    case None => None
    case Some(k) => Some(ms[k].name)
  }

  /** `getBeforeActionMethodForInterceptor`: the before hook's method name. */
  function BeforeHookOf(i: InterceptorDecl): Option<string> {
    HookNamed(i.methods, IsBefore)
  }

  /** `getAfterActionMethodForInterceptor`: the after hook's method name. */
  function AfterHookOf(i: InterceptorDecl): Option<string> {
    HookNamed(i.methods, IsAfter)
  }

  /** In a valid interceptor each hook lookup names the one method carrying that hook. */
  lemma {:induction false} HooksOfValidInterceptor(i: InterceptorDecl, k: nat)
    requires ValidInterceptor(i) && k < |i.methods|
    ensures IsBefore(i.methods[k]) ==> BeforeHookOf(i) == Some(i.methods[k].name)
    ensures IsAfter(i.methods[k]) ==> AfterHookOf(i) == Some(i.methods[k].name)
    ensures BeforeHookOf(i).Some? || AfterHookOf(i).Some?
  {
    var ms := i.methods;
    if IsBefore(ms[k]) {
      var j := Seqs.FirstIndex(ms, IsBefore).value;
      assert j == k;
    }
    if IsAfter(ms[k]) {
      var j := Seqs.FirstIndex(ms, IsAfter).value;
      assert j == k;
    }
    var h :| 0 <= h < |ms| && IsHook(ms[h]);
    assert IsBefore(ms[h]) || IsAfter(ms[h]);
  }
}

=== FILE: java_strings.dfy ===
/**
  The handful of `java.lang.String` operations the dispatch core relies on,
  with their exact Java semantics: `trim` (strips every character at or below
  U+0020 at both ends), `split` on a single non-metacharacter separator
  (trailing empty pieces are dropped, and a string without the separator
  splits to itself), `indexOf`/`substring` as a prefix cut, and the
  joining of pieces with a separator.
*/
module JavaStrings {

  /** Java's `trim` removes every character whose code is at most U+0020. */
  predicate IsSpace(c: char) {
    c <= ' '
  }

  predicate AllSpace(s: string) {
    forall i :: 0 <= i < |s| ==> IsSpace(s[i])
  }

  /** True when `s` contains a character other than `c`. */
  predicate HasOtherThan(s: string, c: char) {
    exists i :: 0 <= i < |s| && s[i] != c
  }

  function TrimStart(s: string): (r: string)
    ensures |r| <= |s| && r == s[|s| - |r|..]
    ensures AllSpace(s[..|s| - |r|])
    ensures r == "" || !IsSpace(r[0])
    decreases |s|
  {
    if |s| > 0 && IsSpace(s[0]) then TrimStart(s[1..]) else s
  }

  function TrimEnd(s: string): (r: string)
    ensures |r| <= |s| && r == s[..|r|]
    ensures AllSpace(s[|r|..])
    ensures r == "" || !IsSpace(r[|r| - 1])
    decreases |s|
  {
    if |s| > 0 && IsSpace(s[|s| - 1]) then TrimEnd(s[..|s| - 1]) else s
  }

  /** The number of leading characters `trim` removes. */
  function Leading(s: string): (n: nat)
    ensures n <= |s|
  {
    |s| - |TrimStart(s)|
  }

  /** `String.trim()`: no whitespace is left at either end. */
  function Trim(s: string): (r: string)
    ensures |r| <= |s|
    ensures r == "" || (!IsSpace(r[0]) && !IsSpace(r[|r| - 1]))
  {
    TrimEnd(TrimStart(s))
  }

  /** `trim` removes only whitespace: the result is a slice of `s` with nothing but whitespace on either side. */
  lemma {:induction false} TrimRemovesOnlySpace(s: string)
    ensures var k := Leading(s); var r := Trim(s);
            && k + |r| <= |s| && r == s[k..k + |r|]
            && AllSpace(s[..k]) && AllSpace(s[k + |r|..])
  {
    var t := TrimStart(s);
    var r := TrimEnd(t);
    var k := Leading(s);
    SuffixSlices(s, k, |r|);
  }

  lemma SuffixSlices<T>(s: seq<T>, k: nat, n: nat)
    requires k + n <= |s|
    ensures s[k..][..n] == s[k..k + n]
    ensures s[k..][n..] == s[k + n..]
  {
  }

  /** Whether the string is null or blank in the sense of `trim().length() == 0`. */
  predicate IsBlank(s: string) {
    Trim(s) == ""
  }

  /** A string trims to nothing exactly when every character in it is whitespace. */
  lemma {:induction false} BlankIsAllSpace(s: string)
    ensures IsBlank(s) <==> AllSpace(s)
  {
    if IsBlank(s) {
      TrimRemovesOnlySpace(s);
      var k := Leading(s);
      forall i | 0 <= i < |s| ensures IsSpace(s[i]) {
        assert s[..k][i] == s[i];
      }
    }
  }

  lemma {:induction false} TrimStartPadded(w: string, s: string)
    requires AllSpace(w)
    ensures TrimStart(w + s) == TrimStart(s)
    decreases |w|
  {
    if |w| > 0 {
      assert (w + s)[1..] == w[1..] + s;
      TrimStartPadded(w[1..], s);
    } else {
      assert w + s == s;
    }
  }

  lemma {:induction false} TrimEndPadded(s: string, w: string)
    requires AllSpace(w)
    ensures TrimEnd(s + w) == TrimEnd(s)
    decreases |w|
  {
    if |w| > 0 {
      assert (s + w)[..|s + w| - 1] == s + w[..|w| - 1];
      TrimEndPadded(s, w[..|w| - 1]);
    } else {
      assert s + w == s;
    }
  }

  lemma {:induction false} TrimStartOfTrimEnd(s: string)
    ensures TrimStart(TrimEnd(s)) == TrimEnd(TrimStart(s))
    decreases |s|
  {
    if |s| > 0 && IsSpace(s[0]) {
      if |s| > 0 && IsSpace(s[|s| - 1]) && |s| > 1 {
        assert s[1..][..|s[1..]| - 1] == s[..|s| - 1][1..];
        TrimStartOfTrimEnd(s[1..]);
        TrimStartOfTrimEnd(s[..|s| - 1]);
        TrimStartOfTrimEnd(s[1..][..|s[1..]| - 1]);
      } else if |s| == 1 {
      } else {
        TrimStartOfTrimEnd(s[1..]);
      }
    } else if |s| > 0 && IsSpace(s[|s| - 1]) {
      TrimStartOfTrimEnd(s[..|s| - 1]);
    }
  }

  /** Padding a string with whitespace on either side does not change its trimmed form. */
  lemma {:induction false} TrimPadded(w1: string, s: string, w2: string)
    requires AllSpace(w1) && AllSpace(w2)
    ensures Trim(w1 + s + w2) == Trim(s)
  {
    calc {
      Trim(w1 + s + w2);
      { assert w1 + s + w2 == w1 + (s + w2); }
      TrimEnd(TrimStart(w1 + (s + w2)));
      { TrimStartPadded(w1, s + w2); }
      TrimEnd(TrimStart(s + w2));
      { TrimStartOfTrimEnd(s + w2); }
      TrimStart(TrimEnd(s + w2));
      { TrimEndPadded(s, w2); }
      TrimStart(TrimEnd(s));
      { TrimStartOfTrimEnd(s); }
      Trim(s);
    }
  }

  /** `Trim` leaves a string alone exactly when it has no whitespace at either end. */
  lemma {:induction false} TrimIdentity(s: string)
    requires s == "" || (!IsSpace(s[0]) && !IsSpace(s[|s| - 1]))
    ensures Trim(s) == s
  {
  }

  lemma {:induction false} TrimIdempotent(s: string)
    ensures Trim(Trim(s)) == Trim(s)
  {
    TrimIdentity(Trim(s));
  }

  /**
    Splits on EVERY occurrence of `sep`, keeping empty pieces: the
    inverse of `Join`.  This is the raw list Java's `split` starts from.
  */
  function SplitAll(s: string, sep: char): (pieces: seq<string>)
    ensures |pieces| >= 1
    decreases |s|
  {
    if |s| == 0 then [""]
    else
      var rest := SplitAll(s[1..], sep);
      if s[0] == sep then [""] + rest
      else [[s[0]] + rest[0]] + rest[1..]
  }

  /** Concatenates the pieces with `sep` between consecutive ones. */
  function Join(pieces: seq<string>, sep: char): string
    decreases |pieces|
  {
    if |pieces| == 0 then ""
    else if |pieces| == 1 then pieces[0]
    else pieces[0] + [sep] + Join(pieces[1..], sep)
  }

  lemma JoinPrepend(p: string, rest: seq<string>, sep: char)
    requires |rest| > 0
    ensures Join([p] + rest, sep) == p + [sep] + Join(rest, sep)
  {
    assert ([p] + rest)[1..] == rest;
  }

  predicate NoneContain(pieces: seq<string>, sep: char) {
    forall i :: 0 <= i < |pieces| ==> sep !in pieces[i]
  }

  lemma {:induction false} SplitAllPiecesFree(s: string, sep: char)
    ensures NoneContain(SplitAll(s, sep), sep)
    decreases |s|
  {
    if |s| > 0 {
      SplitAllPiecesFree(s[1..], sep);
    }
  }

  lemma {:induction false} JoinCons(c: char, p: string, tail: seq<string>, sep: char)
    ensures Join([[c] + p] + tail, sep) == [c] + Join([p] + tail, sep)
  {
    var ps := [[c] + p] + tail;
    assert ps[1..] == tail;
    assert ([p] + tail)[1..] == tail;
  }

  /** Joining what was split gives back the original string. */
  lemma {:induction false} JoinSplitAll(s: string, sep: char)
    ensures Join(SplitAll(s, sep), sep) == s
    decreases |s|
  {
    if |s| > 0 {
      var rest := SplitAll(s[1..], sep);
      JoinSplitAll(s[1..], sep);
      if s[0] == sep {
        assert ([""] + rest)[1..] == rest;
        assert s == [sep] + s[1..];
      } else {
        assert [rest[0]] + rest[1..] == rest;
        JoinCons(s[0], rest[0], rest[1..], sep);
        assert s == [s[0]] + s[1..];
      }
    }
  }

  lemma {:induction false} SplitAllFree(p: string, sep: char)
    requires sep !in p
    ensures SplitAll(p, sep) == [p]
    decreases |p|
  {
    if |p| > 0 {
      assert sep !in p[1..];
      SplitAllFree(p[1..], sep);
      assert p == [p[0]] + p[1..];
    }
  }

  lemma {:induction false} SplitAllPrefix(p: string, t: string, sep: char)
    requires sep !in p
    ensures SplitAll(p + [sep] + t, sep) == [p] + SplitAll(t, sep)
    decreases |p|
  {
    if |p| == 0 {
      assert p + [sep] + t == [sep] + t;
      assert ([sep] + t)[1..] == t;
    } else {
      var s := p + [sep] + t;
      assert s[1..] == p[1..] + [sep] + t;
      assert sep !in p[1..];
      SplitAllPrefix(p[1..], t, sep);
      assert p == [p[0]] + p[1..];
    }
  }

  /** Splitting what was joined gives back the pieces, provided none contains the separator. */
  lemma {:induction false} SplitAllJoin(pieces: seq<string>, sep: char)
    requires |pieces| >= 1 && NoneContain(pieces, sep)
    ensures SplitAll(Join(pieces, sep), sep) == pieces
    decreases |pieces|
  {
    if |pieces| == 1 {
      SplitAllFree(pieces[0], sep);
    } else {
      SplitAllJoin(pieces[1..], sep);
      SplitAllPrefix(pieces[0], Join(pieces[1..], sep), sep);
      assert [pieces[0]] + pieces[1..] == pieces;
    }
  }

  /** Java's `split` with limit 0 removes every trailing empty piece. */
  function DropTrailingEmpty(pieces: seq<string>): (r: seq<string>)
    ensures |r| <= |pieces| && r == pieces[..|r|]
    ensures r == [] || r[|r| - 1] != ""
    ensures forall i :: |r| <= i < |pieces| ==> pieces[i] == ""
    decreases |pieces|
  {
    if |pieces| == 0 then []
    else if pieces[|pieces| - 1] == "" then DropTrailingEmpty(pieces[..|pieces| - 1])
    else pieces
  }

  /**
    `s.split(String.valueOf(sep))` for a separator that is not a regular
    expression metacharacter: with no occurrence the result is `[s]` (so
    `""` gives `[""]`), otherwise the full split minus its trailing empty
    pieces (so `"/"` gives `[]` and `"/a/"` gives `["", "a"]`).
  */
  function JavaSplit(s: string, sep: char): (r: seq<string>)
    ensures sep !in s ==> r == [s]
    ensures sep in s ==> r == [] || r[|r| - 1] != ""
    ensures NoneContain(r, sep)
  {
    if sep !in s then [s]
    else
      SplitAllPiecesFree(s, sep);
      DropTrailingEmpty(SplitAll(s, sep))
  }

  /** A non-empty first piece is never dropped, so it shields the pieces before it from nothing. */
  lemma {:induction false} DropTrailingConsNonEmpty(head: string, tail: seq<string>)
    requires head != ""
    ensures DropTrailingEmpty([head] + tail) == [head] + DropTrailingEmpty(tail)
    decreases |tail|
  {
    var all := [head] + tail;
    if |tail| > 0 && tail[|tail| - 1] == "" {
      var shorter := tail[..|tail| - 1];
      assert all[|all| - 1] == "";
      assert all[..|all| - 1] == [head] + shorter;
      DropTrailingConsNonEmpty(head, shorter);
    } else {
      assert all[|all| - 1] != "";
    }
  }

  /** A string without a trailing separator splits to all of its pieces. */
  lemma {:induction false} JavaSplitKeepsAll(s: string, sep: char)
    requires s == "" || s[|s| - 1] != sep
    requires s != ""
    ensures JavaSplit(s, sep) == SplitAll(s, sep)
  {
    if sep in s {
      LastPieceOfSplitAll(s, sep);
    } else {
      SplitAllFree(s, sep);
    }
  }

  lemma {:induction false} LastPieceOfSplitAll(s: string, sep: char)
    requires s != "" && s[|s| - 1] != sep
    ensures var ps := SplitAll(s, sep); ps[|ps| - 1] != ""
    decreases |s|
  {
    if |s| > 1 {
      LastPieceOfSplitAll(s[1..], sep);
    }
  }

  /** Java's split undoes a join, as long as no piece holds the separator and the last piece is not dropped as empty. */
  lemma {:induction false} JavaSplitJoin(pieces: seq<string>, sep: char)
    requires |pieces| >= 1 && NoneContain(pieces, sep)
    requires |pieces| == 1 || pieces[|pieces| - 1] != ""
    ensures JavaSplit(Join(pieces, sep), sep) == pieces
  {
    var s := Join(pieces, sep);
    SplitAllJoin(pieces, sep);
    if |pieces| == 1 {
      assert s == pieces[0];
    } else {
      assert s == pieces[0] + [sep] + Join(pieces[1..], sep);
      assert s[|pieces[0]|] == sep;
      assert DropTrailingEmpty(pieces) == pieces;
    }
  }

  /** The part of `s` before the first `c` (all of `s` when there is none). */
  function Before(s: string, c: char): (r: string)
    ensures |r| <= |s| && r == s[..|r|]
    ensures c !in r
    ensures |r| < |s| ==> s[|r|] == c
    decreases |s|
  {
    if |s| == 0 || s[0] == c then "" else [s[0]] + Before(s[1..], c)
  }

  /** The part of `s` after the first `c` (empty when there is none). */
  function After(s: string, c: char): (r: string)
    ensures c in s ==> s == Before(s, c) + [c] + r
    ensures c !in s ==> r == ""
    decreases |s|
  {
    if |s| == 0 then ""
    else if s[0] == c then s[1..]
    else
      var r := After(s[1..], c);
      assert s == [s[0]] + s[1..];
      assert c in s ==> s[1..] == Before(s[1..], c) + [c] + r;
      r
  }

  /** The first piece of a split is what precedes the first separator; the others split what follows it. */
  lemma {:induction false} SplitAllHead(s: string, sep: char)
    ensures SplitAll(s, sep)[0] == Before(s, sep)
    ensures sep in s ==> SplitAll(s, sep)[1..] == SplitAll(After(s, sep), sep)
    ensures sep !in s ==> |SplitAll(s, sep)| == 1
    decreases |s|
  {
    if |s| > 0 {
      SplitAllHead(s[1..], sep);
      if s[0] != sep {
        assert sep in s <==> sep in s[1..];
      } else {
        assert sep in s;
      }
    }
  }

  predicate SomeNonEmpty(pieces: seq<string>) {
    exists j :: 0 <= j < |pieces| && pieces[j] != ""
  }

  /** Some piece of the full split is non-empty exactly when `s` has a character other than the separator. */
  lemma {:induction false} SplitAllSomeNonEmpty(s: string, sep: char)
    ensures SomeNonEmpty(SplitAll(s, sep)) <==> HasOtherThan(s, sep)
    decreases |s|
  {
    var ps := SplitAll(s, sep);
    if |s| > 0 {
      var rest := SplitAll(s[1..], sep);
      SplitAllSomeNonEmpty(s[1..], sep);
      if s[0] == sep {
        assert ps == [""] + rest;
        if HasOtherThan(s, sep) {
          var i :| 0 <= i < |s| && s[i] != sep;
          assert s[1..][i - 1] != sep;
          var j :| 0 <= j < |rest| && rest[j] != "";
          assert ps[j + 1] != "";
        }
        if SomeNonEmpty(ps) {
          var j :| 0 <= j < |ps| && ps[j] != "";
          assert rest[j - 1] != "";
          var i :| 0 <= i < |s[1..]| && s[1..][i] != sep;
          assert s[i + 1] != sep;
        }
      } else {
        assert ps[0] != "";
        assert s[0] != sep;
      }
    }
  }

  /** After dropping trailing empties, more than `k` pieces remain exactly when a non-empty piece sits at index `k` or later. */
  lemma {:induction false} DropTrailingEmptyLength(pieces: seq<string>, k: nat)
    ensures |DropTrailingEmpty(pieces)| > k <==> k <= |pieces| && SomeNonEmpty(pieces[k..])
  {
    var r := DropTrailingEmpty(pieces);
    if |r| > k {
      assert pieces[|r| - 1] == r[|r| - 1];
    }
  }
}

=== FILE: param_path.dfy ===
/**
  Param paths such as `clients/:id<[0-9]+>/:name`: each `/`-separated token
  is a literal, a bare parameter `:name`, or a parameter with a custom
  pattern `:name<regex>`.  This module parses tokens into segments, renders
  them back, escapes literal text for use inside a regular expression, and
  collects parameter names (`ParamPathHelper.getParamNamesFrom`) from a
  param path or from a method's `@Param`-annotated parameters.
*/
module ParamPath {
  import opened JavaStrings
  import opened Declarations

  const PathElementSeparator: char := '/'
  const ParamPrefix: char := ':'
  const CustomRegexStart: char := '<'
  const CustomRegexEnd: char := '>'

  datatype Segment =
    | Literal(text: string)
    | Param(name: string)
    | CustomParam(name: string, regex: string)
  {
    predicate IsParameter() {
      Param? || CustomParam?
    }
  }

  /** The regular-expression metacharacters a literal must have escaped: `\ ^ $ . | ? * + ( ) [ ] { }`. */
  predicate IsMeta(c: char) {
    || c == '\\' || c == '^' || c == '$' || c == '.' || c == '|' || c == '?' || c == '*'
    || c == '+' || c == '(' || c == ')' || c == '[' || c == ']' || c == '{' || c == '}'
  }

  /** Puts a backslash before every metacharacter, so `a+b` becomes `a\+b`. */
  function Escape(s: string): string
    decreases |s|
  {
    if |s| == 0 then ""
    else (if IsMeta(s[0]) then ['\\', s[0]] else [s[0]]) + Escape(s[1..])
  }

  /** Removes one level of backslash escaping. */
  function Unescape(r: string): string
    decreases |r|
  {
    if |r| == 0 then ""
    else if r[0] == '\\' && |r| >= 2 then [r[1]] + Unescape(r[2..])
    else [r[0]] + Unescape(r[1..])
  }

  /** Escaping loses nothing: unescaping gives the literal back, so distinct literals give distinct patterns. */
  lemma {:induction false} UnescapeEscape(s: string)
    ensures Unescape(Escape(s)) == s
    decreases |s|
  {
    if |s| > 0 {
      UnescapeEscape(s[1..]);
      var e := Escape(s);
      var tail := Escape(s[1..]);
      if IsMeta(s[0]) {
        assert e == ['\\', s[0]] + tail;
        assert e[2..] == tail;
      } else {
        assert s[0] != '\\';
        assert e == [s[0]] + tail;
        assert e[1..] == tail;
      }
      assert s == [s[0]] + s[1..];
    }
  }

  lemma {:induction false} EscapePlusExample()
    ensures Escape("a+b") == "a\\+b"
  {
    assert IsMeta('+') && !IsMeta('a') && !IsMeta('b');
    assert "a+b"[1..] == "+b" && "+b"[1..] == "b";
  }

  /**
    Reads one token: `:` introduces a parameter; a parameter whose remainder
    holds a `<` and ends with `>` carries the text between the first `<` and
    that final `>` as its pattern, verbatim; anything else is a literal.
  */
  function ParseToken(t: string): (seg: Segment)
    ensures seg.Literal? <==> (t == "" || t[0] != ParamPrefix)
    ensures seg.Literal? ==> seg.text == t
    ensures seg.IsParameter() ==> |seg.name| < |t| && seg.name == t[1..1 + |seg.name|]
  {
    if |t| > 0 && t[0] == ParamPrefix then
      var body := t[1..];
      if CustomRegexStart in body && body[|body| - 1] == CustomRegexEnd then
        var name := Before(body, CustomRegexStart);
        CustomParam(name, body[|name| + 1..|body| - 1])
      else
        Param(body)
    else
      Literal(t)
  }

  /** The token a segment is written as. */
  function Render(seg: Segment): string {
    match seg
    case Literal(t) => t
    case Param(n) => [ParamPrefix] + n
    case CustomParam(n, re) => [ParamPrefix] + n + [CustomRegexStart] + re + [CustomRegexEnd]
  }

  /** Reading a token and writing it back gives the token itself. */
  lemma {:induction false} RenderParseToken(t: string)
    ensures Render(ParseToken(t)) == t
  {
    if |t| > 0 && t[0] == ParamPrefix {
      var body := t[1..];
      assert t == [ParamPrefix] + body;
      if CustomRegexStart in body && body[|body| - 1] == CustomRegexEnd {
        ParseCustomToken(body);
        RenderCustomToken(body);
      }
    }
  }

  /** The custom parameter read from a token's remainder renders back to the whole token. */
  lemma {:induction false} RenderCustomToken(body: string)
    requires CustomRegexStart in body && body[|body| - 1] == CustomRegexEnd
    ensures var name := Before(body, CustomRegexStart);
            |name| + 1 < |body| &&
            Render(CustomParam(name, body[|name| + 1..|body| - 1])) == [ParamPrefix] + body
  {
    var name := Before(body, CustomRegexStart);
    assert |name| < |body|;
    var re := body[|name| + 1..|body| - 1];
    SplitAround(body, |name|);
    assert body == name + [CustomRegexStart] + re + [CustomRegexEnd];
    ConsAssoc(ParamPrefix, name, CustomRegexStart, re, CustomRegexEnd);
  }

  lemma ConsAssoc<T>(c: T, a: seq<T>, b: T, d: seq<T>, e: T)
    ensures [c] + (a + [b] + d + [e]) == [c] + a + [b] + d + [e]
  {
  }

  lemma {:induction false} SplitAround(s: string, k: nat)
    requires k + 1 < |s|
    ensures s == s[..k] + [s[k]] + s[k + 1..|s| - 1] + [s[|s| - 1]]
  {
  }

  /** A segment that can be written down and read back unchanged. */
  predicate WellFormed(seg: Segment) {
    match seg
    case Literal(t) => PathElementSeparator !in t && (t == "" || t[0] != ParamPrefix)
    case Param(n) => PathElementSeparator !in n && CustomRegexStart !in n
    case CustomParam(n, re) => PathElementSeparator !in n && CustomRegexStart !in n && PathElementSeparator !in re
  }

  lemma {:induction false} ParseRender(seg: Segment)
    requires WellFormed(seg)
    ensures ParseToken(Render(seg)) == seg
    ensures PathElementSeparator !in Render(seg)
  {
    match seg
    case Literal(t) =>
    case Param(n) =>
      assert Render(seg)[1..] == n;
    case CustomParam(n, re) =>
      ParseCustomParam(n, re);
  }

  lemma {:induction false} ParseCustomParam(n: string, re: string)
    requires CustomRegexStart !in n
    ensures ParseToken(Render(CustomParam(n, re))) == CustomParam(n, re)
  {
    var tail := [CustomRegexStart] + re + [CustomRegexEnd];
    var body := n + tail;
    assert Render(CustomParam(n, re)) == [ParamPrefix] + body;
    assert body[|n|] == CustomRegexStart && body[|body| - 1] == CustomRegexEnd;
    BeforeFree(n, tail, CustomRegexStart);
    assert body[|n| + 1..|body| - 1] == re;
    ParseCustomToken(body);
  }

  /** A `:`-led token whose remainder holds a `<` and ends with `>` reads as a custom parameter. */
  lemma {:induction false} ParseCustomToken(body: string)
    requires CustomRegexStart in body && body[|body| - 1] == CustomRegexEnd
    ensures var name := Before(body, CustomRegexStart);
            ParseToken([ParamPrefix] + body) == CustomParam(name, body[|name| + 1..|body| - 1])
  {
    assert ([ParamPrefix] + body)[1..] == body;
  }

  lemma {:induction false} BeforeFree(p: string, t: string, c: char)
    requires c !in p && |t| > 0 && t[0] == c
    ensures Before(p + t, c) == p
    decreases |p|
  {
    if |p| > 0 {
      assert (p + t)[1..] == p[1..] + t;
      BeforeFree(p[1..], t, c);
      assert p == [p[0]] + p[1..];
    } else {
      assert p + t == t;
    }
  }

  function ParseTokens(tokens: seq<string>): (segs: seq<Segment>)
    ensures |segs| == |tokens|
    ensures forall i :: 0 <= i < |tokens| ==> segs[i] == ParseToken(tokens[i])
    decreases |tokens|
  {
    if |tokens| == 0 then [] else [ParseToken(tokens[0])] + ParseTokens(tokens[1..])
  }

  function RenderAll(segs: seq<Segment>): (tokens: seq<string>)
    ensures |tokens| == |segs|
    ensures forall i :: 0 <= i < |segs| ==> tokens[i] == Render(segs[i])
    decreases |segs|
  {
    if |segs| == 0 then [] else [Render(segs[0])] + RenderAll(segs[1..])
  }

  /** The segments of a param path, split on `/` as Java's `split` does. */
  function Segments(paramPath: string): seq<Segment> {
    ParseTokens(JavaSplit(paramPath, PathElementSeparator))
  }

  /** The names of the parameter segments, left to right. */
  function NamesOf(segs: seq<Segment>): (names: seq<string>)
    ensures |names| <= |segs|
    decreases |segs|
  {
    if |segs| == 0 then []
    else if segs[0].IsParameter() then [segs[0].name] + NamesOf(segs[1..])
    else NamesOf(segs[1..])
  }

  lemma {:induction false} NamesOfAppend(a: seq<Segment>, b: seq<Segment>)
    ensures NamesOf(a + b) == NamesOf(a) + NamesOf(b)
    decreases |a|
  {
    if |a| > 0 {
      assert (a + b)[1..] == a[1..] + b;
      NamesOfAppend(a[1..], b);
    } else {
      assert a + b == b;
    }
  }

  /** Segments without parameters contribute no names. */
  lemma {:induction false} NamesOfLiterals(segs: seq<Segment>)
    requires forall i :: 0 <= i < |segs| ==> segs[i].Literal?
    ensures NamesOf(segs) == []
    decreases |segs|
  {
    if |segs| > 0 {
      NamesOfLiterals(segs[1..]);
    }
  }

  /** `ParamPathHelper.getParamNamesFrom(String)`. */
  function ParamNames(paramPath: string): seq<string> {
    NamesOf(Segments(paramPath))
  }

  /**
    Writing well-formed segments down as a param path and reading it back
    gives the same segments, hence the same names in the same order.  The
    last token must not be empty, because Java's `split` would drop it.
  */
  lemma {:induction false} SegmentsRoundTrip(segs: seq<Segment>)
    requires |segs| >= 1
    requires forall i :: 0 <= i < |segs| ==> WellFormed(segs[i])
    requires |segs| == 1 || segs[|segs| - 1] != Literal("")
    ensures Segments(Join(RenderAll(segs), PathElementSeparator)) == segs
    ensures ParamNames(Join(RenderAll(segs), PathElementSeparator)) == NamesOf(segs)
  {
    SplitRendered(segs);
    ParseRenderAll(segs);
  }

  /** The rendered tokens come back out of Java's split of their join. */
  lemma {:induction false} SplitRendered(segs: seq<Segment>)
    requires |segs| >= 1
    requires forall i :: 0 <= i < |segs| ==> WellFormed(segs[i])
    requires |segs| == 1 || segs[|segs| - 1] != Literal("")
    ensures JavaSplit(Join(RenderAll(segs), PathElementSeparator), PathElementSeparator) == RenderAll(segs)
  {
    if |segs| > 1 {
      LastRendered(segs);
    }
    RenderedFree(segs);
    JavaSplitJoin(RenderAll(segs), PathElementSeparator);
  }

  lemma {:induction false} LastRendered(segs: seq<Segment>)
    requires |segs| > 1 && segs[|segs| - 1] != Literal("")
    ensures RenderAll(segs)[|segs| - 1] != ""
  {
    assert RenderAll(segs)[|segs| - 1] == Render(segs[|segs| - 1]);
  }

  lemma {:induction false} RenderedFree(segs: seq<Segment>)
    requires forall i :: 0 <= i < |segs| ==> WellFormed(segs[i])
    ensures NoneContain(RenderAll(segs), PathElementSeparator)
  {
    var tokens := RenderAll(segs);
    forall i | 0 <= i < |segs| ensures PathElementSeparator !in tokens[i] {
      ParseRender(segs[i]);
    }
  }

  lemma {:induction false} ParseRenderAll(segs: seq<Segment>)
    requires forall i :: 0 <= i < |segs| ==> WellFormed(segs[i])
    ensures ParseTokens(RenderAll(segs)) == segs
    ensures NoneContain(RenderAll(segs), PathElementSeparator)
  {
    var tokens := RenderAll(segs);
    forall i | 0 <= i < |segs|
      ensures ParseToken(tokens[i]) == segs[i] && PathElementSeparator !in tokens[i]
    {
      ParseRender(segs[i]);
    }
  }

  /** Literal tokens in front of a param path are skipped: `to/:name` has the names of `:name`. */
  lemma {:induction false} ParamNamesSkipLiteral(lit: string, rest: string)
    requires lit != "" && lit[0] != ParamPrefix && PathElementSeparator !in lit
    ensures ParamNames(lit + [PathElementSeparator] + rest) == ParamNames(rest)
  {
    var pp := lit + [PathElementSeparator] + rest;
    assert pp[|lit|] == PathElementSeparator;
    SplitAllPrefix(lit, rest, PathElementSeparator);
    var all := SplitAll(rest, PathElementSeparator);
    var js := JavaSplit(pp, PathElementSeparator);
    assert SplitAll(pp, PathElementSeparator) == [lit] + all;
    DropTrailingConsNonEmpty(lit, all);
    assert js == [lit] + DropTrailingEmpty(all);
    assert ParseTokens(js) == [Literal(lit)] + ParseTokens(DropTrailingEmpty(all));
    NamesOfAppend([Literal(lit)], ParseTokens(DropTrailingEmpty(all)));
    if PathElementSeparator in rest {
      assert JavaSplit(rest, PathElementSeparator) == DropTrailingEmpty(all);
    } else {
      SplitAllFree(rest, PathElementSeparator);
      if rest == "" {
        assert DropTrailingEmpty(all) == [];
        assert ParseTokens([""]) == [Literal("")];
        assert NamesOf([Literal("")]) == [];
      } else {
        assert DropTrailingEmpty(all) == [rest];
      }
    }
  }

  /**
    `ParamPathHelper.getParamNamesFrom(Method)`: the `@Param` values of the
    method's parameters, in parameter order; parameters without `@Param`
    contribute nothing.
  */
  function ParamNamesFromMethod(params: seq<Parameter>): (names: seq<string>)
    ensures |names| <= |params|
    ensures forall n :: n in names <==> Annotated(n) in params
    decreases |params|
  {
    if |params| == 0 then []
    else if params[0].Annotated? then [params[0].name] + ParamNamesFromMethod(params[1..])
    else ParamNamesFromMethod(params[1..])
  }

  /** When every parameter carries `@Param`, the names are exactly their values, position by position. */
  lemma {:induction false} ParamNamesFromAnnotatedMethod(params: seq<Parameter>)
    requires forall i :: 0 <= i < |params| ==> params[i].Annotated?
    ensures |ParamNamesFromMethod(params)| == |params|
    ensures forall i :: 0 <= i < |params| ==> ParamNamesFromMethod(params)[i] == params[i].name
    decreases |params|
  {
    if |params| > 0 {
      ParamNamesFromAnnotatedMethod(params[1..]);
    }
  }
}

=== FILE: regex_route.dfy ===
/**
  Route compilation (`RegexRoute`): a route `(controller?, action?,
  paramPath?)` becomes an anchored pattern `^/part/part/...$` whose parts
  are the escaped controller, the escaped action and the param-path
  segments, each rendered as a regular-expression fragment.

  The regular-expression engine is not modelled.  Instead, what a
  compiled pattern matches is stated segment by segment: the path after
  its leading `/` is split on every `/`, and each piece must match the
  part at its position — a literal by equality, a bare parameter
  `([^/]+)` by being non-empty, and a custom parameter `(re)` by an
  uninterpreted predicate `custom(re, piece)`.
*/
module RegexRoute {
  import opened Wrappers
  import opened JavaStrings
  import opened ParamPath
  import Seqs

  datatype Route = Route(controller: Option<string>, action: Option<string>, paramPath: Option<string>)

  /** The meaning of a custom pattern on one path segment: `custom(re, piece)`. */
  type CustomMatcher = (string, string) -> bool

  /** The capture group of a bare parameter: one or more characters other than `/`. */
  const AnySegment: string := "([^/]+)"
  const PatternStart: string := "^/"
  const PatternEnd: string := "$"

  function NamePart(name: Option<string>): (parts: seq<Segment>)
    ensures name.None? ==> parts == []
    ensures name.Some? ==> parts == [Literal(name.value)]
  {
    if name.Some? then [Literal(name.value)] else []
  }

  function ParamPathPart(paramPath: Option<string>): seq<Segment> {
    if paramPath.Some? then Segments(paramPath.value) else []
  }

  /** The parts of a route, in pattern order: controller, action, then the param-path segments. */
  function Parts(r: Route): seq<Segment> {
    NamePart(r.controller) + NamePart(r.action) + ParamPathPart(r.paramPath)
  }

  /** The regular-expression fragment for one part. */
  function SegmentPattern(seg: Segment): string {
    match seg
    case Literal(t) => Escape(t)
    case Param(_) => AnySegment
    case CustomParam(_, re) => "(" + re + ")"
  }

  /** `RegexRoute.pattern()`: `^/`, the part fragments joined by `/`, then `$`. */
  function Pattern(r: Route): (p: string)
    ensures |p| >= 3 && p[..2] == PatternStart && p[|p| - 1] == '$'
  {
    PatternStart + Join(Seqs.Map(Parts(r), SegmentPattern), '/') + PatternEnd
  }

  /** A route is literal when none of its parts is a parameter; literal routes take priority. */
  predicate IsLiteralRoute(r: Route) {
    forall i :: 0 <= i < |Parts(r)| ==> Parts(r)[i].Literal?
  }

  /** The names of the route's parameters, left to right. */
  function ParamNamesOf(r: Route): seq<string> {
    NamesOf(Parts(r))
  }

  predicate SegmentMatches(seg: Segment, piece: string, custom: CustomMatcher) {
    match seg
    case Literal(t) => piece == t
    case Param(_) => piece != ""
    case CustomParam(_, re) => custom(re, piece)
  }

  /**
    Pieces match parts position by position.  With no parts the pattern is
    `^/$`, which matches only the path `/`, whose remainder splits to `[""]`.
  */
  predicate PartsMatch(parts: seq<Segment>, pieces: seq<string>, custom: CustomMatcher) {
    if |parts| == 0 then pieces == [""]
    else |pieces| == |parts| && forall i :: 0 <= i < |parts| ==> SegmentMatches(parts[i], pieces[i], custom)
  }

  /** Whether the compiled pattern of `r` matches the whole of `path`. */
  predicate Matches(r: Route, path: string, custom: CustomMatcher) {
    |path| > 0 && path[0] == '/' && PartsMatch(Parts(r), SplitAll(path[1..], '/'), custom)
  }

  /** No literal part contains `/`, so each part spans exactly one path segment. */
  predicate LiteralsFree(parts: seq<Segment>) {
    forall i :: 0 <= i < |parts| ==> parts[i].Literal? ==> '/' !in parts[i].text
  }

  predicate NameFree(name: Option<string>) {
    name.None? || '/' !in name.value
  }

  /** Literal param-path segments come out of a split on `/`, so they never contain one. */
  lemma {:induction false} SegmentsFree(paramPath: string)
    ensures LiteralsFree(Segments(paramPath))
  {
    var tokens := JavaSplit(paramPath, '/');
    forall i | 0 <= i < |tokens| && ParseToken(tokens[i]).Literal?
      ensures '/' !in ParseToken(tokens[i]).text
    {
    }
  }

  lemma {:induction false} PartsFree(r: Route)
    requires NameFree(r.controller) && NameFree(r.action)
    ensures LiteralsFree(Parts(r))
  {
    if r.paramPath.Some? {
      SegmentsFree(r.paramPath.value);
    }
  }

  /** The pieces a path supplies to the parameters of `parts`, left to right. */
  function ParamValues(parts: seq<Segment>, pieces: seq<string>): (vals: seq<string>)
    requires |pieces| == |parts|
    ensures |vals| == |NamesOf(parts)|
    decreases |parts|
  {
    if |parts| == 0 then []
    else (if parts[0].IsParameter() then [pieces[0]] else []) + ParamValues(parts[1..], pieces[1..])
  }

  /** Binds names to values one after another, so a repeated name keeps its last value. */
  function Bind(names: seq<string>, vals: seq<string>): (m: map<string, string>)
    requires |names| == |vals|
    ensures forall n :: n in m <==> n in names
    decreases |names|
  {
    if |names| == 0 then map[]
    else
      var k := |names| - 1;
      var m := Bind(names[..k], vals[..k]);
      assert names == names[..k] + [names[k]];
      m[names[k] := vals[k]]
  }

  /** With distinct names every name is bound to the value at its own position. */
  lemma {:induction false} BindDistinct(names: seq<string>, vals: seq<string>)
    requires |names| == |vals| && Seqs.Distinct(names)
    ensures forall i :: 0 <= i < |names| ==> Bind(names, vals)[names[i]] == vals[i]
    decreases |names|
  {
    if |names| > 0 {
      var k := |names| - 1;
      BindDistinct(names[..k], vals[..k]);
      forall i | 0 <= i < |names|
        ensures Bind(names, vals)[names[i]] == vals[i]
      {
        if i < k {
          assert names[i] != names[k];
          assert names[..k][i] == names[i];
        }
      }
    }
  }

  /** The parameter bindings a matching path yields; `None` when the route does not match. */
  function Bindings(r: Route, path: string, custom: CustomMatcher): (b: Option<map<string, string>>)
    ensures b.Some? <==> Matches(r, path, custom)
  {
    if !Matches(r, path, custom) then None
    else if |Parts(r)| == 0 then Some(map[])
    else Some(Bind(ParamNamesOf(r), ParamValues(Parts(r), SplitAll(path[1..], '/'))))
  }

  /** The pieces `parts` generate when each parameter takes the next sample value and each literal its text. */
  function Instantiate(parts: seq<Segment>, vals: seq<string>): (pieces: seq<string>)
    requires |vals| == |NamesOf(parts)|
    ensures |pieces| == |parts|
    decreases |parts|
  {
    if |parts| == 0 then []
    else if parts[0].IsParameter() then [vals[0]] + Instantiate(parts[1..], vals[1..])
    else [parts[0].text] + Instantiate(parts[1..], vals)
  }

  /** Each sample value is one path segment that its parameter's pattern accepts. */
  predicate ValuesFit(parts: seq<Segment>, vals: seq<string>, custom: CustomMatcher)
    requires |vals| == |NamesOf(parts)|
    decreases |parts|
  {
    if |parts| == 0 then true
    else if parts[0].IsParameter() then
      '/' !in vals[0] && SegmentMatches(parts[0], vals[0], custom) && ValuesFit(parts[1..], vals[1..], custom)
    else ValuesFit(parts[1..], vals, custom)
  }

  /** The path a route generates for the given sample values. */
  function SamplePath(r: Route, vals: seq<string>): string
    requires |vals| == |ParamNamesOf(r)|
  {
    "/" + Join(Instantiate(Parts(r), vals), '/')
  }

  /** Generated pieces are single segments, each matches its part, and the parameters read back the sample values. */
  lemma {:induction false} InstantiateMatches(parts: seq<Segment>, vals: seq<string>, custom: CustomMatcher)
    requires LiteralsFree(parts)
    requires |vals| == |NamesOf(parts)| && ValuesFit(parts, vals, custom)
    ensures NoneContain(Instantiate(parts, vals), '/')
    ensures forall i :: 0 <= i < |parts| ==> SegmentMatches(parts[i], Instantiate(parts, vals)[i], custom)
    ensures ParamValues(parts, Instantiate(parts, vals)) == vals
    decreases |parts|
  {
    if |parts| > 0 {
      var rest := parts[1..];
      assert LiteralsFree(rest) by {
        forall i | 0 <= i < |rest| ensures rest[i].Literal? ==> '/' !in rest[i].text {
          assert rest[i] == parts[i + 1];
        }
      }
      var pieces := Instantiate(parts, vals);
      if parts[0].IsParameter() {
        InstantiateMatches(rest, vals[1..], custom);
        assert pieces[1..] == Instantiate(rest, vals[1..]);
        assert vals == [vals[0]] + vals[1..];
      } else {
        InstantiateMatches(rest, vals, custom);
        assert pieces[1..] == Instantiate(rest, vals);
      }
      forall i | 1 <= i < |parts|
        ensures SegmentMatches(parts[i], pieces[i], custom) && '/' !in pieces[i]
      {
        assert parts[i] == rest[i - 1] && pieces[i] == pieces[1..][i - 1];
      }
    }
  }

  /**
    Round trip: the path a route generates from sample values matches the
    route's own pattern and binds every parameter to its sample value.
  */
  lemma {:induction false} SamplePathRoundTrip(r: Route, vals: seq<string>, custom: CustomMatcher)
    requires NameFree(r.controller) && NameFree(r.action)
    requires |vals| == |ParamNamesOf(r)| && ValuesFit(Parts(r), vals, custom)
    ensures Matches(r, SamplePath(r, vals), custom)
    ensures Bindings(r, SamplePath(r, vals), custom) == Some(Bind(ParamNamesOf(r), vals))
    ensures Seqs.Distinct(ParamNamesOf(r)) ==>
              forall i :: 0 <= i < |vals| ==> Bindings(r, SamplePath(r, vals), custom).value[ParamNamesOf(r)[i]] == vals[i]
  {
    var parts := Parts(r);
    var path := SamplePath(r, vals);
    var pieces := Instantiate(parts, vals);
    PartsFree(r);
    InstantiateMatches(parts, vals, custom);
    assert path[1..] == Join(pieces, '/');
    if |parts| == 0 {
      assert SplitAll(path[1..], '/') == [""];
    } else {
      SplitAllJoin(pieces, '/');
    }
    if Seqs.Distinct(ParamNamesOf(r)) {
      BindDistinct(ParamNamesOf(r), vals);
    }
  }

  /** A route has no parameter names exactly when it is literal. */
  lemma {:induction false} NoNamesIsLiteral(parts: seq<Segment>)
    ensures NamesOf(parts) == [] <==> forall i :: 0 <= i < |parts| ==> parts[i].Literal?
    decreases |parts|
  {
    if |parts| > 0 {
      NoNamesIsLiteral(parts[1..]);
      if parts[0].Literal? {
        forall i | 1 <= i < |parts| && parts[1..][i - 1].Literal? ensures parts[i].Literal? {
          assert parts[i] == parts[1..][i - 1];
        }
      }
    }
  }

  /**
    A literal route matches exactly one path: `/` followed by its literal
    parts joined by `/`.  The custom matcher plays no part.
  */
  lemma {:induction false} LiteralRouteMatchesOnlyItsPath(r: Route, path: string, custom: CustomMatcher)
    requires NameFree(r.controller) && NameFree(r.action) && IsLiteralRoute(r)
    ensures |ParamNamesOf(r)| == 0 && (Matches(r, path, custom) <==> path == SamplePath(r, []))
  {
    LiteralValuesFit(Parts(r), custom);
    SamplePathRoundTrip(r, [], custom);
    if Matches(r, path, custom) {
      LiteralMatchIsSamplePath(r, path, custom);
    }
  }

  lemma {:induction false} LiteralValuesFit(parts: seq<Segment>, custom: CustomMatcher)
    requires forall i :: 0 <= i < |parts| ==> parts[i].Literal?
    ensures |NamesOf(parts)| == 0 && ValuesFit(parts, [], custom)
    decreases |parts|
  {
    if |parts| > 0 {
      LiteralValuesFit(parts[1..], custom);
    }
  }

  lemma {:induction false} LiteralMatchIsSamplePath(r: Route, path: string, custom: CustomMatcher)
    requires IsLiteralRoute(r) && Matches(r, path, custom)
    ensures |ParamNamesOf(r)| == 0 && path == SamplePath(r, [])
  {
    var parts := Parts(r);
    NoNamesIsLiteral(parts);
    var rest := path[1..];
    var pieces := SplitAll(rest, '/');
    JoinSplitAll(rest, '/');
    if |parts| == 0 {
      assert rest == Join([""], '/') == "";
      assert Instantiate(parts, []) == [];
    } else {
      LiteralPieces(parts, pieces, custom);
    }
    assert path == [path[0]] + rest;
  }

  /** Pieces that match literal parts are those parts' texts. */
  lemma {:induction false} LiteralPieces(parts: seq<Segment>, pieces: seq<string>, custom: CustomMatcher)
    requires |parts| > 0 && forall i :: 0 <= i < |parts| ==> parts[i].Literal?
    requires PartsMatch(parts, pieces, custom)
    ensures |NamesOf(parts)| == 0 && pieces == Instantiate(parts, [])
    decreases |parts|
  {
    NoNamesIsLiteral(parts);
    if |parts| > 1 {
      LiteralPieces(parts[1..], pieces[1..], custom);
      NoNamesIsLiteral(parts[1..]);
      assert pieces == [pieces[0]] + pieces[1..];
    } else {
      assert Instantiate(parts[1..], []) == [];
    }
  }

  /** The param path's names are the route's names: controller and action contribute none. */
  lemma {:induction false} RouteNamesAreParamPathNames(r: Route)
    ensures ParamNamesOf(r) == (if r.paramPath.Some? then ParamNames(r.paramPath.value) else [])
  {
    var c := NamePart(r.controller);
    var a := NamePart(r.action);
    var p := ParamPathPart(r.paramPath);
    NamesOfAppend(c + a, p);
    NamesOfAppend(c, a);
    NamesOfLiterals(c);
    NamesOfLiterals(a);
  }

  /** A route whose param path is written from segments has the controller, the action and then exactly those segments as parts. */
  lemma {:induction false} PartsOfSegments(c: Option<string>, a: Option<string>, segs: seq<Segment>)
    requires |segs| >= 1
    requires forall i :: 0 <= i < |segs| ==> WellFormed(segs[i])
    requires |segs| == 1 || segs[|segs| - 1] != Literal("")
    ensures Parts(Route(c, a, Some(Join(RenderAll(segs), '/')))) == NamePart(c) + NamePart(a) + segs
  {
    SegmentsRoundTrip(segs);
  }

  /** The fragments of the controller and action, in that order, for whichever is present. */
  function NameFragments(c: Option<string>, a: Option<string>): seq<string> {
    (if c.Some? then [Escape(c.value)] else []) + (if a.Some? then [Escape(a.value)] else [])
  }

  lemma {:induction false} MapAppend(x: seq<Segment>, y: seq<Segment>)
    ensures Seqs.Map(x + y, SegmentPattern) == Seqs.Map(x, SegmentPattern) + Seqs.Map(y, SegmentPattern)
  {
  }

  /**
    The param path's fragments follow directly after whichever of the
    controller and action is present, or directly after `^/` when neither is.
  */
  lemma {:induction false} PatternOfSegments(c: Option<string>, a: Option<string>, segs: seq<Segment>)
    requires |segs| >= 1
    requires forall i :: 0 <= i < |segs| ==> WellFormed(segs[i])
    requires |segs| == 1 || segs[|segs| - 1] != Literal("")
    ensures Pattern(Route(c, a, Some(Join(RenderAll(segs), '/'))))
         == PatternStart + Join(NameFragments(c, a) + Seqs.Map(segs, SegmentPattern), '/') + PatternEnd
  {
    PartsOfSegments(c, a, segs);
    MapAppend(NamePart(c) + NamePart(a), segs);
    NameFragmentsOf(c, a);
  }

  lemma {:induction false} NameFragmentsOf(c: Option<string>, a: Option<string>)
    ensures Seqs.Map(NamePart(c) + NamePart(a), SegmentPattern) == NameFragments(c, a)
  {
    MapAppend(NamePart(c), NamePart(a));
    assert Seqs.Map(NamePart(c), SegmentPattern) == (if c.Some? then [Escape(c.value)] else []);
    assert Seqs.Map(NamePart(a), SegmentPattern) == (if a.Some? then [Escape(a.value)] else []);
  }

  /** With no param path, the pattern is just the present names between `^/` and `$`. */
  lemma {:induction false} PatternOfNames(c: Option<string>, a: Option<string>)
    ensures Pattern(Route(c, a, None)) == PatternStart + Join(NameFragments(c, a), '/') + PatternEnd
  {
    assert Parts(Route(c, a, None)) == NamePart(c) + NamePart(a);
    NameFragmentsOf(c, a);
  }

  /** `TestRegexRoute`: with no param path, the present names are joined between `^/` and `$`. */
  lemma PatternOfRoot()
    ensures Pattern(Route(None, None, None)) == "^/$"
  {
  }

  lemma PatternOfController()
    ensures Pattern(Route(Some("cntrl"), None, None)) == "^/cntrl$"
  {
  }

  lemma PatternOfAction()
    ensures Pattern(Route(None, Some("actn"), None)) == "^/actn$"
  {
  }

  /** A param path `lit/:n` compiles to the escaped literal and the bare-parameter group, after the names. */
  lemma {:induction false} PatternOfLiteralAndParam(c: Option<string>, a: Option<string>, lit: string, n: string)
    requires WellFormed(Literal(lit)) && WellFormed(Param(n))
    ensures Pattern(Route(c, a, Some(lit + "/:" + n)))
         == PatternStart + Join(NameFragments(c, a) + [Escape(lit), AnySegment], '/') + PatternEnd
  {
    var segs := [Literal(lit), Param(n)];
    assert RenderAll(segs) == [lit, ":" + n];
    JoinPrepend(lit, [":" + n], '/');
    assert lit + "/:" + n == lit + "/" + (":" + n);
    PatternOfSegments(c, a, segs);
    assert Seqs.Map(segs, SegmentPattern) == [Escape(lit), AnySegment];
  }

  /** A custom parameter `:n<re>` compiles to the group `(re)` with `re` verbatim. */
  lemma {:induction false} PatternOfLiteralAndCustomParam(c: Option<string>, a: Option<string>, lit: string, n: string, re: string)
    requires WellFormed(Literal(lit)) && WellFormed(CustomParam(n, re))
    ensures Pattern(Route(c, a, Some(lit + "/:" + n + "<" + re + ">")))
         == PatternStart + Join(NameFragments(c, a) + [Escape(lit), "(" + re + ")"], '/') + PatternEnd
  {
    var segs := [Literal(lit), CustomParam(n, re)];
    var t := ":" + n + "<" + re + ">";
    assert RenderAll(segs) == [lit, t];
    JoinPrepend(lit, [t], '/');
    assert lit + "/:" + n + "<" + re + ">" == lit + "/" + t;
    PatternOfSegments(c, a, segs);
    assert Seqs.Map(segs, SegmentPattern) == [Escape(lit), "(" + re + ")"];
  }

  /** Several parameters compile left to right, custom and bare mixed: `lit/:n1<re>/:n2`. */
  lemma {:induction false} PatternOfCustomThenParam(c: Option<string>, a: Option<string>, lit: string, n1: string, re: string, n2: string)
    requires WellFormed(Literal(lit)) && WellFormed(CustomParam(n1, re)) && WellFormed(Param(n2))
    ensures Pattern(Route(c, a, Some(lit + "/:" + n1 + "<" + re + ">/:" + n2)))
         == PatternStart + Join(NameFragments(c, a) + [Escape(lit), "(" + re + ")", AnySegment], '/') + PatternEnd
  {
    var segs := [Literal(lit), CustomParam(n1, re), Param(n2)];
    CustomThenParamRendered(lit, n1, re, n2);
    PatternOfSegments(c, a, segs);
    assert Seqs.Map(segs, SegmentPattern) == [Escape(lit), "(" + re + ")", AnySegment];
  }

  lemma {:induction false} CustomThenParamRendered(lit: string, n1: string, re: string, n2: string)
    ensures Join(RenderAll([Literal(lit), CustomParam(n1, re), Param(n2)]), '/')
         == lit + "/:" + n1 + "<" + re + ">/:" + n2
  {
    var t1 := ":" + n1 + "<" + re + ">";
    var t2 := ":" + n2;
    assert RenderAll([Literal(lit), CustomParam(n1, re), Param(n2)]) == [lit, t1, t2];
    JoinPrepend(lit, [t1, t2], '/');
    JoinPrepend(t1, [t2], '/');
    assert lit + "/:" + n1 + "<" + re + ">/:" + n2 == lit + "/" + (t1 + "/" + t2);
  }
}

=== FILE: registry_fixtures.dfy ===
/**
  The declaration fixtures of the registry's unit tests, written out as
  data, and what the build and the lookups make of them.
*/
module RegistryFixtures {
  import opened Wrappers
  import opened Declarations
  import opened InterceptorDescriptor
  import opened ControllerDescriptor
  import opened ControllerDatabase
  import opened RegistryProperties
  import Seqs

  function Hook(name: string, before: bool, after: bool, params: seq<Parameter>): HookDecl {
    HookDecl(name, before, after, params)
  }

  /** An `@Action` method with no parameters returning `result`. */
  function ActionMethod(name: string, action: string, list: Option<seq<InterceptorDecl>>, result: ResultType): MethodDecl {
    MethodDecl(name, Some(action), false, {}, false, false, false, list, result, [])
  }

  function DefaultMethod(name: string, list: Option<seq<InterceptorDecl>>, result: ResultType): MethodDecl {
    MethodDecl(name, None, true, {}, false, false, false, list, result, [])
  }

  function VerbMethod(name: string, verbs: set<HttpMethod>, list: Option<seq<InterceptorDecl>>): MethodDecl {
    MethodDecl(name, None, false, verbs, false, false, false, list, ViewType, [])
  }

  function HookMethod(name: string, before: bool, after: bool, afterConstruct: bool): MethodDecl {
    MethodDecl(name, None, false, {}, before, after, afterConstruct, None, Void, [])
  }

  function Stateless(className: string, name: string, list: Option<seq<InterceptorDecl>>, methods: seq<MethodDecl>): ControllerDecl {
    ControllerDecl(className, Some(name), None, None, false, false, list, methods)
  }

  /** An interceptor with one context-free before hook and one context-free after hook. */
  lemma {:induction false} BeforeAfterInterceptor(cn: string, b: string, a: string)
    ensures var i := InterceptorDecl(cn, [Hook(b, true, false, []), Hook(a, false, true, [])]);
            ValidInterceptor(i) && BeforeHookOf(i) == Some(b) && AfterHookOf(i) == Some(a)
  {
    var i := InterceptorDecl(cn, [Hook(b, true, false, []), Hook(a, false, true, [])]);
    assert IsHook(i.methods[0]);
    assert Seqs.FirstIndex(i.methods, IsBefore) == Some(0);
    assert Seqs.FirstIndex(i.methods, IsAfter) == Some(1) by {
      assert !IsAfter(i.methods[0]);
    }
  }

  /** A one-method controller is accepted when that method is well formed. */
  lemma {:induction false} OneMethodControllerValid(c: ControllerDecl)
    requires MarkerCount(c) == 1 && |c.methods| == 1
    requires IsAnnotated(c.methods[0]) && !BadResult(c.methods[0]) && !BadHookParams(c.methods[0])
    requires c.interceptedBy.Some? ==> ValidList(c.interceptedBy.value)
    requires ValidMethodList(c.methods[0])
    ensures ValidController(c)
  {
    var ms := c.methods;
    assert ActionNames(ms) == ActionNames(ms[1..]) + (if ms[0].action.Some? then [ms[0].action.value] else []) by {
      assert ActionNames(ms[1..]) == [];
    }
  }

  /** A two-method controller is accepted when the methods are well formed and claim nothing twice. */
  lemma {:induction false} TwoMethodControllerValid(c: ControllerDecl)
    requires MarkerCount(c) == 1 && |c.methods| == 2
    requires var m0 := c.methods[0]; var m1 := c.methods[1];
             IsAnnotated(m0) && !BadResult(m0) && !BadHookParams(m0) && ValidMethodList(m0)
             && !BadResult(m1) && !BadHookParams(m1) && ValidMethodList(m1)
             && m0.httpMethods !! m1.httpMethods
             && (m0.action.Some? && m1.action.Some? ==> m0.action != m1.action)
             && !(m0.isDefaultAction && m1.isDefaultAction) && !(m0.isBeforeAction && m1.isBeforeAction)
             && !(m0.isAfterAction && m1.isAfterAction) && !(m0.isAfterConstruct && m1.isAfterConstruct)
    requires c.interceptedBy.Some? ==> ValidList(c.interceptedBy.value)
    ensures ValidController(c)
  {
    var ms := c.methods;
    assert ActionNames(ms[1..][1..]) == [];
    assert ms[1..][0] == ms[1];
  }

  lemma {:induction false} SingletonListValid(i: InterceptorDecl)
    requires ValidInterceptor(i)
    ensures ValidList([i])
  {
    assert ClassNames([i]) == [i.className];
  }

  lemma {:induction false} PairListValid(i: InterceptorDecl, j: InterceptorDecl)
    requires ValidInterceptor(i) && ValidInterceptor(j) && i.className != j.className
    ensures ValidList([i, j])
  {
    ClassNamesOfPair(i, j);
  }

  /**
    The shape of `TestMethodInterceptorController6`: class-level list
    `[i3]`, an action `act` with its own list `[i1, i2]`, and a default
    action with its own list `[i1]`.
  */
  function MethodInterceptorController6(cls: string, name: string, act: string,
                                        i1: InterceptorDecl, i2: InterceptorDecl, i3: InterceptorDecl): ControllerDecl {
    Stateless(cls, name, Some([i3]),
      [ActionMethod(act, act, Some([i1, i2]), ViewType), DefaultMethod("defaultAction", Some([i1]), ViewType)])
  }

  predicate ThreeInterceptors(i1: InterceptorDecl, i2: InterceptorDecl, i3: InterceptorDecl) {
    ValidInterceptor(i1) && ValidInterceptor(i2) && ValidInterceptor(i3)
    && i1.className != i2.className && i2.className != i3.className && i1.className != i3.className
  }

  lemma {:induction false} C6Accepted(cls: string, name: string, act: string,
                                      i1: InterceptorDecl, i2: InterceptorDecl, i3: InterceptorDecl)
    requires ThreeInterceptors(i1, i2, i3)
    ensures var c := MethodInterceptorController6(cls, name, act, i1, i2, i3);
            ValidRegistry([c]) && DistinctClasses([c])
  {
    SingletonListValid(i1);
    SingletonListValid(i3);
    PairListValid(i1, i2);
    TwoMethodControllerValid(MethodInterceptorController6(cls, name, act, i1, i2, i3));
  }

  lemma {:induction false} C6ActionChain(cls: string, name: string, act: string,
                                         i1: InterceptorDecl, i2: InterceptorDecl, i3: InterceptorDecl)
    requires ThreeInterceptors(i1, i2, i3)
    ensures var reg := Registry([MethodInterceptorController6(cls, name, act, i1, i2, i3)]);
            InterceptorsForAction(reg, cls, act) == Some([i1.className, i2.className])
            && InterceptorsFor(reg, cls) == Some([i3.className])
  {
    var cs := [MethodInterceptorController6(cls, name, act, i1, i2, i3)];
    C6Accepted(cls, name, act, i1, i2, i3);
    C6ActionNames(cls, name, act, i1, i2, i3);
    MethodListOverrides(cs, 0, 0, act, None);
    ClassNamesOfPair(i1, i2);
    assert ClassNames([i3]) == [i3.className];
  }

  lemma {:induction false} C6ActionNames(cls: string, name: string, act: string,
                                         i1: InterceptorDecl, i2: InterceptorDecl, i3: InterceptorDecl)
    ensures ActionNames(MethodInterceptorController6(cls, name, act, i1, i2, i3).methods) == [act]
  {
    var ms := MethodInterceptorController6(cls, name, act, i1, i2, i3).methods;
    assert ActionNames(ms[1..]) == [] by {
      assert ActionNames(ms[1..][1..]) == [];
    }
  }

  lemma {:induction false} ClassNamesOfPair(i: InterceptorDecl, j: InterceptorDecl)
    ensures ClassNames([i, j]) == [i.className, j.className]
  {
    assert ClassNames([i, j][1..]) == [j.className] by {
      assert [i, j][1..] == [j];
    }
  }

  lemma {:induction false} C6DefaultChain(cls: string, name: string, act: string,
                                          i1: InterceptorDecl, i2: InterceptorDecl, i3: InterceptorDecl)
    requires ThreeInterceptors(i1, i2, i3)
    ensures var reg := Registry([MethodInterceptorController6(cls, name, act, i1, i2, i3)]);
            InterceptorsForDefaultAction(reg, cls) == Some([i1.className])
  {
    var cs := [MethodInterceptorController6(cls, name, act, i1, i2, i3)];
    C6Accepted(cls, name, act, i1, i2, i3);
    MarkedMethodLookups(cs, 0, 1);
    assert ClassNames([i1]) == [i1.className];
  }

  lemma {:induction false} C6AllInterceptors(cls: string, name: string, act: string,
                                             i1: InterceptorDecl, i2: InterceptorDecl, i3: InterceptorDecl)
    ensures AllInterceptors([MethodInterceptorController6(cls, name, act, i1, i2, i3)]) == [i3, i1, i2, i1]
  {
    var cs := [MethodInterceptorController6(cls, name, act, i1, i2, i3)];
    assert AllInterceptors(cs[1..]) == [];
    var ms := cs[0].methods;
    assert MethodInterceptors(ms) == [i1, i2, i1] by {
      assert MethodInterceptors(ms[1..]) == [i1] by {
        assert MethodInterceptors(ms[1..][1..]) == [];
      }
    }
  }

  lemma {:induction false} C6Hooks(cls: string, name: string, act: string,
                                   i1: InterceptorDecl, i2: InterceptorDecl, i3: InterceptorDecl)
    requires ThreeInterceptors(i1, i2, i3)
    ensures var reg := Registry([MethodInterceptorController6(cls, name, act, i1, i2, i3)]);
            BeforeForInterceptor(reg, i3.className) == BeforeHookOf(i3)
            && AfterForInterceptor(reg, i3.className) == AfterHookOf(i3)
            && BeforeForInterceptor(reg, i2.className) == BeforeHookOf(i2)
            && AfterForInterceptor(reg, i1.className) == AfterHookOf(i1)
  {
    var cs := [MethodInterceptorController6(cls, name, act, i1, i2, i3)];
    C6Accepted(cls, name, act, i1, i2, i3);
    C6AllInterceptors(cls, name, act, i1, i2, i3);
    var all := AllInterceptors(cs);
    assert CoherentInterceptors(cs) by {
      forall x, y | x in all && y in all && x.className == y.className ensures x == y {
        assert x == i1 || x == i2 || x == i3;
        assert y == i1 || y == i2 || y == i3;
      }
    }
    InterceptorHookLookups(cs, i3);
    InterceptorHookLookups(cs, i2);
    InterceptorHookLookups(cs, i1);
  }

  /**
    `TestMethodInterceptorController6`, for any three distinct valid
    interceptors: accepted; the class-level chain is `[i3]`, the action's
    chain is its own `[i1, i2]`, the default action's is `[i1]`, and each
    interceptor's hooks are looked up by its class name.
  */
  lemma {:induction false} MethodInterceptorController6Lookups(cls: string, name: string, act: string,
                                                               i1: InterceptorDecl, i2: InterceptorDecl, i3: InterceptorDecl)
    requires ThreeInterceptors(i1, i2, i3)
    ensures Build([MethodInterceptorController6(cls, name, act, i1, i2, i3)]).Success?
    ensures var reg := Registry([MethodInterceptorController6(cls, name, act, i1, i2, i3)]);
            InterceptorsFor(reg, cls) == Some([i3.className])
            && InterceptorsForAction(reg, cls, act) == Some([i1.className, i2.className])
            && InterceptorsForDefaultAction(reg, cls) == Some([i1.className])
            && BeforeForInterceptor(reg, i3.className) == BeforeHookOf(i3)
            && AfterForInterceptor(reg, i3.className) == AfterHookOf(i3)
            && BeforeForInterceptor(reg, i2.className) == BeforeHookOf(i2)
            && AfterForInterceptor(reg, i1.className) == AfterHookOf(i1)
  {
    C6Accepted(cls, name, act, i1, i2, i3);
    C6ActionChain(cls, name, act, i1, i2, i3);
    C6DefaultChain(cls, name, act, i1, i2, i3);
    C6Hooks(cls, name, act, i1, i2, i3);
  }

  /**
    The shape of `TestHttpMethodController3`: a stateless controller with
    no name of its own and one method bound to GET, POST and PUT with its
    own list `[i1, i2]`.
  */
  function HttpMethodController3(cls: string, mname: string, i1: InterceptorDecl, i2: InterceptorDecl): ControllerDecl {
    Stateless(cls, "", None, [VerbMethod(mname, {GET, POST, PUT}, Some([i1, i2]))])
  }

  lemma {:induction false} H3Accepted(cls: string, mname: string, i1: InterceptorDecl, i2: InterceptorDecl)
    requires ValidInterceptor(i1) && ValidInterceptor(i2) && i1.className != i2.className
    ensures var c := HttpMethodController3(cls, mname, i1, i2);
            ValidRegistry([c]) && DistinctClasses([c]) && VerbsUnique(c.methods)
  {
    PairListValid(i1, i2);
    OneMethodControllerValid(HttpMethodController3(cls, mname, i1, i2));
  }

  lemma {:induction false} H3Verb(cls: string, mname: string, i1: InterceptorDecl, i2: InterceptorDecl, v: HttpMethod)
    requires ValidInterceptor(i1) && ValidInterceptor(i2) && i1.className != i2.className
    requires v in {GET, POST, PUT}
    ensures var reg := Registry([HttpMethodController3(cls, mname, i1, i2)]);
            HttpMethodActionOf(reg, cls, v).Some? && HttpMethodActionOf(reg, cls, v).value.methodName == mname
            && InterceptorsForHttpMethodAction(reg, cls, v) == Some([i1.className, i2.className])
  {
    var cs := [HttpMethodController3(cls, mname, i1, i2)];
    H3Accepted(cls, mname, i1, i2);
    ClassNamesOfPair(i1, i2);
    VerbLookup(cs, 0, 0, v);
  }

  lemma {:induction false} H3NameAndDelete(cls: string, mname: string, i1: InterceptorDecl, i2: InterceptorDecl)
    requires ValidInterceptor(i1) && ValidInterceptor(i2) && i1.className != i2.className
    ensures var reg := Registry([HttpMethodController3(cls, mname, i1, i2)]);
            ControllerClass(reg, cls) == Some(cls) && HttpMethodActionOf(reg, cls, DELETE).None?
  {
    var cs := [HttpMethodController3(cls, mname, i1, i2)];
    H3Accepted(cls, mname, i1, i2);
    LookupByName(cs, 0);
    FindControllerByClass(cs, 0);
  }

  /**
    `TestHttpMethodController3`: accepted, found under its class name, and
    GET, POST and PUT all answer with the one method and its chain
    `[i1, i2]`; DELETE answers nothing.
  */
  lemma {:induction false} HttpMethodController3Lookups(cls: string, mname: string, i1: InterceptorDecl, i2: InterceptorDecl)
    requires ValidInterceptor(i1) && ValidInterceptor(i2) && i1.className != i2.className
    ensures Build([HttpMethodController3(cls, mname, i1, i2)]).Success?
    ensures var reg := Registry([HttpMethodController3(cls, mname, i1, i2)]);
            ControllerClass(reg, cls) == Some(cls)
            && (forall v :: v in {GET, POST, PUT} ==>
                  HttpMethodActionOf(reg, cls, v).Some? && HttpMethodActionOf(reg, cls, v).value.methodName == mname
                  && InterceptorsForHttpMethodAction(reg, cls, v) == Some([i1.className, i2.className]))
            && HttpMethodActionOf(reg, cls, DELETE).None?
  {
    H3Accepted(cls, mname, i1, i2);
    H3NameAndDelete(cls, mname, i1, i2);
    forall v | v in {GET, POST, PUT}
      ensures var reg := Registry([HttpMethodController3(cls, mname, i1, i2)]);
              HttpMethodActionOf(reg, cls, v).Some? && HttpMethodActionOf(reg, cls, v).value.methodName == mname
              && InterceptorsForHttpMethodAction(reg, cls, v) == Some([i1.className, i2.className])
    {
      H3Verb(cls, mname, i1, i2, v);
    }
  }

  /**
    The shape of `TestStartupController`: an `@Init` singleton named `name`
    whose only method is the after-construct hook `init`.
  */
  function StartupController(cls: string, name: string, init: string): ControllerDecl {
    ControllerDecl(cls, None, None, Some(name), false, true, None,
      [MethodDecl(init, None, false, {}, false, false, true, None, Void, [])])
  }

  lemma {:induction false} StartupValid(cls: string, name: string, init: string)
    ensures ValidController(StartupController(cls, name, init))
  {
    OneMethodControllerValid(StartupController(cls, name, init));
  }

  lemma {:induction false} ConstructAccepted(c: ControllerDecl, cls: string, name: string, init: string)
    requires ValidController(c) && c.isDefaultController && !c.isInit
    requires cls != c.className && name != "" && name != ControllerName(c)
    ensures var cs := [c, StartupController(cls, name, init)];
            ValidRegistry(cs) && DistinctClasses(cs)
  {
    StartupValid(cls, name, init);
    var cs := [c, StartupController(cls, name, init)];
    assert ControllerNames(cs) == [ControllerName(c), name] by {
      assert ControllerNames(cs[1..]) == [name] by {
        assert ControllerNames(cs[1..][1..]) == [];
      }
    }
  }

  lemma {:induction false} ConstructNames(c: ControllerDecl, cls: string, name: string, init: string)
    requires ValidController(c) && c.isDefaultController && !c.isInit
    requires cls != c.className && name != "" && name != ControllerName(c)
    ensures var reg := Registry([c, StartupController(cls, name, init)]);
            ControllerClass(reg, ControllerName(c)) == Some(c.className)
            && ControllerClass(reg, name) == Some(cls)
            && DefaultControllerClass(reg) == Some(c.className)
  {
    var cs := [c, StartupController(cls, name, init)];
    ConstructAccepted(c, cls, name, init);
    LookupByName(cs, 0);
    LookupByName(cs, 1);
    DefaultIsTheMarked(cs, 0);
  }

  lemma {:induction false} ConstructInitSet(c: ControllerDecl, cls: string, name: string, init: string)
    requires ValidController(c) && c.isDefaultController && !c.isInit
    requires cls != c.className && name != "" && name != ControllerName(c)
    ensures InitControllers(Registry([c, StartupController(cls, name, init)])) == {cls}
  {
    var cs := [c, StartupController(cls, name, init)];
    ConstructAccepted(c, cls, name, init);
    assert cs[1].isInit && !cs[0].isInit;
  }

  lemma {:induction false} ConstructStartup(c: ControllerDecl, cls: string, name: string, init: string, action: string)
    requires ValidController(c) && c.isDefaultController && !c.isInit
    requires cls != c.className && name != "" && name != ControllerName(c)
    ensures var reg := Registry([c, StartupController(cls, name, init)]);
            AfterConstructOf(reg, cls).Some? && AfterConstructOf(reg, cls).value.methodName == init
            && ActionSignatureOf(reg, cls, action).None?
  {
    var cs := [c, StartupController(cls, name, init)];
    ConstructAccepted(c, cls, name, init);
    MarkedMethodLookups(cs, 1, 0);
    FindControllerByClass(cs, 1);
  }

  /** The `@Action` names are distinct when no two methods carry the same one. */
  lemma {:induction false} ActionNamesDistinct(ms: seq<MethodDecl>)
    requires forall j, k :: 0 <= j < k < |ms| && ms[j].action.Some? ==> ms[k].action != ms[j].action
    ensures Seqs.Distinct(ActionNames(ms))
    decreases |ms|
  {
    if |ms| > 0 {
      var t := ms[1..];
      assert forall j, k :: 0 <= j < k < |t| && t[j].action.Some? ==> t[k].action != t[j].action by {
        forall j, k | 0 <= j < k < |t| && t[j].action.Some? ensures t[k].action != t[j].action {
          assert t[j] == ms[j + 1] && t[k] == ms[k + 1];
        }
      }
      ActionNamesDistinct(t);
      var rest := ActionNames(t);
      if ms[0].action.Some? {
        forall k | 0 <= k < |t| ensures t[k].action != ms[0].action {
          assert t[k] == ms[k + 1];
        }
        assert ms[0].action.value !in rest;
        var names := ActionNames(ms);
        assert names == [ms[0].action.value] + rest;
        forall i, j | 0 <= i < j < |names| ensures names[i] != names[j] {
          if i > 0 {
            assert names[i] == rest[i - 1] && names[j] == rest[j - 1];
          } else {
            assert names[j] == rest[j - 1];
          }
        }
      }
    }
  }

  /** A method without any framework annotation. */
  function PlainMethod(name: string): MethodDecl {
    MethodDecl(name, None, false, {}, false, false, false, None, Void, [])
  }

  /**
    `TestController`: the default controller, stateless under the name
    `test`, with an after-construct hook, a default action, five named
    actions, an unannotated method, and a before and an after hook.
  */
  function TestController(): ControllerDecl {
    ControllerDecl("TestController", Some("test"), None, None, true, false, None,
      [ HookMethod("init", false, false, true),
        DefaultMethod("defaultAction", None, ViewType),
        ActionMethod("testAction", "test", None, ViewType),
        PlainMethod("mockMethod"),
        ActionMethod("withParamAction", "with-param", None, ViewType),
        ActionMethod("anotherParamAction", "another-param", None, ViewType),
        ActionMethod("someServiceAction", "some-service", None, ViewType),
        ActionMethod("doAnnotationTest", "test-annotation", None, ViewType),
        HookMethod("doSomethingBefore", true, false, false),
        HookMethod("doSomethingAfter", false, true, false) ])
  }

  /**
    What one method at position `k` contributes to a valid controller: a
    well-formed result and hook parameters, no own interceptor list, no
    verb, and each mark only at its one position (`slot` gives the
    position of each action name).
  */
  predicate SlottedMethod(m: MethodDecl, k: int, slot: string -> int, default: int, before: int, after: int, construct: int) {
    && !BadResult(m) && !BadHookParams(m) && m.interceptedBy.None? && m.httpMethods == {}
    && (m.action.Some? ==> slot(m.action.value) == k)
    && (m.isDefaultAction ==> k == default) && (m.isBeforeAction ==> k == before)
    && (m.isAfterAction ==> k == after) && (m.isAfterConstruct ==> k == construct)
  }

  /** A controller all of whose methods are slotted passes every rule of the build. */
  lemma {:induction false} ValidBySlots(c: ControllerDecl, slot: string -> int, default: int, before: int, after: int, construct: int)
    requires MarkerCount(c) == 1 && c.interceptedBy.None? && |c.methods| > 0 && IsAnnotated(c.methods[0])
    requires forall k :: 0 <= k < |c.methods| ==> SlottedMethod(c.methods[k], k, slot, default, before, after, construct)
    ensures ValidController(c) && Seqs.Distinct(ActionNames(c.methods))
  {
    var ms := c.methods;
    assert forall j, k :: 0 <= j < k < |ms| && ms[j].action.Some? ==> ms[k].action != ms[j].action by {
      forall j, k | 0 <= j < k < |ms| && ms[j].action.Some? ensures ms[k].action != ms[j].action {
        assert SlottedMethod(ms[j], j, slot, default, before, after, construct);
        assert SlottedMethod(ms[k], k, slot, default, before, after, construct);
      }
    }
    ActionNamesDistinct(ms);
    assert VerbsUnique(ms) by {
      forall v, j, k | 0 <= j < k < |ms| ensures !(v in ms[j].httpMethods && v in ms[k].httpMethods) {
        assert SlottedMethod(ms[j], j, slot, default, before, after, construct);
      }
    }
  }

  /** The position of each of `TestController`'s action names in its method list. */
  function TestActionSlot(a: string): int {
    if a == "test" then 2
    else if a == "with-param" then 4
    else if a == "another-param" then 5
    else if a == "some-service" then 6
    else if a == "test-annotation" then 7
    else -1
  }

  lemma {:induction false} TestControllerMethods()
    ensures var ms := TestController().methods;
            forall k :: 0 <= k < |ms| ==> SlottedMethod(ms[k], k, TestActionSlot, 1, 8, 9, 0)
  {
    var ms := TestController().methods;
    forall k | 0 <= k < |ms| ensures SlottedMethod(ms[k], k, TestActionSlot, 1, 8, 9, 0) {
      if k == 0 {} else if k == 1 {} else if k == 2 {} else if k == 3 {} else if k == 4 {}
      else if k == 5 {} else if k == 6 {} else if k == 7 {} else if k == 8 {} else {}
    }
  }

  /** `TestController` passes every rule of the build on its own. */
  lemma {:induction false} TestControllerValid()
    ensures ValidController(TestController())
    ensures Seqs.Distinct(ActionNames(TestController().methods))
  {
    TestControllerMethods();
    ValidBySlots(TestController(), TestActionSlot, 1, 8, 9, 0);
  }

  /** `TestStartupController`: the `@Init` singleton `startup` whose after-construct hook is `init2`. */
  function TestStartupController(): ControllerDecl {
    StartupController("TestStartupController", "startup", "init2")
  }

  /** In a registry of two controllers, an action of the first answers with its method. */
  lemma {:induction false} FirstOfPairAction(c0: ControllerDecl, c1: ControllerDecl, j: nat, a: string, name: string)
    requires c0.className != c1.className && Seqs.Distinct(ActionNames(c0.methods))
    requires j < |c0.methods| && c0.methods[j].action == Some(a) && c0.methods[j].name == name
    ensures var sig := ActionSignatureOf(Registry([c0, c1]), c0.className, a);
            sig.Some? && sig.value.methodName == name
  {
    ActionLookup([c0, c1], 0, j, a);
  }

  /** One named action of `TestController`, at position `j`, answers with its method `name`. */
  lemma {:induction false} TestControllerAction(j: nat, a: string, name: string)
    requires j < |TestController().methods| && TestController().methods[j].action == Some(a)
    requires TestController().methods[j].name == name
    ensures var sig := ActionSignatureOf(Registry([TestController(), TestStartupController()]), "TestController", a);
            sig.Some? && sig.value.methodName == name
  {
    TestControllerValid();
    FirstOfPairAction(TestController(), TestStartupController(), j, a, name);
  }

  lemma {:induction false} TestActionTest()
    ensures var sig := ActionSignatureOf(Registry([TestController(), TestStartupController()]), "TestController", "test");
            sig.Some? && sig.value.methodName == "testAction"
  {
    TestControllerAction(2, "test", "testAction");
  }

  lemma {:induction false} TestActionWithParam()
    ensures var sig := ActionSignatureOf(Registry([TestController(), TestStartupController()]), "TestController", "with-param");
            sig.Some? && sig.value.methodName == "withParamAction"
  {
    TestControllerAction(4, "with-param", "withParamAction");
  }

  lemma {:induction false} TestActionAnotherParam()
    ensures var sig := ActionSignatureOf(Registry([TestController(), TestStartupController()]), "TestController", "another-param");
            sig.Some? && sig.value.methodName == "anotherParamAction"
  {
    TestControllerAction(5, "another-param", "anotherParamAction");
  }

  lemma {:induction false} TestActionSomeService()
    ensures var sig := ActionSignatureOf(Registry([TestController(), TestStartupController()]), "TestController", "some-service");
            sig.Some? && sig.value.methodName == "someServiceAction"
  {
    TestControllerAction(6, "some-service", "someServiceAction");
  }

  lemma {:induction false} TestActionAnnotation()
    ensures var sig := ActionSignatureOf(Registry([TestController(), TestStartupController()]), "TestController", "test-annotation");
            sig.Some? && sig.value.methodName == "doAnnotationTest"
  {
    TestControllerAction(7, "test-annotation", "doAnnotationTest");
  }

  /** The five named actions of `TestController` answer with their methods. */
  lemma {:induction false} TestControllerActions()
    ensures var reg := Registry([TestController(), TestStartupController()]);
            && ActionSignatureOf(reg, "TestController", "test").Some?
            && ActionSignatureOf(reg, "TestController", "test").value.methodName == "testAction"
            && ActionSignatureOf(reg, "TestController", "with-param").Some?
            && ActionSignatureOf(reg, "TestController", "with-param").value.methodName == "withParamAction"
            && ActionSignatureOf(reg, "TestController", "another-param").Some?
            && ActionSignatureOf(reg, "TestController", "another-param").value.methodName == "anotherParamAction"
            && ActionSignatureOf(reg, "TestController", "some-service").Some?
            && ActionSignatureOf(reg, "TestController", "some-service").value.methodName == "someServiceAction"
            && ActionSignatureOf(reg, "TestController", "test-annotation").Some?
            && ActionSignatureOf(reg, "TestController", "test-annotation").value.methodName == "doAnnotationTest"
  {
    TestActionTest();
    TestActionWithParam();
    TestActionAnotherParam();
    TestActionSomeService();
    TestActionAnnotation();
  }

  /** `TestController`'s hooks and default action answer with their methods. */
  lemma {:induction false} TestControllerHooks()
    ensures var reg := Registry([TestController(), TestStartupController()]);
            && BeforeActionOf(reg, "TestController").Some?
            && BeforeActionOf(reg, "TestController").value.methodName == "doSomethingBefore"
            && AfterActionOf(reg, "TestController").Some?
            && AfterActionOf(reg, "TestController").value.methodName == "doSomethingAfter"
            && DefaultActionOf(reg, "TestController").Some?
            && DefaultActionOf(reg, "TestController").value.methodName == "defaultAction"
            && DefaultActionOf(reg, "TestController").value.isDefaultAction
            && AfterConstructOf(reg, "TestController").Some?
            && AfterConstructOf(reg, "TestController").value.methodName == "init"
  {
    var cs := [TestController(), TestStartupController()];
    TestControllerValid();
    ConstructAccepted(TestController(), "TestStartupController", "startup", "init2");
    MarkedMethodLookups(cs, 0, 0);
    MarkedMethodLookups(cs, 0, 1);
    MarkedMethodLookups(cs, 0, 8);
    MarkedMethodLookups(cs, 0, 9);
  }

  /** The registry of `testConstruct` is accepted, and its controllers are found by name. */
  lemma {:induction false} ConstructNamed()
    ensures var cs := [TestController(), TestStartupController()];
            var reg := Registry(cs);
            && Build(cs).Success?
            && ControllerClass(reg, "test") == Some("TestController")
            && ControllerClass(reg, "startup") == Some("TestStartupController")
            && DefaultControllerClass(reg) == Some("TestController")
  {
    var c := TestController();
    TestControllerValid();
    assert ControllerName(c) == "test";
    ConstructAccepted(c, "TestStartupController", "startup", "init2");
    ConstructNames(c, "TestStartupController", "startup", "init2");
  }

  /** In the registry of `testConstruct` the startup controller is the init set and has only its hook. */
  lemma {:induction false} ConstructStarted(action: string)
    ensures var reg := Registry([TestController(), TestStartupController()]);
            && InitControllers(reg) == {"TestStartupController"}
            && AfterConstructOf(reg, "TestStartupController").Some?
            && AfterConstructOf(reg, "TestStartupController").value.methodName == "init2"
            && ActionSignatureOf(reg, "TestStartupController", action).None?
  {
    var c := TestController();
    TestControllerValid();
    assert ControllerName(c) == "test";
    ConstructInitSet(c, "TestStartupController", "startup", "init2");
    ConstructStartup(c, "TestStartupController", "startup", "init2", action);
  }

  /**
    `testConstruct`: `TestController` together with `TestStartupController`.
    Both are accepted and found under their names; `TestController` is the
    default controller and its actions, hooks and default action are its
    own methods; the init set is exactly the startup controller, whose
    after-construct hook is `init2` and which has no actions.
  */
  lemma {:induction false} ConstructLookups(action: string)
    ensures var cs := [TestController(), TestStartupController()];
            var reg := Registry(cs);
            && Build(cs).Success?
            && ControllerClass(reg, "test") == Some("TestController")
            && ControllerClass(reg, "startup") == Some("TestStartupController")
            && DefaultControllerClass(reg) == Some("TestController")
            && InitControllers(reg) == {"TestStartupController"}
            && AfterConstructOf(reg, "TestStartupController").Some?
            && AfterConstructOf(reg, "TestStartupController").value.methodName == "init2"
            && ActionSignatureOf(reg, "TestStartupController", action).None?
    ensures var reg := Registry([TestController(), TestStartupController()]);
            && ActionSignatureOf(reg, "TestController", "test").Some?
            && ActionSignatureOf(reg, "TestController", "test").value.methodName == "testAction"
            && ActionSignatureOf(reg, "TestController", "with-param").Some?
            && ActionSignatureOf(reg, "TestController", "with-param").value.methodName == "withParamAction"
            && ActionSignatureOf(reg, "TestController", "another-param").Some?
            && ActionSignatureOf(reg, "TestController", "another-param").value.methodName == "anotherParamAction"
            && ActionSignatureOf(reg, "TestController", "some-service").Some?
            && ActionSignatureOf(reg, "TestController", "some-service").value.methodName == "someServiceAction"
            && ActionSignatureOf(reg, "TestController", "test-annotation").Some?
            && ActionSignatureOf(reg, "TestController", "test-annotation").value.methodName == "doAnnotationTest"
            && BeforeActionOf(reg, "TestController").Some?
            && BeforeActionOf(reg, "TestController").value.methodName == "doSomethingBefore"
            && AfterActionOf(reg, "TestController").Some?
            && AfterActionOf(reg, "TestController").value.methodName == "doSomethingAfter"
            && DefaultActionOf(reg, "TestController").Some?
            && DefaultActionOf(reg, "TestController").value.methodName == "defaultAction"
            && AfterConstructOf(reg, "TestController").Some?
            && AfterConstructOf(reg, "TestController").value.methodName == "init"
  {
    ConstructNamed();
    ConstructStarted(action);
    TestControllerActions();
    TestControllerHooks();
  }
}

=== FILE: registry_properties.dfy ===
/**
  What the registry's lookups answer once the build has accepted a set of
  controllers: every lookup finds the one declaration that carries the
  mark, and interceptor chains follow the override rule.
*/
module RegistryProperties {
  import opened Wrappers
  import opened Declarations
  import opened InterceptorDescriptor
  import opened ControllerDescriptor
  import opened ControllerDatabase
  import Seqs

  /** Controller classes are identified by name: one class, one declaration. */
  predicate DistinctClasses(cs: seq<ControllerDecl>) {
    forall j, k :: 0 <= j < k < |cs| ==> cs[j].className != cs[k].className
  }

  /** Likewise an interceptor class names a single declaration wherever it is listed. */
  predicate CoherentInterceptors(cs: seq<ControllerDecl>) {
    forall x, y :: x in AllInterceptors(cs) && y in AllInterceptors(cs) && x.className == y.className ==> x == y
  }

  lemma {:induction false} FindControllerByClass(cs: seq<ControllerDecl>, k: nat)
    requires DistinctClasses(cs) && k < |cs|
    ensures FindController(Registry(cs), cs[k].className) == Some(cs[k])
  {
    var i := Seqs.FirstIndex(cs, (c: ControllerDecl) => c.className == cs[k].className).value;
    assert i == k;
  }

  /** With at most one method carrying a mark, the search finds exactly that method. */
  lemma {:induction false} MethodWhereUnique(ms: seq<MethodDecl>, p: MethodDecl -> bool, j: nat)
    requires AtMostOne(ms, p) && j < |ms| && p(ms[j])
    ensures MethodWhere(ms, p) == Some(ms[j])
  {
    var i := Seqs.FirstIndex(ms, p).value;
    assert i == j;
  }

  lemma {:induction false} HeadNotRepeated<T>(s: seq<T>)
    requires Seqs.Distinct(s) && |s| > 0
    ensures s[0] !in s[1..]
  {
    forall i | 0 <= i < |s[1..]| ensures s[1..][i] != s[0] {
      assert s[1..][i] == s[i + 1];
    }
  }

  /** Distinct `@Action` names mean no two methods answer to the same name. */
  lemma {:induction false} DistinctActionNames(ms: seq<MethodDecl>, a: string)
    requires Seqs.Distinct(ActionNames(ms))
    ensures AtMostOne(ms, NamedAs(a))
    decreases |ms|
  {
    if |ms| > 0 {
      var rest := ActionNames(ms[1..]);
      assert ActionNames(ms) == if ms[0].action.Some? then [ms[0].action.value] + rest else rest;
      assert Seqs.Distinct(rest) by {
        if ms[0].action.Some? {
          forall i, j | 0 <= i < j < |rest| ensures rest[i] != rest[j] {
            assert rest[i] == ActionNames(ms)[i + 1] && rest[j] == ActionNames(ms)[j + 1];
          }
        }
      }
      DistinctActionNames(ms[1..], a);
      forall j, k | 0 <= j < k < |ms| ensures !(NamedAs(a)(ms[j]) && NamedAs(a)(ms[k])) {
        if j == 0 && ms[0].action == Some(a) && ms[k].action == Some(a) {
          assert ms[k] == ms[1..][k - 1];
          HeadNotRepeated(ActionNames(ms));
        } else if j > 0 {
          assert ms[j] == ms[1..][j - 1] && ms[k] == ms[1..][k - 1];
        }
      }
    }
  }

  /** An accepted controller is found under its name, or its class name when the marker gives none. */
  lemma {:induction false} LookupByName(cs: seq<ControllerDecl>, k: nat)
    requires ValidRegistry(cs) && k < |cs|
    ensures ControllerClass(Registry(cs), ControllerName(cs[k])) == Some(cs[k].className)
  {
    var p := (c: ControllerDecl) => ControllerName(c) == ControllerName(cs[k]);
    assert p(cs[k]);
    var i := Seqs.FirstIndex(cs, p).value;
    var names := ControllerNames(cs);
    assert names[i] == names[k];
    assert i == k;
  }

  /** The default controller is the one marked `@DefaultController`, and there is none when none is marked. */
  lemma {:induction false} DefaultIsTheMarked(cs: seq<ControllerDecl>, k: nat)
    requires ValidRegistry(cs) && DistinctClasses(cs) && k < |cs|
    ensures DefaultControllerClass(Registry(cs)) == Some(cs[k].className) <==> cs[k].isDefaultController
  {
    if cs[k].isDefaultController {
      var i := Seqs.FirstIndex(cs, IsDefaultController).value;
      assert i == k;
    }
  }

  /**
    In an accepted registry, the action named `a` of controller `cs[k]` is
    the method carrying `@Action(a)`, and its chain is that method's chain.
  */
  lemma {:induction false} ActionLookup(cs: seq<ControllerDecl>, k: nat, j: nat, a: string)
    requires DistinctClasses(cs) && k < |cs| && j < |cs[k].methods|
    requires Seqs.Distinct(ActionNames(cs[k].methods))
    requires cs[k].methods[j].action == Some(a)
    ensures ActionSignatureOf(Registry(cs), cs[k].className, a) == Some(SignatureOf(cs[k].methods[j]))
    ensures InterceptorsForAction(Registry(cs), cs[k].className, a) == Some(Chain(cs[k], cs[k].methods[j]))
  {
    FindControllerByClass(cs, k);
    DistinctActionNames(cs[k].methods, a);
    MethodWhereUnique(cs[k].methods, NamedAs(a), j);
  }

  /**
    Override, not merge: an action that declares its own list gets exactly
    that list, whatever the class-level list is, and the class-level list
    itself is unchanged.
  */
  lemma {:induction false} MethodListOverrides(cs: seq<ControllerDecl>, k: nat, j: nat, a: string,
                                                classLevel: Option<seq<InterceptorDecl>>)
    requires DistinctClasses(cs) && k < |cs| && j < |cs[k].methods|
    requires Seqs.Distinct(ActionNames(cs[k].methods))
    requires cs[k].methods[j].action == Some(a) && cs[k].methods[j].interceptedBy.Some?
    ensures InterceptorsForAction(Registry(cs), cs[k].className, a)
            == Some(ClassNames(cs[k].methods[j].interceptedBy.value))
    ensures InterceptorsFor(Registry(cs), cs[k].className) == Some(ListNames(cs[k].interceptedBy))
    ensures var cs' := cs[k := cs[k].(interceptedBy := classLevel)];
            InterceptorsForAction(Registry(cs'), cs[k].className, a)
            == InterceptorsForAction(Registry(cs), cs[k].className, a)
  {
    ActionLookup(cs, k, j, a);
    FindControllerByClass(cs, k);
    var cs' := cs[k := cs[k].(interceptedBy := classLevel)];
    assert DistinctClasses(cs') by {
      forall x, y | 0 <= x < y < |cs'| ensures cs'[x].className != cs'[y].className {
        assert cs'[x].className == cs[x].className && cs'[y].className == cs[y].className;
      }
    }
    ActionLookup(cs', k, j, a);
  }

  /** An action without its own list gets the class-level list. */
  lemma {:induction false} ActionInheritsClassList(cs: seq<ControllerDecl>, k: nat, j: nat, a: string)
    requires DistinctClasses(cs) && k < |cs| && j < |cs[k].methods|
    requires Seqs.Distinct(ActionNames(cs[k].methods))
    requires cs[k].methods[j].action == Some(a) && cs[k].methods[j].interceptedBy.None?
    ensures InterceptorsForAction(Registry(cs), cs[k].className, a) == InterceptorsFor(Registry(cs), cs[k].className)
  {
    ActionLookup(cs, k, j, a);
    FindControllerByClass(cs, k);
  }

  /** The method bound to verb `v` answers that verb, with its own chain. */
  lemma {:induction false} VerbLookup(cs: seq<ControllerDecl>, k: nat, j: nat, v: HttpMethod)
    requires DistinctClasses(cs) && k < |cs| && j < |cs[k].methods|
    requires VerbsUnique(cs[k].methods) && v in cs[k].methods[j].httpMethods
    ensures HttpMethodActionOf(Registry(cs), cs[k].className, v) == Some(SignatureOf(cs[k].methods[j]))
    ensures InterceptorsForHttpMethodAction(Registry(cs), cs[k].className, v) == Some(Chain(cs[k], cs[k].methods[j]))
  {
    FindControllerByClass(cs, k);
    MethodWhereUnique(cs[k].methods, BoundTo(v), j);
  }

  /**
    A method bound to several verbs answers every one of them with the
    same signature and the same interceptor chain.
  */
  lemma {:induction false} OneMethodManyVerbs(cs: seq<ControllerDecl>, k: nat, j: nat, v: HttpMethod, w: HttpMethod)
    requires DistinctClasses(cs) && k < |cs| && j < |cs[k].methods|
    requires VerbsUnique(cs[k].methods)
    requires v in cs[k].methods[j].httpMethods && w in cs[k].methods[j].httpMethods
    ensures HttpMethodActionOf(Registry(cs), cs[k].className, v) == HttpMethodActionOf(Registry(cs), cs[k].className, w)
    ensures InterceptorsForHttpMethodAction(Registry(cs), cs[k].className, v)
            == InterceptorsForHttpMethodAction(Registry(cs), cs[k].className, w)
  {
    VerbLookup(cs, k, j, v);
    VerbLookup(cs, k, j, w);
  }

  /**
    The default action and the three hooks of an accepted controller are
    the methods carrying those marks.
  */
  lemma {:induction false} MarkedMethodLookups(cs: seq<ControllerDecl>, k: nat, j: nat)
    requires ValidRegistry(cs) && DistinctClasses(cs) && k < |cs| && j < |cs[k].methods|
    ensures var m := cs[k].methods[j];
            var cls := cs[k].className;
            var reg := Registry(cs);
            (m.isDefaultAction ==> DefaultActionOf(reg, cls) == Some(SignatureOf(m))
                                   && InterceptorsForDefaultAction(reg, cls) == Some(Chain(cs[k], m)))
            && (m.isBeforeAction ==> BeforeActionOf(reg, cls) == Some(SignatureOf(m)))
            && (m.isAfterAction ==> AfterActionOf(reg, cls) == Some(SignatureOf(m)))
            && (m.isAfterConstruct ==> AfterConstructOf(reg, cls) == Some(SignatureOf(m)))
  {
    FindControllerByClass(cs, k);
    var ms := cs[k].methods;
    assert ValidController(cs[k]);
    if ms[j].isDefaultAction { MethodWhereUnique(ms, IsDefaultAction, j); }
    if ms[j].isBeforeAction { MethodWhereUnique(ms, IsBeforeAction, j); }
    if ms[j].isAfterAction { MethodWhereUnique(ms, IsAfterAction, j); }
    if ms[j].isAfterConstruct { MethodWhereUnique(ms, IsAfterConstruct, j); }
  }

  /** The interceptors a controller lists, at either level, are valid when its lists are. */
  lemma {:induction false} ListedByControllerValid(c: ControllerDecl, i: InterceptorDecl)
    requires c.interceptedBy.Some? ==> ValidList(c.interceptedBy.value)
    requires forall j :: 0 <= j < |c.methods| ==> ValidMethodList(c.methods[j])
    requires i in ListOf(c.interceptedBy) || i in MethodInterceptors(c.methods)
    ensures ValidInterceptor(i)
  {
    if i in ListOf(c.interceptedBy) {
      var l := c.interceptedBy.value;
      var x :| 0 <= x < |l| && l[x] == i;
    } else {
      var j :| 0 <= j < |c.methods| && i in ListOf(c.methods[j].interceptedBy);
      assert ValidMethodList(c.methods[j]);
      var l := c.methods[j].interceptedBy.value;
      var x :| 0 <= x < |l| && l[x] == i;
    }
  }

  /** Every interceptor listed anywhere in an accepted registry is a valid interceptor. */
  lemma {:induction false} ListedInterceptorsValid(cs: seq<ControllerDecl>, i: InterceptorDecl)
    requires ValidRegistry(cs) && i in AllInterceptors(cs)
    ensures ValidInterceptor(i)
  {
    var k :| 0 <= k < |cs| && (i in ListOf(cs[k].interceptedBy) || i in MethodInterceptors(cs[k].methods));
    assert ValidController(cs[k]);
    ListedByControllerValid(cs[k], i);
  }

  /**
    The hook lookups for an interceptor name that interceptor's hooks,
    and at least one of them is present.
  */
  lemma {:induction false} InterceptorHookLookups(cs: seq<ControllerDecl>, i: InterceptorDecl)
    requires ValidRegistry(cs) && CoherentInterceptors(cs) && i in AllInterceptors(cs)
    ensures BeforeForInterceptor(Registry(cs), i.className) == BeforeHookOf(i)
    ensures AfterForInterceptor(Registry(cs), i.className) == AfterHookOf(i)
    ensures BeforeForInterceptor(Registry(cs), i.className).Some?
            || AfterForInterceptor(Registry(cs), i.className).Some?
  {
    var found := FindInterceptor(Registry(cs), i.className);
    assert found == Some(i);
    ListedInterceptorsValid(cs, i);
    var h :| 0 <= h < |i.methods| && IsHook(i.methods[h]);
    HooksOfValidInterceptor(i, h);
  }
}

=== FILE: registry_rejections.dfy ===
/**
  The declarations the registry build refuses.  Each lemma names one
  defect, anywhere in the scanned controllers, and concludes that the
  whole build fails; for a defect in the first controller checked the
  exact error is stated too.
*/
module RegistryRejections {
  import opened Wrappers
  import opened Declarations
  import opened InterceptorDescriptor
  import opened ControllerDescriptor
  import opened ControllerDatabase
  import Seqs

  /** The first controller checked reports its own first error, and that error aborts the build. */
  lemma {:induction false} FirstControllerErrorReported(cs: seq<ControllerDecl>, e: ConfigError)
    requires |cs| > 0 && CheckController(cs[0]) == Some(e)
    ensures Build(cs) == Failure(e)
  {
    var first := Seqs.FirstIndex(cs, (c: ControllerDecl) => CheckController(c).Some?);
    assert first == Some(0);
  }

  /** A controller with no lifecycle marker is rejected. */
  lemma {:induction false} RejectsMissingMarker(cs: seq<ControllerDecl>)
    requires |cs| > 0 && MarkerCount(cs[0]) == 0
    ensures Build(cs) == Failure(NoLifecycleMarker(cs[0].className))
  {
    FirstControllerErrorReported(cs, NoLifecycleMarker(cs[0].className));
  }

  /** A controller with two or three lifecycle markers is rejected. */
  lemma {:induction false} RejectsConflictingMarkers(cs: seq<ControllerDecl>)
    requires |cs| > 0 && MarkerCount(cs[0]) > 1
    ensures Build(cs) == Failure(ConflictingLifecycleMarkers(cs[0].className))
  {
    FirstControllerErrorReported(cs, ConflictingLifecycleMarkers(cs[0].className));
  }

  /** A marked controller none of whose methods carries a framework annotation is rejected. */
  lemma {:induction false} RejectsUnannotated(cs: seq<ControllerDecl>)
    requires |cs| > 0 && MarkerCount(cs[0]) == 1
    requires forall j :: 0 <= j < |cs[0].methods| ==> !IsAnnotated(cs[0].methods[j])
    ensures Build(cs) == Failure(NoAnnotatedMethods(cs[0].className))
  {
    Seqs.CountZero(cs[0].methods, IsAnnotated);
    FirstControllerErrorReported(cs, NoAnnotatedMethods(cs[0].className));
  }

  /** One defective controller anywhere makes the whole build fail. */
  lemma {:induction false} InvalidControllerRejected(cs: seq<ControllerDecl>, k: nat)
    requires k < |cs| && !ValidController(cs[k])
    ensures Build(cs).Failure?
  {
    assert !ValidRegistry(cs);
  }

  /**
    An action whose result is not a `View` is rejected. The tests pin this for
    named and default actions; verb-bound methods are held to the same rule.
  */
  lemma {:induction false} RejectsNonViewAction(cs: seq<ControllerDecl>, k: nat, j: nat)
    requires k < |cs| && j < |cs[k].methods|
    requires IsActionMethod(cs[k].methods[j]) && cs[k].methods[j].result != ViewType
    ensures Build(cs).Failure?
  {
    assert BadResult(cs[k].methods[j]);
    InvalidControllerRejected(cs, k);
  }

  /** Two methods of one controller bound to the same HTTP verb are rejected. */
  lemma {:induction false} RejectsSharedVerb(cs: seq<ControllerDecl>, k: nat, j1: nat, j2: nat, v: HttpMethod)
    requires k < |cs| && j1 < j2 < |cs[k].methods|
    requires v in cs[k].methods[j1].httpMethods && v in cs[k].methods[j2].httpMethods
    ensures Build(cs).Failure?
  {
    assert !VerbsUnique(cs[k].methods);
    InvalidControllerRejected(cs, k);
  }

  /** A list naming the same interceptor class twice is not a valid list. */
  lemma {:induction false} RepeatedInterceptorInvalid(l: seq<InterceptorDecl>, a: nat, b: nat)
    requires a < b < |l| && l[a].className == l[b].className
    ensures !ValidList(l)
  {
    var names := ClassNames(l);
    assert names[a] == names[b];
  }

  /** A class-level `@InterceptedBy` list with the same interceptor twice is rejected. */
  lemma {:induction false} RejectsRepeatedClassInterceptor(cs: seq<ControllerDecl>, k: nat, a: nat, b: nat)
    requires k < |cs| && cs[k].interceptedBy.Some?
    requires a < b < |cs[k].interceptedBy.value|
    requires cs[k].interceptedBy.value[a].className == cs[k].interceptedBy.value[b].className
    ensures Build(cs).Failure?
  {
    RepeatedInterceptorInvalid(cs[k].interceptedBy.value, a, b);
    InvalidControllerRejected(cs, k);
  }

  /** A method-level `@InterceptedBy` list with the same interceptor twice is rejected. */
  lemma {:induction false} RejectsRepeatedMethodInterceptor(cs: seq<ControllerDecl>, k: nat, j: nat, a: nat, b: nat)
    requires k < |cs| && j < |cs[k].methods| && cs[k].methods[j].interceptedBy.Some?
    requires a < b < |cs[k].methods[j].interceptedBy.value|
    requires cs[k].methods[j].interceptedBy.value[a].className == cs[k].methods[j].interceptedBy.value[b].className
    ensures Build(cs).Failure?
  {
    RepeatedInterceptorInvalid(cs[k].methods[j].interceptedBy.value, a, b);
    assert !ValidMethodList(cs[k].methods[j]);
    InvalidControllerRejected(cs, k);
  }

  /** An interceptor without any before or after hook is refused with that error. */
  lemma {:induction false} InterceptorWithoutHooksRejected(i: InterceptorDecl)
    requires forall k :: 0 <= k < |i.methods| ==> !IsHook(i.methods[k])
    ensures CheckInterceptor(i) == Some(InterceptorWithoutHooks(i.className))
  {
    Seqs.CountZero(i.methods, IsHook);
  }

  /** A hook taking anything but the request context is refused as a parameter error. */
  lemma {:induction false} InterceptorBadHookRejected(i: InterceptorDecl, k: nat)
    requires k < |i.methods| && IsHook(i.methods[k]) && !ContextOnly(i.methods[k].params)
    ensures CheckInterceptor(i).Some? && CheckInterceptor(i).value.InvalidHookParameters?
  {
    Seqs.CountZero(i.methods, IsHook);
    assert BadHook(i.methods[k]);
  }

  /** Two before hooks, or two after hooks, make an interceptor invalid. */
  lemma {:induction false} InterceptorDuplicateHookRejected(i: InterceptorDecl, a: nat, b: nat)
    requires a < b < |i.methods|
    requires (IsBefore(i.methods[a]) && IsBefore(i.methods[b])) || (IsAfter(i.methods[a]) && IsAfter(i.methods[b]))
    ensures CheckInterceptor(i).Some?
  {
    assert !ValidInterceptor(i);
  }

  /** A controller whose class-level list names an invalid interceptor is rejected. */
  lemma {:induction false} RejectsInvalidClassInterceptor(cs: seq<ControllerDecl>, k: nat, n: nat)
    requires k < |cs| && cs[k].interceptedBy.Some? && n < |cs[k].interceptedBy.value|
    requires CheckInterceptor(cs[k].interceptedBy.value[n]).Some?
    ensures Build(cs).Failure?
  {
    assert !ValidList(cs[k].interceptedBy.value);
    InvalidControllerRejected(cs, k);
  }

  /** A controller one of whose method-level lists names an invalid interceptor is rejected. */
  lemma {:induction false} RejectsInvalidMethodInterceptor(cs: seq<ControllerDecl>, k: nat, j: nat, n: nat)
    requires k < |cs| && j < |cs[k].methods| && cs[k].methods[j].interceptedBy.Some?
    requires n < |cs[k].methods[j].interceptedBy.value|
    requires CheckInterceptor(cs[k].methods[j].interceptedBy.value[n]).Some?
    ensures Build(cs).Failure?
  {
    assert !ValidList(cs[k].methods[j].interceptedBy.value);
    assert !ValidMethodList(cs[k].methods[j]);
    InvalidControllerRejected(cs, k);
  }
}

=== FILE: route_helper.dfy ===
/**
  `RouteHelper.getPathElements`: a path is trimmed, its first character is
  dropped (whatever it is), and the remainder is split on `/` with Java's
  `split` semantics.  A null or blank path is an argument error.
*/
module RouteHelper {
  import opened Wrappers
  import opened JavaStrings

  const PathElementSeparator: char := '/'

  /** The two `IllegalArgumentException`s `getPathElements` throws. */
  datatype ArgumentError = PathIsNull | PathIsEmpty

  function GetPathElements(path: Option<string>): (r: Result<seq<string>, ArgumentError>)
    ensures path.None? <==> r == Failure(PathIsNull)
    ensures path.Some? && IsBlank(path.value) <==> r == Failure(PathIsEmpty)
    ensures r.Success? ==> NoneContain(r.value, PathElementSeparator)
  {
    match path
    case None => Failure(PathIsNull)
    case Some(p) =>
      var t := Trim(p);
      if |t| == 0 then Failure(PathIsEmpty)
      else Success(JavaSplit(t[1..], PathElementSeparator))
  }

  /** Whitespace around the path does not change its elements. */
  lemma {:induction false} GetPathElementsIgnoresPadding(w1: string, p: string, w2: string)
    requires AllSpace(w1) && AllSpace(w2)
    ensures GetPathElements(Some(w1 + p + w2)) == GetPathElements(Some(p))
  {
    TrimPadded(w1, p, w2);
  }

  lemma {:induction false} TrimEndCons(a: char, s: string)
    requires !IsSpace(a)
    ensures TrimEnd([a] + s) == [a] + TrimEnd(s)
    decreases |s|
  {
    if |s| > 0 && IsSpace(s[|s| - 1]) {
      assert ([a] + s)[..|[a] + s| - 1] == [a] + s[..|s| - 1];
      TrimEndCons(a, s[..|s| - 1]);
    }
  }

  /**
    The first character is dropped without being looked at: two paths that
    differ only in a (non-blank) first character have the same elements, so
    `"xa/b"` is read exactly like `"/a/b"`.
  */
  lemma {:induction false} GetPathElementsDropsFirstChar(a: char, b: char, s: string)
    requires !IsSpace(a) && !IsSpace(b)
    ensures GetPathElements(Some([a] + s)) == GetPathElements(Some([b] + s))
  {
    TrimEndCons(a, s);
    TrimEndCons(b, s);
    assert Trim([a] + s) == [a] + TrimEnd(s);
    assert Trim([b] + s) == [b] + TrimEnd(s);
    assert ([a] + TrimEnd(s))[1..] == TrimEnd(s) == ([b] + TrimEnd(s))[1..];
  }

  /**
    Round trip: a trimmed path of at least two characters that starts with
    `/` and does not end with `/` is rebuilt from its elements by joining
    them with `/` and putting the leading `/` back.
  */
  lemma {:induction false} GetPathElementsRoundTrip(path: string)
    requires var t := Trim(path); |t| >= 2 && t[0] == '/' && t[|t| - 1] != '/'
    ensures GetPathElements(Some(path)).Success?
    ensures "/" + Join(GetPathElements(Some(path)).value, '/') == Trim(path)
  {
    var t := Trim(path);
    var rest := t[1..];
    assert rest[|rest| - 1] == t[|t| - 1];
    JavaSplitKeepsAll(rest, '/');
    JoinSplitAll(rest, '/');
    assert t == "/" + rest;
  }
}

=== FILE: route_map.dfy ===
/**
  Route resolution (`RouteMap.add` / `RouteMap.getRoute`): routes are kept
  in registration order; a path resolves to the first matching literal
  route if there is one, otherwise to the first matching parameterized
  route, otherwise to nothing.  No match is a normal outcome, not an error.
*/
module RegexRouteMap {
  import opened Wrappers
  import opened JavaStrings
  import opened ParamPath
  import opened RegexRoute
  import Seqs

  datatype RouteMap = RouteMap(routes: seq<Route>)

  /** A route resolved for a path, with its parameter bindings. */
  datatype Resolution = Resolution(route: Route, bindings: map<string, string>)

  function Empty(): (m: RouteMap)
    ensures |m.routes| == 0
  {
    RouteMap([])
  }

  /** Registers `r` after every route already registered. */
  function Add(m: RouteMap, r: Route): (m': RouteMap)
    ensures |m'.routes| == |m.routes| + 1 && m'.routes[|m.routes|] == r
    ensures forall i :: 0 <= i < |m.routes| ==> m'.routes[i] == m.routes[i]
  {
    RouteMap(m.routes + [r])
  }

  /** Whether a route's compiled pattern matches the path: the hit test of the search. */
  function Hit(path: string, custom: CustomMatcher): Route -> bool {
    (r: Route) => Matches(r, path, custom)
  }

  /**
    The declarative meaning of resolution: position `k` holds a matching
    route, no earlier literal route matches, and if the route at `k` is
    parameterized then no literal route matches at all and no earlier
    route matches.
  */
  predicate Wins(m: RouteMap, path: string, custom: CustomMatcher, k: nat) {
    Seqs.PreferredWinner(m.routes, IsLiteralRoute, Hit(path, custom), k)
  }

  /** The two-pass search: literal routes in registration order, then parameterized routes in registration order. */
  function ResolveIndex(m: RouteMap, path: string, custom: CustomMatcher): (k: Option<nat>)
    ensures k.Some? ==> k.value < |m.routes| && Matches(m.routes[k.value], path, custom)
    ensures k.None? <==> forall j :: 0 <= j < |m.routes| ==> !Matches(m.routes[j], path, custom)
    ensures k.Some? ==>
              forall j :: 0 <= j < k.value ==> !(IsLiteralRoute(m.routes[j]) && Matches(m.routes[j], path, custom))
    ensures k.Some? && !IsLiteralRoute(m.routes[k.value]) ==>
              (forall j :: 0 <= j < |m.routes| ==> !(IsLiteralRoute(m.routes[j]) && Matches(m.routes[j], path, custom)))
              && (forall j :: 0 <= j < k.value ==> !Matches(m.routes[j], path, custom))
  {
    Seqs.FirstPreferred(m.routes, IsLiteralRoute, Hit(path, custom))
  }

  /** `getRoute`: the winning route, or nothing. */
  function GetRoute(m: RouteMap, path: string, custom: CustomMatcher): (r: Option<Route>)
    ensures r.Some? ==> r.value in m.routes && Matches(r.value, path, custom)
    ensures r.None? <==> forall j :: 0 <= j < |m.routes| ==> !Matches(m.routes[j], path, custom)
  {
    var k := ResolveIndex(m, path, custom);
    if k.Some? then Some(m.routes[k.value]) else None
  }

  /** The winning route together with the values its parameters captured. */
  function Resolve(m: RouteMap, path: string, custom: CustomMatcher): (res: Option<Resolution>)
    ensures res.None? <==> forall j :: 0 <= j < |m.routes| ==> !Matches(m.routes[j], path, custom)
    ensures res.Some? ==> Some(res.value.route) == GetRoute(m, path, custom)
    ensures res.Some? ==> Bindings(res.value.route, path, custom) == Some(res.value.bindings)
    ensures res.Some? ==> forall n :: n in res.value.bindings <==> n in ParamNamesOf(res.value.route)
  {
    match GetRoute(m, path, custom)
    case None => None
    case Some(r) =>
      var b := Bindings(r, path, custom).value;
      assert Parts(r) == [] ==> ParamNamesOf(r) == [];
      Some(Resolution(r, b))
  }

  /** The search finds exactly the winning position. */
  lemma {:induction false} ResolveIndexIsWinner(m: RouteMap, path: string, custom: CustomMatcher, k: nat)
    ensures ResolveIndex(m, path, custom) == Some(k) <==> Wins(m, path, custom, k)
  {
    Seqs.FirstPreferredIsWinner(m.routes, IsLiteralRoute, Hit(path, custom), k);
  }

  /** A literal route that matches is never shadowed by a parameterized one, wherever it was registered. */
  lemma {:induction false} LiteralBeatsParameterized(m: RouteMap, path: string, custom: CustomMatcher, i: nat)
    requires i < |m.routes| && IsLiteralRoute(m.routes[i]) && Matches(m.routes[i], path, custom)
    ensures GetRoute(m, path, custom).Some? && IsLiteralRoute(GetRoute(m, path, custom).value)
  {
    var k := ResolveIndex(m, path, custom);
    assert k.Some?;
  }

  /**
    Registering one more route: a literal winner stays; otherwise a new
    matching literal route takes over; otherwise an existing winner stays;
    otherwise the new route wins if it matches.
  */
  lemma {:induction false} AddResolution(m: RouteMap, r: Route, path: string, custom: CustomMatcher)
    ensures
      var before := ResolveIndex(m, path, custom);
      var n := |m.routes|;
      ResolveIndex(Add(m, r), path, custom) ==
        if before.Some? && IsLiteralRoute(m.routes[before.value]) then before
        else if IsLiteralRoute(r) && Matches(r, path, custom) then Some(n)
        else if before.Some? then before
        else if Matches(r, path, custom) then Some(n)
        else None
  {
    Seqs.FirstPreferredAppend(m.routes, r, IsLiteralRoute, Hit(path, custom));
  }

  /** A path written as `/` followed by `/`-free pieces matches a route exactly when the pieces match its parts. */
  lemma {:induction false} MatchesPieces(r: Route, pieces: seq<string>, custom: CustomMatcher)
    requires |pieces| >= 1 && NoneContain(pieces, '/')
    ensures Matches(r, "/" + Join(pieces, '/'), custom) <==> PartsMatch(Parts(r), pieces, custom)
  {
    var path := "/" + Join(pieces, '/');
    assert path[1..] == Join(pieces, '/');
    SplitAllJoin(pieces, '/');
  }

  /** Resolution in a map of two routes registered in order. */
  lemma {:induction false} ResolveOfPair(r1: Route, r2: Route, path: string, custom: CustomMatcher)
    ensures GetRoute(Add(Add(Empty(), r1), r2), path, custom) ==
      if IsLiteralRoute(r1) && Matches(r1, path, custom) then Some(r1)
      else if IsLiteralRoute(r2) && Matches(r2, path, custom) then Some(r2)
      else if Matches(r1, path, custom) then Some(r1)
      else if Matches(r2, path, custom) then Some(r2)
      else None
  {
    AddResolution(Empty(), r1, path, custom);
    AddResolution(Add(Empty(), r1), r2, path, custom);
  }

  /** `RouteMapContractTest.getRoute_Root`: the all-absent route is found for `/`. */
  lemma GetRouteOfRoot(custom: CustomMatcher)
    ensures GetRoute(Add(Empty(), Route(None, None, None)), "/", custom) == Some(Route(None, None, None))
  {
    var root := Route(None, None, None);
    assert Parts(root) == [];
    assert SplitAll("/"[1..], '/') == [""];
    AddResolution(Empty(), root, "/", custom);
  }

  lemma {:induction false} TwoLiterals(lit: string, x: string)
    requires WellFormed(Literal(lit)) && WellFormed(Literal(x)) && x != ""
    ensures Segments(lit + "/" + x) == [Literal(lit), Literal(x)]
  {
    var segs := [Literal(lit), Literal(x)];
    assert RenderAll(segs) == [lit, x];
    JoinPrepend(lit, [x], '/');
    SegmentsRoundTrip(segs);
  }

  lemma {:induction false} LiteralThenParam(lit: string, n: string)
    requires WellFormed(Literal(lit)) && WellFormed(Param(n))
    ensures Segments(lit + "/:" + n) == [Literal(lit), Param(n)]
  {
    var segs := [Literal(lit), Param(n)];
    assert RenderAll(segs) == [lit, ":" + n];
    JoinPrepend(lit, [":" + n], '/');
    assert lit + "/:" + n == lit + "/" + (":" + n);
    SegmentsRoundTrip(segs);
  }

  lemma {:induction false} OneParam(n: string)
    requires WellFormed(Param(n))
    ensures Segments(":" + n) == [Param(n)]
  {
    var segs := [Param(n)];
    assert RenderAll(segs) == [":" + n];
    SegmentsRoundTrip(segs);
  }

  lemma {:induction false} TwoParams(n1: string, n2: string)
    requires WellFormed(Param(n1)) && WellFormed(Param(n2))
    ensures Segments(":" + n1 + "/:" + n2) == [Param(n1), Param(n2)]
  {
    var segs := [Param(n1), Param(n2)];
    assert RenderAll(segs) == [":" + n1, ":" + n2];
    JoinPrepend(":" + n1, [":" + n2], '/');
    assert ":" + n1 + "/:" + n2 == ":" + n1 + "/" + (":" + n2);
    SegmentsRoundTrip(segs);
  }

  lemma {:induction false} OneCustomParam(n: string, re: string)
    requires WellFormed(CustomParam(n, re))
    ensures Segments(":" + n + "<" + re + ">") == [CustomParam(n, re)]
  {
    var segs := [CustomParam(n, re)];
    assert RenderAll(segs) == [":" + n + "<" + re + ">"];
    SegmentsRoundTrip(segs);
  }

  /** Pair resolution when the first route is literal and matches. */
  lemma {:induction false} FirstLiteralWins(r1: Route, r2: Route, path: string, custom: CustomMatcher)
    requires IsLiteralRoute(r1) && Matches(r1, path, custom)
    ensures GetRoute(Add(Add(Empty(), r1), r2), path, custom) == Some(r1)
  {
    ResolveOfPair(r1, r2, path, custom);
  }

  lemma {:induction false} LiteralPairFacts(lit: string, x: string, v: string, custom: CustomMatcher)
    requires WellFormed(Literal(lit)) && WellFormed(Literal(x)) && x != "" && '/' !in v
    ensures IsLiteralRoute(Route(None, None, Some(lit + "/" + x)))
    ensures Matches(Route(None, None, Some(lit + "/" + x)), "/" + Join([lit, v], '/'), custom) <==> v == x
  {
    var r1 := Route(None, None, Some(lit + "/" + x));
    TwoLiterals(lit, x);
    assert Parts(r1) == [Literal(lit), Literal(x)];
    MatchesPieces(r1, [lit, v], custom);
  }

  lemma {:induction false} LiteralThenParamFacts(lit: string, n: string, v: string, custom: CustomMatcher)
    requires WellFormed(Literal(lit)) && WellFormed(Param(n)) && '/' !in v
    ensures !IsLiteralRoute(Route(None, None, Some(lit + "/:" + n)))
    ensures Matches(Route(None, None, Some(lit + "/:" + n)), "/" + Join([lit, v], '/'), custom) <==> v != ""
    ensures v != "" ==> Bindings(Route(None, None, Some(lit + "/:" + n)), "/" + Join([lit, v], '/'), custom) == Some(map[n := v])
  {
    var r := Route(None, None, Some(lit + "/:" + n));
    LiteralThenParam(lit, n);
    assert Parts(r) == [Literal(lit), Param(n)];
    assert !Parts(r)[1].Literal?;
    MatchesPieces(r, [lit, v], custom);
    if v != "" {
      LiteralThenParamBinding(lit, n, v, custom);
    }
  }

  lemma {:induction false} LiteralThenParamBinding(lit: string, n: string, v: string, custom: CustomMatcher)
    requires WellFormed(Literal(lit)) && WellFormed(Param(n)) && '/' !in v && v != ""
    requires Parts(Route(None, None, Some(lit + "/:" + n))) == [Literal(lit), Param(n)]
    requires Matches(Route(None, None, Some(lit + "/:" + n)), "/" + Join([lit, v], '/'), custom)
    ensures Bindings(Route(None, None, Some(lit + "/:" + n)), "/" + Join([lit, v], '/'), custom) == Some(map[n := v])
  {
    var r := Route(None, None, Some(lit + "/:" + n));
    var path := "/" + Join([lit, v], '/');
    SplitAllJoin([lit, v], '/');
    assert path[1..] == Join([lit, v], '/');
    assert ParamValues(Parts(r), [lit, v]) == [v];
    assert ParamNamesOf(r) == [n];
    assert Bind([n], [v]) == map[n := v];
  }

  /** A controller-only or action-only route matches exactly the one-segment path naming it. */
  lemma {:induction false} NameOnlyFacts(c: Option<string>, a: Option<string>, pieces: seq<string>, custom: CustomMatcher)
    requires (c.Some? && a.None? && '/' !in c.value) || (c.None? && a.Some? && '/' !in a.value)
    requires |pieces| >= 1 && NoneContain(pieces, '/')
    ensures IsLiteralRoute(Route(c, a, None))
    ensures Matches(Route(c, a, None), "/" + Join(pieces, '/'), custom) <==> pieces == [if c.Some? then c.value else a.value]
  {
    var r := Route(c, a, None);
    var t := if c.Some? then c.value else a.value;
    assert Parts(r) == [Literal(t)];
    MatchesPieces(r, pieces, custom);
  }

  /** A controller with a `lit/:n` param path matches exactly the paths `/c/lit/v` with `v` non-empty. */
  lemma {:induction false} ControllerParamFacts(c: string, lit: string, n: string, pieces: seq<string>, custom: CustomMatcher)
    requires '/' !in c && WellFormed(Literal(lit)) && WellFormed(Param(n))
    requires |pieces| >= 1 && NoneContain(pieces, '/')
    ensures !IsLiteralRoute(Route(Some(c), None, Some(lit + "/:" + n)))
    ensures Matches(Route(Some(c), None, Some(lit + "/:" + n)), "/" + Join(pieces, '/'), custom)
            <==> |pieces| == 3 && pieces[0] == c && pieces[1] == lit && pieces[2] != ""
  {
    var r := Route(Some(c), None, Some(lit + "/:" + n));
    LiteralThenParam(lit, n);
    assert Parts(r) == [Literal(c), Literal(lit), Param(n)];
    assert !Parts(r)[2].Literal?;
    MatchesPieces(r, pieces, custom);
  }

  /** Controller and action followed by `:n1`: the paths `/c/a/v` with `v` non-empty. */
  lemma {:induction false} NamesOneParamFacts(c: string, a: string, n1: string, pieces: seq<string>, custom: CustomMatcher)
    requires '/' !in c && '/' !in a && WellFormed(Param(n1))
    requires |pieces| >= 1 && NoneContain(pieces, '/')
    ensures !IsLiteralRoute(Route(Some(c), Some(a), Some(":" + n1)))
    ensures Matches(Route(Some(c), Some(a), Some(":" + n1)), "/" + Join(pieces, '/'), custom)
            <==> |pieces| == 3 && pieces[0] == c && pieces[1] == a && pieces[2] != ""
  {
    var r := Route(Some(c), Some(a), Some(":" + n1));
    OneParam(n1);
    assert Parts(r) == [Literal(c), Literal(a), Param(n1)];
    assert !Parts(r)[2].Literal?;
    MatchesPieces(r, pieces, custom);
  }

  /** Controller and action followed by `:n1/:n2`: the paths `/c/a/v1/v2` with both values non-empty. */
  lemma {:induction false} NamesTwoParamsFacts(c: string, a: string, n1: string, n2: string, pieces: seq<string>, custom: CustomMatcher)
    requires '/' !in c && '/' !in a && WellFormed(Param(n1)) && WellFormed(Param(n2))
    requires |pieces| >= 1 && NoneContain(pieces, '/')
    ensures !IsLiteralRoute(Route(Some(c), Some(a), Some(":" + n1 + "/:" + n2)))
    ensures Matches(Route(Some(c), Some(a), Some(":" + n1 + "/:" + n2)), "/" + Join(pieces, '/'), custom)
            <==> |pieces| == 4 && pieces[0] == c && pieces[1] == a && pieces[2] != "" && pieces[3] != ""
  {
    var r := Route(Some(c), Some(a), Some(":" + n1 + "/:" + n2));
    TwoParams(n1, n2);
    assert Parts(r) == [Literal(c), Literal(a), Param(n1), Param(n2)];
    assert !Parts(r)[2].Literal?;
    MatchesPieces(r, pieces, custom);
  }

  /** Controller and action followed by `:n<re>`: the paths `/c/a/v` whose last segment `re` accepts. */
  lemma {:induction false} NamesCustomParamFacts(c: string, a: string, n: string, re: string, pieces: seq<string>, custom: CustomMatcher)
    requires '/' !in c && '/' !in a && WellFormed(CustomParam(n, re))
    requires |pieces| >= 1 && NoneContain(pieces, '/')
    ensures !IsLiteralRoute(Route(Some(c), Some(a), Some(":" + n + "<" + re + ">")))
    ensures Matches(Route(Some(c), Some(a), Some(":" + n + "<" + re + ">")), "/" + Join(pieces, '/'), custom)
            <==> |pieces| == 3 && pieces[0] == c && pieces[1] == a && custom(re, pieces[2])
  {
    var r := Route(Some(c), Some(a), Some(":" + n + "<" + re + ">"));
    OneCustomParam(n, re);
    assert Parts(r) == [Literal(c), Literal(a), CustomParam(n, re)];
    assert !Parts(r)[2].Literal?;
    MatchesPieces(r, pieces, custom);
  }

  /**
    `getRoute_SimilarMatchesConstant`: with literal `lit/x` and
    parameterized `lit/:n` both registered, the path `/lit/x` resolves to
    the literal route.
  */
  lemma {:induction false} SimilarMatchesConstant(lit: string, x: string, n: string, custom: CustomMatcher)
    requires WellFormed(Literal(lit)) && WellFormed(Literal(x)) && x != "" && WellFormed(Param(n))
    ensures
      var r1 := Route(None, None, Some(lit + "/" + x));
      var r2 := Route(None, None, Some(lit + "/:" + n));
      GetRoute(Add(Add(Empty(), r1), r2), "/" + Join([lit, x], '/'), custom) == Some(r1)
  {
    LiteralPairFacts(lit, x, x, custom);
    FirstLiteralWins(Route(None, None, Some(lit + "/" + x)), Route(None, None, Some(lit + "/:" + n)), "/" + Join([lit, x], '/'), custom);
  }

  /**
    `getRoute_SimilarMatchesParam`: a path that only the parameterized
    route matches resolves to it, binding its parameter to the segment.
  */
  lemma {:induction false} SimilarMatchesParam(lit: string, x: string, n: string, v: string, custom: CustomMatcher)
    requires WellFormed(Literal(lit)) && WellFormed(Literal(x)) && x != "" && WellFormed(Param(n))
    requires v != "" && v != x && '/' !in v
    ensures
      var r1 := Route(None, None, Some(lit + "/" + x));
      var r2 := Route(None, None, Some(lit + "/:" + n));
      Resolve(Add(Add(Empty(), r1), r2), "/" + Join([lit, v], '/'), custom) == Some(Resolution(r2, map[n := v]))
  {
    var r1 := Route(None, None, Some(lit + "/" + x));
    var r2 := Route(None, None, Some(lit + "/:" + n));
    var path := "/" + Join([lit, v], '/');
    LiteralPairFacts(lit, x, v, custom);
    LiteralThenParamFacts(lit, n, v, custom);
    ResolveOfPair(r1, r2, path, custom);
  }

  /** `getRoute_IgnoresParamRegion`: `/c` resolves to the controller-only route, not to its param-path sibling. */
  lemma {:induction false} IgnoresParamRegion(c: string, lit: string, n: string, custom: CustomMatcher)
    requires '/' !in c && WellFormed(Literal(lit)) && WellFormed(Param(n))
    ensures
      var r1 := Route(Some(c), None, None);
      var r2 := Route(Some(c), None, Some(lit + "/:" + n));
      GetRoute(Add(Add(Empty(), r1), r2), "/" + Join([c], '/'), custom) == Some(r1)
  {
    NameOnlyFacts(Some(c), None, [c], custom);
    FirstLiteralWins(Route(Some(c), None, None), Route(Some(c), None, Some(lit + "/:" + n)), "/" + Join([c], '/'), custom);
  }

  /** `getRoute_FindsParamRegion`: `/c/lit/v` resolves to the route with the param path. */
  lemma {:induction false} FindsParamRegion(c: string, lit: string, n: string, v: string, custom: CustomMatcher)
    requires '/' !in c && WellFormed(Literal(lit)) && WellFormed(Param(n))
    requires v != "" && '/' !in v
    ensures
      var r1 := Route(Some(c), None, None);
      var r2 := Route(Some(c), None, Some(lit + "/:" + n));
      GetRoute(Add(Add(Empty(), r1), r2), "/" + Join([c, lit, v], '/'), custom) == Some(r2)
  {
    var r1 := Route(Some(c), None, None);
    var r2 := Route(Some(c), None, Some(lit + "/:" + n));
    NameOnlyFacts(Some(c), None, [c, lit, v], custom);
    ControllerParamFacts(c, lit, n, [c, lit, v], custom);
    ResolveOfPair(r1, r2, "/" + Join([c, lit, v], '/'), custom);
  }

  /** `getRoute_DistinguishesBetweenControllerAndAction`: `/a` resolves to the action-only route. */
  lemma {:induction false} DistinguishesControllerAndAction(c: string, a: string, custom: CustomMatcher)
    requires '/' !in c && '/' !in a && c != a
    ensures
      var r1 := Route(Some(c), None, None);
      var r2 := Route(None, Some(a), None);
      GetRoute(Add(Add(Empty(), r1), r2), "/" + Join([a], '/'), custom) == Some(r2)
  {
    NameOnlyFacts(Some(c), None, [a], custom);
    NameOnlyFacts(None, Some(a), [a], custom);
    ResolveOfPair(Route(Some(c), None, None), Route(None, Some(a), None), "/" + Join([a], '/'), custom);
  }

  /** `getRoute_NotFound`: a segment naming neither route resolves to nothing. */
  lemma {:induction false} NotFound(c: string, a: string, t: string, custom: CustomMatcher)
    requires '/' !in c && '/' !in a && '/' !in t && t != c && t != a
    ensures
      var r1 := Route(Some(c), None, None);
      var r2 := Route(None, Some(a), None);
      GetRoute(Add(Add(Empty(), r1), r2), "/" + Join([t], '/'), custom) == None
  {
    NameOnlyFacts(Some(c), None, [t], custom);
    NameOnlyFacts(None, Some(a), [t], custom);
    ResolveOfPair(Route(Some(c), None, None), Route(None, Some(a), None), "/" + Join([t], '/'), custom);
  }

  /** `getRoute_MultiParamRegions_Multiple` and `_Single`: the number of segments selects `:n1` or `:n1/:n2`. */
  lemma {:induction false} MultiParamRegions(c: string, a: string, n1: string, n2: string, v1: string, v2: string, custom: CustomMatcher)
    requires '/' !in c && '/' !in a && WellFormed(Param(n1)) && WellFormed(Param(n2))
    requires v1 != "" && v2 != "" && '/' !in v1 && '/' !in v2
    ensures
      var r1 := Route(Some(c), Some(a), Some(":" + n1));
      var r2 := Route(Some(c), Some(a), Some(":" + n1 + "/:" + n2));
      && GetRoute(Add(Add(Empty(), r1), r2), "/" + Join([c, a, v1, v2], '/'), custom) == Some(r2)
      && GetRoute(Add(Add(Empty(), r1), r2), "/" + Join([c, a, v1], '/'), custom) == Some(r1)
  {
    var r1 := Route(Some(c), Some(a), Some(":" + n1));
    var r2 := Route(Some(c), Some(a), Some(":" + n1 + "/:" + n2));
    NamesOneParamFacts(c, a, n1, [c, a, v1, v2], custom);
    NamesTwoParamsFacts(c, a, n1, n2, [c, a, v1, v2], custom);
    ResolveOfPair(r1, r2, "/" + Join([c, a, v1, v2], '/'), custom);
    NamesOneParamFacts(c, a, n1, [c, a, v1], custom);
    NamesTwoParamsFacts(c, a, n1, n2, [c, a, v1], custom);
    ResolveOfPair(r1, r2, "/" + Join([c, a, v1], '/'), custom);
  }

  /**
    `getRoute_CustomRegexAlpha` and `_Numeric`: between `:n<re1>` and
    `:n<re2>`, the first whose pattern accepts the segment wins.
  */
  lemma {:induction false} CustomRegexSelects(c: string, a: string, n: string, re1: string, re2: string, v: string, custom: CustomMatcher)
    requires '/' !in c && '/' !in a && WellFormed(CustomParam(n, re1)) && WellFormed(CustomParam(n, re2)) && '/' !in v
    ensures
      var r1 := Route(Some(c), Some(a), Some(":" + n + "<" + re1 + ">"));
      var r2 := Route(Some(c), Some(a), Some(":" + n + "<" + re2 + ">"));
      GetRoute(Add(Add(Empty(), r1), r2), "/" + Join([c, a, v], '/'), custom)
        == if custom(re1, v) then Some(r1) else if custom(re2, v) then Some(r2) else None
  {
    var r1 := Route(Some(c), Some(a), Some(":" + n + "<" + re1 + ">"));
    var r2 := Route(Some(c), Some(a), Some(":" + n + "<" + re2 + ">"));
    NamesCustomParamFacts(c, a, n, re1, [c, a, v], custom);
    NamesCustomParamFacts(c, a, n, re2, [c, a, v], custom);
    ResolveOfPair(r1, r2, "/" + Join([c, a, v], '/'), custom);
  }
}

=== FILE: seqs.dfy ===
/** Counting, searching and duplicate detection over sequences, each tied to its quantified meaning. */
module Seqs {
  import opened Wrappers

  /** How many elements satisfy `p`. */
  function Count<T>(s: seq<T>, p: T -> bool): (n: nat)
    ensures n <= |s|
    decreases |s|
  {
    if |s| == 0 then 0 else (if p(s[0]) then 1 else 0) + Count(s[1..], p)
  }

  lemma {:induction false} CountZero<T>(s: seq<T>, p: T -> bool)
    ensures Count(s, p) == 0 <==> forall i :: 0 <= i < |s| ==> !p(s[i])
    decreases |s|
  {
    if |s| > 0 {
      CountZero(s[1..], p);
      if forall i :: 0 <= i < |s[1..]| ==> !p(s[1..][i]) {
        assert forall i :: 1 <= i < |s| ==> !p(s[i]) by {
          forall i | 1 <= i < |s| ensures !p(s[i]) {
            assert s[i] == s[1..][i - 1];
          }
        }
      }
    }
  }

  /** At most one element satisfies `p` exactly when no two distinct positions both do. */
  lemma {:induction false} CountAtMostOne<T>(s: seq<T>, p: T -> bool)
    ensures Count(s, p) <= 1 <==> forall i, j :: 0 <= i < j < |s| ==> !(p(s[i]) && p(s[j]))
    decreases |s|
  {
    if |s| > 0 {
      var t := s[1..];
      CountAtMostOne(t, p);
      CountZero(t, p);
      if Count(s, p) <= 1 {
        forall i, j | 0 <= i < j < |s| ensures !(p(s[i]) && p(s[j])) {
          if i == 0 {
            assert s[j] == t[j - 1];
          } else {
            assert s[i] == t[i - 1] && s[j] == t[j - 1];
          }
        }
      } else {
        if p(s[0]) {
          var k :| 0 <= k < |t| && p(t[k]);
          assert p(s[0]) && p(s[k + 1]);
        } else {
          var i, j :| 0 <= i < j < |t| && p(t[i]) && p(t[j]);
          assert p(s[i + 1]) && p(s[j + 1]);
        }
      }
    }
  }

  /** The first index whose element satisfies `p`. */
  function FirstIndex<T>(s: seq<T>, p: T -> bool): (r: Option<nat>)
    ensures r.Some? ==> r.value < |s| && p(s[r.value])
    ensures r.Some? ==> forall j :: 0 <= j < r.value ==> !p(s[j])
    ensures r.None? <==> forall j :: 0 <= j < |s| ==> !p(s[j])
    decreases |s|
  {
    if |s| == 0 then None
    else if p(s[0]) then Some(0)
    else
      match FirstIndex(s[1..], p)
      case None => None
      case Some(i) => Some(i + 1)
  }

  /** Pairwise distinct elements: the reference meaning of "no duplicates". */
  predicate Distinct<T(==)>(s: seq<T>) {
    forall i, j :: 0 <= i < j < |s| ==> s[i] != s[j]
  }

  /** The duplicate check as a scan: the first element that reappears later, if any. */
  function FirstDuplicate<T(==)>(s: seq<T>): (r: Option<T>)
    ensures r.Some? ==> r.value in s
    decreases |s|
  {
    if |s| == 0 then None
    else if s[0] in s[1..] then Some(s[0])
    else FirstDuplicate(s[1..])
  }

  lemma {:induction false} FirstDuplicateIsDistinct<T>(s: seq<T>)
    ensures FirstDuplicate(s).None? <==> Distinct(s)
    decreases |s|
  {
    if |s| > 0 {
      var t := s[1..];
      FirstDuplicateIsDistinct(t);
      if FirstDuplicate(s).None? {
        forall i, j | 0 <= i < j < |s| ensures s[i] != s[j] {
          if i == 0 {
            assert s[j] == t[j - 1];
          } else {
            assert s[i] == t[i - 1] && s[j] == t[j - 1];
          }
        }
      } else if s[0] in t {
        var k :| 0 <= k < |t| && t[k] == s[0];
        assert s[k + 1] == s[0];
      } else {
        var i, j :| 0 <= i < j < |t| && t[i] == t[j];
        assert s[i + 1] == s[j + 1];
      }
    }
  }

  /** Applies `f` to every element. */
  function Map<T, U>(s: seq<T>, f: T -> U): (r: seq<U>)
    ensures |r| == |s|
    ensures forall i :: 0 <= i < |s| ==> r[i] == f(s[i])
    decreases |s|
  {
    if |s| == 0 then [] else [f(s[0])] + Map(s[1..], f)
  }

  /**
    Two-pass search: the first hit among the preferred elements, and only
    when there is none, the first hit among the others.
  */
  function FirstPreferred<T>(s: seq<T>, preferred: T -> bool, hit: T -> bool): (r: Option<nat>)
    ensures r.Some? ==> PreferredWinner(s, preferred, hit, r.value)
    ensures r.None? <==> forall j :: 0 <= j < |s| ==> !hit(s[j])
  {
    var first := FirstIndex(s, (x: T) => preferred(x) && hit(x));
    if first.Some? then first
    else FirstIndex(s, (x: T) => !preferred(x) && hit(x))
  }

  /**
    The declarative meaning of the two-pass search: `k` is a hit, no
    earlier preferred element is a hit, and if `k` is not preferred then no
    preferred element anywhere is a hit and no earlier element is a hit.
  */
  predicate PreferredWinner<T>(s: seq<T>, preferred: T -> bool, hit: T -> bool, k: nat) {
    k < |s| && hit(s[k])
    && (forall j :: 0 <= j < k ==> !(preferred(s[j]) && hit(s[j])))
    && (!preferred(s[k]) ==>
          (forall j :: 0 <= j < |s| ==> !(preferred(s[j]) && hit(s[j])))
          && (forall j :: 0 <= j < k ==> !hit(s[j])))
  }

  lemma {:induction false} PreferredWinnerUnique<T>(s: seq<T>, preferred: T -> bool, hit: T -> bool, k: nat, k': nat)
    requires PreferredWinner(s, preferred, hit, k) && PreferredWinner(s, preferred, hit, k')
    ensures k == k'
  {
  }

  /** The search returns exactly the winner. */
  lemma {:induction false} FirstPreferredIsWinner<T>(s: seq<T>, preferred: T -> bool, hit: T -> bool, k: nat)
    ensures FirstPreferred(s, preferred, hit) == Some(k) <==> PreferredWinner(s, preferred, hit, k)
  {
    var r := FirstPreferred(s, preferred, hit);
    if r.Some? && PreferredWinner(s, preferred, hit, k) {
      PreferredWinnerUnique(s, preferred, hit, k, r.value);
    }
  }

  /**
    Appending one element: a preferred winner stays; otherwise a preferred
    new hit takes over; otherwise an existing winner stays; otherwise the
    new element wins if it is a hit.
  */
  lemma {:induction false} FirstPreferredAppend<T>(s: seq<T>, x: T, preferred: T -> bool, hit: T -> bool)
    ensures
      var before := FirstPreferred(s, preferred, hit);
      FirstPreferred(s + [x], preferred, hit) ==
        if before.Some? && preferred(s[before.value]) then before
        else if preferred(x) && hit(x) then Some(|s|)
        else if before.Some? then before
        else if hit(x) then Some(|s|)
        else None
  {
    var s' := s + [x];
    var k := FirstPreferred(s, preferred, hit);
    FirstPreferredIsWinner(s, preferred, hit, if k.Some? then k.value else 0);
    assert forall j :: 0 <= j < |s| ==> s'[j] == s[j];
    if k.Some? && preferred(s[k.value]) {
      assert PreferredWinner(s', preferred, hit, k.value);
      FirstPreferredIsWinner(s', preferred, hit, k.value);
    } else if preferred(x) && hit(x) {
      assert PreferredWinner(s', preferred, hit, |s|);
      FirstPreferredIsWinner(s', preferred, hit, |s|);
    } else if k.Some? {
      assert PreferredWinner(s', preferred, hit, k.value);
      FirstPreferredIsWinner(s', preferred, hit, k.value);
    } else if hit(x) {
      assert PreferredWinner(s', preferred, hit, |s|);
      FirstPreferredIsWinner(s', preferred, hit, |s|);
    } else {
      assert forall j :: 0 <= j < |s'| ==> !hit(s'[j]);
    }
  }
}

=== FILE: startup_config.dfy ===
/**
  The pure decisions the front controller takes at startup before handing
  over to the registry build: which packages to scan for controllers and
  initializers, which marshaller serves each content type, which class
  provides the error-handler factory, and the refusal to start without
  controllers.

  The servlet's init-params are a map (a missing key is Java's `null`);
  what the classpath scanner finds and what reflective construction yields
  are inputs, with `None` for a constructor that threw.
*/
module StartupConfig {
  import opened Wrappers
  import opened JavaStrings
  import opened Declarations
  import opened ControllerDatabase

  /** The servlet's init-params; a name that is not a key reads as `null`. */
  type InitParams = map<string, string>

  const ControllerClassesParam := "controller-classes"
  const ErrorHandlerFactoryParam := "error-handler-factory"
  const EntityMarshallersParam := "entity-marshallers"
  const InitializersParam := "initializers"

  /** Always scanned for initializers, ahead of anything configured. */
  const InternalInitializerPackage := "org.mojavemvc.initialization.internal"

  /** The fallback when neither the init-param nor the app property names a factory. */
  const DefaultErrorHandlerFactoryClass := ExceptionPackage + ".DefaultErrorHandlerFactory"

  const ExceptionPackage := "org.mojavemvc.exception"

  const NamespaceSeparator := ','

  /** `getInitParameter`: `None` for an absent name. */
  function InitParam(params: InitParams, name: string): (r: Option<string>)
    ensures r.Some? <==> name in params
    ensures r.Some? ==> r.value == params[name]
  {
    if name in params then Some(params[name]) else None
  }

  // ---------------------------------------------------------------------
  // Blank strings and namespace lists
  // ---------------------------------------------------------------------

  /** `isEmpty`: null, or nothing but whitespace. */
  function IsEmpty(arg: Option<string>): (b: bool)
    ensures b <==> arg.None? || AllSpace(arg.value)
  {
    match arg
    case None => true
    case Some(s) => BlankIsAllSpace(s); IsBlank(s)
  }

  /** A namespace as it comes out of the list: not blank, already trimmed, separator-free. */
  predicate CleanNamespace(n: string) {
    !IsBlank(n) && Trim(n) == n && NamespaceSeparator !in n
  }

  /** The trimmed non-blank pieces, in order. */
  function KeepNamespaces(pieces: seq<string>): seq<string>
    decreases |pieces|
  {
    if |pieces| == 0 then []
    else
      var rest := KeepNamespaces(pieces[1..]);
      if IsBlank(pieces[0]) then rest else [Trim(pieces[0])] + rest
  }

  /** What the list keeps: exactly the trimmed forms of its non-blank pieces. */
  lemma {:induction false} KeepNamespacesMembers(pieces: seq<string>)
    ensures |KeepNamespaces(pieces)| <= |pieces|
    ensures forall x :: x in KeepNamespaces(pieces) <==>
              exists i :: 0 <= i < |pieces| && !IsBlank(pieces[i]) && Trim(pieces[i]) == x
    decreases |pieces|
  {
    if |pieces| > 0 {
      KeepNamespacesMembers(pieces[1..]);
      assert forall i :: 0 < i < |pieces| ==> pieces[i] == pieces[1..][i - 1];
      forall x | (exists i :: 0 <= i < |pieces| && !IsBlank(pieces[i]) && Trim(pieces[i]) == x)
        ensures x in KeepNamespaces(pieces)
      {
        var i :| 0 <= i < |pieces| && !IsBlank(pieces[i]) && Trim(pieces[i]) == x;
        if i > 0 {
          assert pieces[1..][i - 1] == pieces[i];
        }
      }
    }
  }

  /** The namespaces a comma-separated list names. */
  function Namespaces(ns: string): seq<string>
  {
    KeepNamespaces(JavaSplit(ns, NamespaceSeparator))
  }

  /** Every namespace read from a list is clean. */
  lemma {:induction false} NamespacesAreClean(ns: string)
    ensures forall x :: x in Namespaces(ns) ==> CleanNamespace(x)
  {
    var pieces := JavaSplit(ns, NamespaceSeparator);
    KeepNamespacesMembers(pieces);
    forall x | x in Namespaces(ns) ensures CleanNamespace(x) {
      var i :| 0 <= i < |pieces| && !IsBlank(pieces[i]) && Trim(pieces[i]) == x;
      TrimIdempotent(pieces[i]);
      assert NamespaceSeparator !in pieces[i];
      TrimRemovesOnlySpace(pieces[i]);
    }
  }

  /**
    `addNamespaces`, as its loop runs: the existing entries stay
    in front, and each non-blank piece of the list is appended trimmed, in
    order.
  */
  method AddNamespaces(ns: string, packages: seq<string>) returns (r: seq<string>)
    ensures r == packages + Namespaces(ns)
  {
    var pieces := JavaSplit(ns, NamespaceSeparator);
    r := packages;
    var i := 0;
    while i < |pieces|
      invariant 0 <= i <= |pieces|
      invariant r + KeepNamespaces(pieces[i..]) == packages + KeepNamespaces(pieces)
    {
      KeepNamespacesStep(pieces, i);
      if !IsBlank(pieces[i]) {
        AppendAssoc(r, [Trim(pieces[i])], KeepNamespaces(pieces[i + 1..]));
        r := r + [Trim(pieces[i])];
      }
      i := i + 1;
    }
    assert pieces[i..] == [];
  }

  lemma AppendAssoc<T>(a: seq<T>, b: seq<T>, c: seq<T>)
    ensures a + (b + c) == (a + b) + c
  {
  }

  lemma KeepNamespacesStep(pieces: seq<string>, i: nat)
    requires i < |pieces|
    ensures IsBlank(pieces[i]) ==> KeepNamespaces(pieces[i..]) == KeepNamespaces(pieces[i + 1..])
    ensures !IsBlank(pieces[i]) ==> KeepNamespaces(pieces[i..]) == [Trim(pieces[i])] + KeepNamespaces(pieces[i + 1..])
  {
    assert pieces[i..][1..] == pieces[i + 1..];
  }

  /** Clean names joined with commas read back as the same names. */
  lemma {:induction false} KeepCleanNamespaces(names: seq<string>)
    requires forall i :: 0 <= i < |names| ==> CleanNamespace(names[i])
    ensures KeepNamespaces(names) == names
    decreases |names|
  {
    if |names| > 0 {
      var tail := names[1..];
      assert forall i :: 0 <= i < |tail| ==> CleanNamespace(tail[i]) by {
        forall i | 0 <= i < |tail| ensures CleanNamespace(tail[i]) {
          assert tail[i] == names[i + 1];
        }
      }
      KeepCleanNamespaces(tail);
      KeepHead(names);
    }
  }

  lemma KeepHead(names: seq<string>)
    requires |names| > 0 && CleanNamespace(names[0])
    ensures KeepNamespaces(names) == [names[0]] + KeepNamespaces(names[1..])
  {
  }

  /** Joining clean namespaces with commas and reading the list back gives the same namespaces. */
  lemma {:induction false} NamespacesJoin(names: seq<string>)
    requires forall i :: 0 <= i < |names| ==> CleanNamespace(names[i])
    ensures Namespaces(Join(names, NamespaceSeparator)) == names
  {
    KeepCleanNamespaces(names);
    if |names| == 0 {
      assert JavaSplit("", NamespaceSeparator) == [""];
      assert IsBlank("") && [""][1..] == [];
    } else {
      assert names[|names| - 1] != "" by {
        assert !IsBlank(names[|names| - 1]) && IsBlank("");
      }
      JavaSplitJoin(names, NamespaceSeparator);
    }
  }

  // ---------------------------------------------------------------------
  // Package lists
  // ---------------------------------------------------------------------

  /**
    `getControllerPackages`: a blank or missing controller-classes param
    scans the whole classpath (the single package `""`); otherwise the
    listed namespaces.
  */
  function ControllerPackages(params: InitParams): (r: seq<string>)
    ensures IsEmpty(InitParam(params, ControllerClassesParam)) ==> r == [""]
    ensures !IsEmpty(InitParam(params, ControllerClassesParam)) ==>
              r == Namespaces(params[ControllerClassesParam])
  {
    var p := InitParam(params, ControllerClassesParam);
    if IsEmpty(p) then [""] else Namespaces(p.value)
  }

  /** The whole classpath is scanned exactly when the param is missing or blank. */
  lemma {:induction false} WholeClasspathIff(params: InitParams)
    ensures "" in ControllerPackages(params) <==> IsEmpty(InitParam(params, ControllerClassesParam))
    ensures "" in ControllerPackages(params) ==> ControllerPackages(params) == [""]
  {
    var p := InitParam(params, ControllerClassesParam);
    if !IsEmpty(p) {
      NamespacesAreClean(p.value);
      assert IsBlank("");
    }
  }

  /**
    A param holding only commas is not blank, yet names no namespace, so
    the controller scan is given no package at all.
  */
  lemma {:induction false} CommasOnlyScanNothing(params: InitParams)
    requires ControllerClassesParam in params
    requires var s := params[ControllerClassesParam];
             |s| > 0 && forall i :: 0 <= i < |s| ==> s[i] == NamespaceSeparator
    ensures ControllerPackages(params) == []
  {
    var s := params[ControllerClassesParam];
    assert !IsSpace(s[0]);
    assert NamespaceSeparator in s by { assert s[0] == NamespaceSeparator; }
    SplitAllSomeNonEmpty(s, NamespaceSeparator);
    var pieces := SplitAll(s, NamespaceSeparator);
    DropTrailingEmptyLength(pieces, 0);
    assert pieces[0..] == pieces;
  }

  /**
    `getInitializerPackages`: the internal package first, then whatever
    the initializers param lists.
  */
  function InitializerPackages(params: InitParams): (r: seq<string>)
    ensures |r| >= 1 && r[0] == InternalInitializerPackage
    ensures IsEmpty(InitParam(params, InitializersParam)) ==> r == [InternalInitializerPackage]
    ensures !IsEmpty(InitParam(params, InitializersParam)) ==>
              r[1..] == Namespaces(params[InitializersParam])
  {
    var p := InitParam(params, InitializersParam);
    var rest := if IsEmpty(p) then [] else Namespaces(p.value);
    assert ([InternalInitializerPackage] + rest)[1..] == rest;
    [InternalInitializerPackage] + rest
  }

  /** A comma list that starts with a clean namespace is not blank. */
  lemma {:induction false} JoinNotBlank(names: seq<string>)
    requires |names| > 0 && CleanNamespace(names[0])
    ensures !AllSpace(Join(names, NamespaceSeparator))
  {
    var s := Join(names, NamespaceSeparator);
    BlankIsAllSpace(names[0]);
    var j :| 0 <= j < |names[0]| && !IsSpace(names[0][j]);
    if |names| > 1 {
      JoinPrepend(names[0], names[1..], NamespaceSeparator);
      assert [names[0]] + names[1..] == names;
    }
    assert s[j] == names[0][j];
  }

  /** Every configured initializer namespace is scanned, after the internal one. */
  lemma {:induction false} ConfiguredInitializersScanned(params: InitParams, names: seq<string>)
    requires |names| > 0 && forall i :: 0 <= i < |names| ==> CleanNamespace(names[i])
    requires InitializersParam in params && params[InitializersParam] == Join(names, NamespaceSeparator)
    ensures InitializerPackages(params) == [InternalInitializerPackage] + names
  {
    var s := params[InitializersParam];
    NamespacesJoin(names);
    JoinNotBlank(names);
    assert InitParam(params, InitializersParam) == Some(s);
    assert !IsEmpty(Some(s));
    var r := InitializerPackages(params);
    assert r[1..] == names;
    assert r == [r[0]] + r[1..];
  }

  // ---------------------------------------------------------------------
  // The content-type to marshaller map
  // ---------------------------------------------------------------------

  /** An entity marshaller as far as the map is concerned: its class and the content types it handles. */
  datatype Marshaller = Marshaller(className: string, contentTypes: seq<string>)

  type MarshallerMap = map<string, Marshaller>

  /** `addToEntityMarshallerMap(marshaller, map)`: every handled content type now maps to this marshaller. */
  function Register(cts: seq<string>, m: Marshaller, mm: MarshallerMap): (r: MarshallerMap)
    ensures r.Keys == mm.Keys + (set ct | ct in cts)
    ensures forall ct :: ct in cts ==> r[ct] == m
    ensures forall ct :: ct in mm && ct !in cts ==> r[ct] == mm[ct]
    decreases |cts|
  {
    if |cts| == 0 then mm
    else
      var r := Register(cts[1..], m, mm[cts[0] := m]);
      assert forall ct :: ct in cts <==> ct == cts[0] || ct in cts[1..];
      r
  }

  /**
    `addToEntityMarshallerMap(class, map)`: a class whose constructor threw
    (`None`) adds nothing.
  */
  function RegisterConstructed(c: Option<Marshaller>, mm: MarshallerMap): MarshallerMap
  {
    match c
    case None => mm
    case Some(m) => Register(m.contentTypes, m, mm)
  }

  /** Registers the marshallers one after another, in order. */
  function RegisterAll(cs: seq<Option<Marshaller>>, mm: MarshallerMap): MarshallerMap
    decreases |cs|
  {
    if |cs| == 0 then mm else RegisterConstructed(cs[|cs| - 1], RegisterAll(cs[..|cs| - 1], mm))
  }

  /** The last constructed marshaller in `cs` that handles `ct`: the reference for "last wins". */
  function LastHandler(cs: seq<Option<Marshaller>>, ct: string): (r: Option<Marshaller>)
    ensures r.Some? ==> ct in r.value.contentTypes && Some(r.value) in cs
    ensures r.None? ==> forall i :: 0 <= i < |cs| && cs[i].Some? ==> ct !in cs[i].value.contentTypes
    decreases |cs|
  {
    if |cs| == 0 then None
    else
      var last := cs[|cs| - 1];
      if last.Some? && ct in last.value.contentTypes then last
      else
        var r := LastHandler(cs[..|cs| - 1], ct);
        assert forall i :: 0 <= i < |cs| - 1 ==> cs[i] == cs[..|cs| - 1][i];
        assert r.Some? ==> Some(r.value) in cs by {
          if r.Some? {
            var j :| 0 <= j < |cs| - 1 && cs[..|cs| - 1][j] == Some(r.value);
            assert cs[j] == Some(r.value);
          }
        }
        r
  }

  /**
    Last wins: after registering `cs` on top of `mm`, a content type some
    constructed marshaller handles maps to the LAST such marshaller, and
    every other entry of `mm` is untouched.
  */
  lemma {:induction false} LastWins(cs: seq<Option<Marshaller>>, mm: MarshallerMap, ct: string)
    ensures LastHandler(cs, ct).Some? ==> ct in RegisterAll(cs, mm) && RegisterAll(cs, mm)[ct] == LastHandler(cs, ct).value
    ensures LastHandler(cs, ct).None? ==> (ct in RegisterAll(cs, mm) <==> ct in mm)
    ensures LastHandler(cs, ct).None? && ct in mm ==> RegisterAll(cs, mm)[ct] == mm[ct]
    decreases |cs|
  {
    if |cs| > 0 {
      LastWins(cs[..|cs| - 1], mm, ct);
    }
  }

  /** Registering `a` and then `b` is registering `a + b`. */
  lemma {:induction false} RegisterAllAppend(a: seq<Option<Marshaller>>, b: seq<Option<Marshaller>>, mm: MarshallerMap)
    ensures RegisterAll(a + b, mm) == RegisterAll(b, RegisterAll(a, mm))
    decreases |b|
  {
    if |b| == 0 {
      assert a + b == a;
    } else {
      assert (a + b)[..|a + b| - 1] == a + b[..|b| - 1];
      RegisterAllAppend(a, b[..|b| - 1], mm);
    }
  }

  /** A marshaller class that fails to construct leaves the map exactly as it was. */
  lemma {:induction false} FailedConstructionIgnored(cs: seq<Option<Marshaller>>, i: nat, mm: MarshallerMap)
    requires i < |cs| && cs[i].None?
    ensures RegisterAll(cs, mm) == RegisterAll(cs[..i] + cs[i + 1..], mm)
  {
    assert cs == cs[..i] + [cs[i]] + cs[i + 1..];
    RegisterAllAppend(cs[..i] + [cs[i]], cs[i + 1..], mm);
    RegisterAllAppend(cs[..i], [cs[i]], mm);
    assert [cs[i]][..0] == [];
    RegisterAllAppend(cs[..i], cs[i + 1..], mm);
  }

  /**
    `scanEntityMarshallers`: the built-in plain-text, JSON and XML
    marshallers first, then, when the entity-marshallers param is not
    blank, the custom classes found in the listed namespaces (`custom`, in
    the order the scan yields them; `None` for one that failed to
    construct).
  */
  function EntityMarshallers(params: InitParams, plainText: Marshaller, json: Marshaller, xml: Marshaller,
                             custom: seq<Option<Marshaller>>): MarshallerMap
  {
    var builtIn := RegisterAll([Some(plainText), Some(json), Some(xml)], map[]);
    if IsEmpty(InitParam(params, EntityMarshallersParam)) then builtIn else RegisterAll(custom, builtIn)
  }

  /**
    The map holds exactly the content types some registered marshaller
    handles, and each maps to the last one: user marshallers override the
    built-in ones, and custom classes count only when the param is set.
  */
  lemma {:induction false} EntityMarshallersLastWins(params: InitParams, plainText: Marshaller, json: Marshaller,
                                                    xml: Marshaller, custom: seq<Option<Marshaller>>, ct: string)
    ensures var used := [Some(plainText), Some(json), Some(xml)]
                        + (if IsEmpty(InitParam(params, EntityMarshallersParam)) then [] else custom);
            var r := EntityMarshallers(params, plainText, json, xml, custom);
            (ct in r <==> LastHandler(used, ct).Some?)
            && (ct in r ==> r[ct] == LastHandler(used, ct).value)
  {
    var builtIn := [Some(plainText), Some(json), Some(xml)];
    var extra := if IsEmpty(InitParam(params, EntityMarshallersParam)) then [] else custom;
    RegisterAllAppend(builtIn, extra, map[]);
    assert builtIn + [] == builtIn;
    LastWins(builtIn + extra, map[], ct);
  }

  // ---------------------------------------------------------------------
  // The error-handler factory
  // ---------------------------------------------------------------------

  /**
    `getErrorHandlerFactoryName`: the init-param if it is not blank, else
    the application's default-factory property if that is not blank, else
    the built-in default.  The chosen value is returned untrimmed.
    `appProperty` is the property's value (`None` when unset).
  */
  function ErrorHandlerFactoryName(params: InitParams, appProperty: Option<string>): (r: string)
    ensures !IsEmpty(InitParam(params, ErrorHandlerFactoryParam)) ==> r == params[ErrorHandlerFactoryParam]
    ensures IsEmpty(InitParam(params, ErrorHandlerFactoryParam)) && !IsEmpty(appProperty) ==> r == appProperty.value
    ensures IsEmpty(InitParam(params, ErrorHandlerFactoryParam)) && IsEmpty(appProperty) ==>
              r == DefaultErrorHandlerFactoryClass
    ensures !IsEmpty(Some(r))
  {
    var p := InitParam(params, ErrorHandlerFactoryParam);
    if !IsEmpty(p) then p.value
    else if !IsEmpty(appProperty) then appProperty.value
    else
      assert DefaultErrorHandlerFactoryClass[0] == 'o';
      DefaultErrorHandlerFactoryClass
  }

  /** A set init-param decides alone: the application property is then never consulted. */
  lemma {:induction false} InitParamDecides(params: InitParams, p1: Option<string>, p2: Option<string>)
    requires !IsEmpty(InitParam(params, ErrorHandlerFactoryParam))
    ensures ErrorHandlerFactoryName(params, p1) == ErrorHandlerFactoryName(params, p2)
  {
  }

  // ---------------------------------------------------------------------
  // Creating the controller database
  // ---------------------------------------------------------------------

  datatype StartupError =
    /** The scan found no controller; `scanControllerClasses` throws a configuration exception. */
    | NoControllers
    /** The registry build rejected a declaration. */
    | InvalidDeclarations(cause: ConfigError)

  /** `scanControllerClasses`: a null or empty scan result is refused. */
  function ScanControllerClasses(scanned: Option<seq<ControllerDecl>>): (r: Result<seq<ControllerDecl>, StartupError>)
    ensures r.Success? <==> scanned.Some? && |scanned.value| > 0
    ensures r.Success? ==> r.value == scanned.value
    ensures r.Failure? ==> r.error == NoControllers
  {
    if scanned.None? || |scanned.value| == 0 then Failure(NoControllers) else Success(scanned.value)
  }

  /**
    `createControllerDatabase` without the I/O: the scanned controllers
    must be non-empty and must pass the registry build.
  */
  function CreateControllerDatabase(scanned: Option<seq<ControllerDecl>>): (r: Result<Registry, StartupError>)
    ensures r.Success? <==> scanned.Some? && |scanned.value| > 0 && ValidRegistry(scanned.value)
    ensures r.Success? ==> r.value.controllers == scanned.value
    ensures r.Failure? && scanned.Some? && |scanned.value| > 0 ==> r.error.InvalidDeclarations?
  {
    var cs :- ScanControllerClasses(scanned);
    match Build(cs)
    case Success(reg) => Success(reg)
    case Failure(e) => Failure(InvalidDeclarations(e))
  }
}

=== FILE: wrappers.dfy ===
/** Failure-compatible wrappers standing in for Java's `null` and for thrown exceptions. */
module Wrappers {

  /** A value that may be absent; `None` plays the role of a Java `null`. */
  datatype Option<+T> = None | Some(value: T) {

    predicate IsFailure() {
      None?
    }

    function PropagateFailure<U>(): Option<U>
      requires None?
    {
      None
    }

    function Extract(): T
      requires Some?
    {
      value
    }

    function GetOr(default: T): T {
      match this
      case Some(v) => v
      case None => default
    }
  }

  /** Either a computed value or the error a Java method would have thrown. */
  datatype Result<+R, +E> = Success(value: R) | Failure(error: E) {

    predicate IsFailure() {
      Failure?
    }

    function PropagateFailure<U>(): Result<U, E>
      requires Failure?
    {
      Failure(error)
    }

    function Extract(): R
      requires Success?
    {
      value
    }
  }
}
